=== FILE: README.md ===
# Aleppo recipe import, scaling and list filtering — a Dafny model

Aleppo is a self-hosted recipe manager. This project models the logic at the
heart of three of its features and proves properties of that model:

- **Scaling** (lib/scale-ingredient.ts). An ingredient is rewritten for a
  serving factor. Its stored amount is used when it parses. Otherwise the
  leading quantity of the raw line is scaled, and so is every number inside
  its parentheses, except a temperature. Quantities are exact rationals
  (`Rational`). They are read by the token pattern and the `fraction.js`
  string parser and written back as `fraction.js` writes them (`Quantity`).
- **Importing** (lib/recipe-scraper.ts, lib/extract-recipe-client.ts,
  lib/bookmarklet.ts, components/recipes/import-flow.tsx). A Schema.org
  `Recipe` is searched for in a page's parsed `ld+json` scripts, through
  arrays, `@graph` and `mainEntity`. Its fields are normalised: HTML entities
  (`Entities`), ISO 8601 durations (`Durations`), the widest image
  (`Images`), ingredient and instruction lines (`IngredientLines`),
  instructions, keywords and servings (`JsonLdFields`), and the record itself
  (`Extractor`). The model also covers the fetch outcomes with their error
  strings (`Scrape`), and the bookmarklet's microdata fallback and popup
  handshake (`Bookmarklet`). It covers the import page's form defaults, tag
  editor, submission body and fetch handler, and the edit form's defaults and
  request (`Forms`).
- **Browsing and access** (components/recipes/recipe-list.tsx,
  auth.config.ts). This covers the tag cloud, the search and tag filters, the
  optimistic queue switch (`RecipeList`), the route guard, and the `AUTH_URL`
  fix-up (`Auth`).

Model conventions:

- JSON values are a `Json` datatype (`JsonValue`). An object is a list of
  members in which the last one with a key wins, as in `JSON.parse`.
- A JavaScript `TypeError` is the `Throws` outcome of `Outcome`
  (`Wrappers`).
- Three host conversions are parameters: `String.fromCharCode`, `Number` of
  a non-number, and `fraction.js`'s `simplify(0.05)`.

## Model

| member | source | states |
|---|---|---|
| Quantity.TokenLen | lib/scale-ingredient.ts:54 | the leading `\d+\s+\d+\/\d+\|\d+\/\d+\|\d+\.?\d*` match is non-empty exactly when the text starts with a digit, and a digit never follows it |
| Quantity.ParseFractionString | lib/scale-ingredient.ts:95-112 | a mixed number `w n/d` is rejected only for `d = 0` and otherwise denotes (w·d+n)/d; any other text is accepted only as a positive value |
| Quantity.FormatFraction | lib/scale-ingredient.ts:119-129 | a value that is not positive is written "0"; a positive whole value is written as decimal digits that read back as the value; the result is never empty |
| Quantity.ParseWhole | lib/scale-ingredient.ts:95-112 | a written whole number parses back to itself |
| Quantity.ParseProper | lib/scale-ingredient.ts:95-112 | `n/d` written from a reduced fraction parses back to it |
| Quantity.ParseMixed | lib/scale-ingredient.ts:97-104 | `w n/d` written from a reduced improper fraction parses back to it |
| Quantity.WrittenRoundTrip | lib/scale-ingredient.ts:125 | whatever `toFraction(true)` writes for a positive reduced value parses back to that value |
| Quantity.FormatParseRoundTrip | lib/scale-ingredient.ts:95-129 | a positive amount that `simplify` leaves alone survives format-then-parse unchanged |
| Quantity.ParseRejectsZero | lib/scale-ingredient.ts:106-108 | an all-digit zero is not a positive amount and is rejected |
| Quantity.ParseRejectsZeroDenominator | lib/scale-ingredient.ts:106-110 | `n/0` is rejected |
| Quantity.TokenOfFormatted | lib/scale-ingredient.ts:54 | a formatted amount followed by a tail that cannot extend it is matched as a whole by the token pattern |
| Rational.Normalize | lib/scale-ingredient.ts:103 | the reduced fraction denotes n/d, is zero or positive exactly as n/d is, and a fraction already reduced is kept as it is |
| Rational.Mul | lib/scale-ingredient.ts:23 | the reduced product denotes the product of the two values, and is zero or positive exactly as that product is |
| Rational.CanonicalUnique | lib/scale-ingredient.ts:103 | two reduced fractions that denote the same value are equal |
| Scaler.Pieces | lib/scale-ingredient.ts:76 | the split of a text into plain characters and `(…)` groups keeps every group free of `)` and non-empty |
| Scaler.PiecesUnsplit | lib/scale-ingredient.ts:76 | joining the pieces gives back the text |
| Scaler.Chunks | lib/scale-ingredient.ts:77-78 | every numeric token found inside a group starts with a digit |
| Scaler.ChunksUnchunk | lib/scale-ingredient.ts:77-78 | joining the chunks gives back the group's text |
| Scaler.ScaleParentheticalsWithoutParen | lib/scale-ingredient.ts:75-89 | text without a parenthesis is left as it is |
| Scaler.ScaleParentheticalsWithoutDigits | lib/scale-ingredient.ts:75-89 | text without a digit is left as it is |
| Scaler.ScaleParentheticalsGroup | lib/scale-ingredient.ts:76-88 | a group is rewritten in place with its inner text scaled, and the text around it is left alone |
| Scaler.ScaleInnerToken | lib/scale-ingredient.ts:79-84 | a numeric token inside a group is replaced by its scaled form unless a temperature mark follows it |
| Scaler.LineRest | lib/scale-ingredient.ts:54 | `(.*)` takes the longest prefix free of line terminators |
| Scaler.ScaleRawString | lib/scale-ingredient.ts:52-67 | a result exactly when the line starts with a digit and its leading token parses; the result is the scaled, formatted token followed by the rest of the line with its groups scaled |
| Scaler.DescriptorsLayout | lib/scale-ingredient.ts:26-31 | unit and name each follow a single space, notes follow ", ", and an absent or empty part leaves no trace |
| Scaler.StructuredLine | lib/scale-ingredient.ts:26-31 | the rebuilt line is the formatted amount followed by the descriptors |
| Scaler.ScaleIngredient | lib/scale-ingredient.ts:15-38 | with a usable stored amount, that amount scaled and followed by the descriptors; otherwise the raw-line path |
| Scaler.ScaleIngredientPaths | lib/scale-ingredient.ts:20-37 | the structured path ignores the raw text, and the raw path ignores unit, name and notes |
| Scaler.ScaleWrittenLine | lib/scale-ingredient.ts:52-67 | a line led by a written quantity q scales to the formatted q·factor followed by the scaled rest |
| Scaler.RejectedLine | lib/scale-ingredient.ts:60-61 | a leading token that does not parse makes the line unscalable |
| Scaler.ScaleZeroLine | lib/scale-ingredient.ts:60-61 | a line led by zero is unscalable |
| Scaler.AcceptedLine | lib/scale-ingredient.ts:56-64 | a line whose leading token parses to q scales to the formatted q·factor followed by the scaled rest of the line |
| Scaler.ParseZeroMixed | lib/scale-ingredient.ts:97-104 | a mixed number whose whole part and numerator are zero, over a non-zero denominator, parses, to zero |
| Scaler.ScaleZeroMixedLine | lib/scale-ingredient.ts:52-104 | a line led by a mixed number whose whole part and numerator are zero is not rejected: it scales to "0" followed by the scaled rest of the line |
| Scaler.ScaleZeroDenominatorLine | lib/scale-ingredient.ts:60-61 | a line led by `n/0` is unscalable |
| Scaler.ScaleRawAtOne | lib/scale-ingredient.ts:52-67 | at factor one, a line led by a formatted quantity, with no parenthesis, is its own scaled form |
| Scaler.ScaleIngredientAtOne | lib/scale-ingredient.ts:15-33 | at factor one, a structured ingredient becomes its own rebuilt line |
| Scaler.ScaleWholeToken | lib/scale-ingredient.ts:82-84 | a whole number n inside a group scales by k to n·k |
| ScalerExamples.ExampleMixedBecomesWhole | lib/scale-ingredient.ts:46 | "1 1/2 cups flour" at 2× is "3 cups flour" |
| ScalerExamples.ExampleFractionDoubles | lib/scale-ingredient.ts:47 | "1/4 cup butter" at 2× is "1/2 cup butter" when `simplify` keeps 1/2 |
| ScalerExamples.ExampleWholeDoubles | lib/scale-ingredient.ts:48 | "2 large eggs" at 2× is "4 large eggs" |
| ScalerExamples.ExampleParentheticalScaled | lib/scale-ingredient.ts:49 | "7 1/4 ounces white sugar (1 cup; 205g)" at 2× is "14 1/2 ounces white sugar (2 cup; 410g)" |
| ScalerExamples.ExampleNoQuantity | lib/scale-ingredient.ts:50 | "salt to taste" cannot be scaled |
| ScalerExamples.ExampleTemperatureKept | lib/scale-ingredient.ts:80-81 | the number in "(heat to 350 °F)" is left alone at any factor |
| ScalerExamples.ExampleZeroRejected | lib/scale-ingredient.ts:106-108 | "0 cups" cannot be scaled |
| ScalerExamples.ExampleZeroMixedKept | lib/scale-ingredient.ts:97-104 | "0 0/3 cups" scales to "0 cups" at any factor |
| ScalerExamples.ExampleZeroDenominatorRejected | lib/scale-ingredient.ts:106-110 | "1/0 cup" cannot be scaled |
| ScalerExamples.ExampleStructured | lib/scale-ingredient.ts:20-32 | the stored amount "1 1/2", unit "cups", name "flour" and notes "sifted" at 2× give "3 cups flour, sifted", whatever the raw text |
| Entities.ReplaceAllInverse | lib/recipe-scraper.ts:19-25 | replacing a character by its entity and the entity back restores a text with no `&` |
| Entities.HexRun | lib/recipe-scraper.ts:27 | the longest run of hexadecimal digits at the front |
| Entities.DecimalRef | lib/recipe-scraper.ts:26 | a decimal reference `&#digits;` is recognised exactly when the text begins with one, and the result is its whole run of digits |
| Entities.DecimalRefOf | lib/recipe-scraper.ts:26 | every written `&#digits;` is recognised with exactly its digits, whatever follows it |
| Entities.DecodeDecimalRef | lib/recipe-scraper.ts:26 | a decimal reference at the front becomes the character of its base-ten value, and decoding resumes after its `;` |
| Entities.HexRef | lib/recipe-scraper.ts:27-29 | a hexadecimal reference `&#xhex;` is recognised exactly when the text begins with one, and the result is its whole run of hexadecimal digits |
| Entities.HexRefOf | lib/recipe-scraper.ts:27-29 | every written `&#xhex;` is recognised with exactly its digits, whatever follows it |
| Entities.DecodeHexRef | lib/recipe-scraper.ts:27-29 | a hexadecimal reference at the front becomes the character of its base-sixteen value, and decoding resumes after its `;` |
| Entities.DecodeWithoutAmpersand | lib/recipe-scraper.ts:17-30 | a text without `&` is decoded to itself |
| Entities.DoubleDecoding | lib/recipe-scraper.ts:19-20 | the passes run in order, so "&amp;lt;" decodes to "<" |
| Durations.FindPT | lib/recipe-scraper.ts:35 | the search finds the leftmost "PT" |
| Durations.MinutesOf | lib/recipe-scraper.ts:35-40 | a text without "PT" has no minutes, and any minutes found are positive |
| Durations.ParseTimeToMinutes | lib/recipe-scraper.ts:32-41 | a missing or falsy time gives nothing; a truthy non-string throws; a string gives the hours and minutes read after its first "PT", in minutes, when positive; a result is positive |
| Durations.WrittenRoundTrip | lib/recipe-scraper.ts:35-40 | "PT{h}H{m}M" reads back as h·60+m minutes when that is positive, and as nothing otherwise |
| DurationExamples.ExampleHoursAndMinutes | lib/recipe-scraper.ts:34-40 | "PT1H30M" is 90 minutes |
| DurationExamples.ExampleMinutes | lib/recipe-scraper.ts:35-40 | "PT45M" is 45 minutes |
| DurationExamples.ExampleHours | lib/recipe-scraper.ts:35-40 | "PT2H" is 120 minutes |
| Images.UrlOf | lib/recipe-scraper.ts:81-82 | a string image is its own URL unless it is empty; a non-object non-string has none |
| Images.RatioOf | lib/recipe-scraper.ts:84-90 | a ratio exists only for an object and is positive |
| Images.PickWidest | lib/recipe-scraper.ts:71-102 | when some image has dimensions, the first one with the strictly widest ratio wins |
| Images.PickLastUrl | lib/recipe-scraper.ts:95-98 | when none has dimensions, the last image with a URL wins |
| Images.PickNone | lib/recipe-scraper.ts:80-82 | with no image URL at all there is no pick |
| Images.PickFromEntries | lib/recipe-scraper.ts:71-102 | the pick is always one of the images' own URLs |
| IngredientLines.RunEnd | lib/recipe-scraper.ts:50 | a character-class run ends at the first character outside the class |
| IngredientLines.MatchLine | lib/recipe-scraper.ts:49-51 | a match found fits the ingredient pattern |
| IngredientLines.MatchLineComplete | lib/recipe-scraper.ts:49-51 | when any split fits the pattern, the matcher finds one |
| IngredientLines.Clean | lib/recipe-scraper.ts:47 | the cleaned line is trimmed and single-spaced, keeps every visible character in order, and is empty exactly for a blank line |
| IngredientLines.CleanIdempotent | lib/recipe-scraper.ts:47 | cleaning twice is cleaning once |
| IngredientLines.ParseIngredient | lib/recipe-scraper.ts:46-60 | the raw text is the cleaned line, a name is always present, and there are no notes |
| IngredientLines.ParseIngredientParts | lib/recipe-scraper.ts:52-58 | the amount is made of digits, separators and vulgar fractions; the unit is one or two ASCII words; the name is a suffix of the line |
| IngredientLines.ParseIngredientStable | lib/recipe-scraper.ts:43-62 | parsing the raw text of a parsed ingredient gives the same ingredient |
| IngredientLines.NonBlankKept | lib/recipe-scraper.ts:45 | the filter keeps only lines with a visible character |
| IngredientLines.ParseIngredients | lib/recipe-scraper.ts:43-62 | one ingredient per non-blank line |
| IngredientLines.ParseIngredientsAppend | lib/recipe-scraper.ts:43-62 | parsing distributes over concatenation |
| IngredientLines.ParseIngredientsStable | lib/recipe-scraper.ts:43-62 | re-parsing the raw texts gives the same list |
| IngredientLines.ParseInstructions | lib/recipe-scraper.ts:64-68 | one step per non-blank line |
| IngredientLines.ParseInstructionsNumbered | lib/recipe-scraper.ts:64-68 | step i+1 at position i, holding the trimmed text of the i-th non-blank line |
| IngredientLines.ParseInstructionsStable | lib/recipe-scraper.ts:64-68 | re-parsing the step texts gives the same steps |
| IngredientLines.ParseInstructionsAppend | lib/recipe-scraper.ts:64-68 | the steps of a concatenation are the first part's, then the second's renumbered after them |
| IngredientLines.TextsNumbered | lib/recipe-scraper.ts:67 | numbering keeps the texts |
| IngredientExamples.ExampleOneWordUnit | lib/recipe-scraper.ts:49-58 | a cleaned line of an amount, one word and a name splits into those three parts |
| IngredientExamples.ExampleTwoWordUnit | lib/recipe-scraper.ts:49-58 | a cleaned line of an amount, two words and a name splits into the amount, the two-word unit and the name |
| JsonValue.Lookup | lib/recipe-scraper.ts:164-166 | a key's value is that of its last member |
| JsonValue.LookupLast | lib/recipe-scraper.ts:164-166 | a value found belongs to the last member with that key |
| JsonValue.LookupSkip | lib/recipe-scraper.ts:164-166 | later members with other keys do not change a lookup |
| JsonLdFields.DecodeValue | lib/recipe-scraper.ts:172 | decoding succeeds exactly for a string |
| JsonLdFields.DecodeIfTruthy | lib/recipe-scraper.ts:213-214 | a truthy non-string throws; a result is present exactly when the value is truthy |
| JsonLdFields.DecodeAll | lib/recipe-scraper.ts:170-172 | the list decodes exactly when every item is a string, item by item |
| JsonLdFields.RawIngredients | lib/recipe-scraper.ts:170-172 | a non-array gives no lines; an array gives its decoded items |
| JsonLdFields.Concat | lib/recipe-scraper.ts:174-187 | the pieces combine exactly when none throws |
| JsonLdFields.SubStepTexts | lib/recipe-scraper.ts:182-184 | a null sub-step, or one whose truthy `text` is not a string, throws; at most one line comes from each |
| JsonLdFields.StepTexts | lib/recipe-scraper.ts:176-185 | a string step is one decoded line; a null step throws; any other non-object gives nothing |
| JsonLdFields.RawInstructions | lib/recipe-scraper.ts:174-187 | a non-array gives nothing; an array reads exactly when every step can be read, and then gives the lines of each step in order |
| JsonLdFields.StepsRead | lib/recipe-scraper.ts:175-186 | the lines of a step list are those of each step in order, or a throw when some step cannot be read |
| JsonLdFields.NullStepThrows | lib/recipe-scraper.ts:179 | one null step makes the whole instruction list throw |
| JsonLdFields.HowToSectionTexts | lib/recipe-scraper.ts:181-184 | a `HowToSection` gives the lines of its sub-steps |
| JsonLdFields.StepsAppend | lib/recipe-scraper.ts:175-186 | the lines of a concatenation of steps are the lines of each part in order |
| JsonLdFields.TruthyOnly | lib/recipe-scraper.ts:223 | `filter(Boolean)` keeps only truthy values |
| JsonLdFields.Tags | lib/recipe-scraper.ts:201-206 | the tags are truthy; a non-string non-array gives none; an array gives its truthy items |
| JsonLdFields.KeywordsRoundTrip | lib/recipe-scraper.ts:202-203 | a comma-joined list of trimmed, non-empty words with no comma splits back into those words |
| JsonLdFields.JoinSplit | lib/recipe-scraper.ts:203 | splitting a join on a separator absent from the pieces gives the pieces |
| JsonLdFields.CookTime | lib/recipe-scraper.ts:220 | the cook time if there is one; otherwise the total time, but only when there is no prep time |
| JsonLdFields.ServingsOfText | lib/recipe-scraper.ts:122 | `parseInt(…) \|\| undefined`: a non-zero leading integer, and nothing else |
| JsonLdFields.ServerServings | lib/recipe-scraper.ts:117-124 | a positive number as it is, a string by its leading integer, an array by its first item, nothing otherwise |
| JsonLdFields.ClientServings | lib/extract-recipe-client.ts:158-163 | a number is kept as it is, even zero or negative; a string gives the non-zero integer it starts with; anything else, arrays included, gives no servings |
| JsonLdFields.ServingsAgree | lib/extract-recipe-client.ts:158-163 | on a string or a positive number the two copies agree |
| JsonLdFields.ServingsDiffer | lib/extract-recipe-client.ts:158-163 | the two copies disagree exactly on a number that is not positive, which only the client keeps, and on an array whose first item the server reads |
| JsonLdFields.ServingsOfArray | lib/recipe-scraper.ts:120 | the server reads an array by its first item, and the client reads nothing |
| Extractor.ImageUrl | lib/recipe-scraper.ts:189-199 | a string image is kept; any other result is truthy |
| Extractor.ExtractOne | lib/recipe-scraper.ts:162-225 | nothing exactly for a node that is not a recipe; a record found has tags and no source name |
| Extractor.SharedFields | lib/recipe-scraper.ts:162-225 | the fields both copies read alike; a record read carries no servings and no source name, and always has tags |
| Extractor.FindRecipeNode | lib/recipe-scraper.ts:127-147 | non-containers hold nothing; a record found has no source name yet |
| Extractor.FindNothing | lib/recipe-scraper.ts:127-147 | the search finds nothing exactly when no node it visits is a recipe |
| Extractor.FindSound | lib/recipe-scraper.ts:127-147 | a record found is the extraction of a recipe node reachable from the root |
| Extractor.FirstHitWins | lib/recipe-scraper.ts:129-134 | in an array, the first element holding a recipe decides the result |
| Extractor.RecipeNodeFirst | lib/recipe-scraper.ts:136-137 | a recipe object is taken before its `@graph` or `mainEntity` |
| Extractor.ClientMirrorsServer | lib/extract-recipe-client.ts:106-167 | the client's record is the server's with the client's own servings |
| Extractor.FindMirrors | lib/extract-recipe-client.ts:174-203 | both searches find the same record up to servings |
| Extractor.ExtractFromScripts | lib/recipe-scraper.ts:149-160 | the source name is the site's, and an image is truthy or absent |
| Extractor.ExtractNothing | lib/recipe-scraper.ts:149-160 | no recipe exactly when no script holds a recipe node the search visits |
| Scrape.Parsed | lib/recipe-scraper.ts:236-243 | the scripts that parsed, and only those |
| Scrape.ParsedAppend | lib/recipe-scraper.ts:237-243 | the parsed scripts of a concatenation are those of each part |
| Scrape.MalformedSkipped | lib/recipe-scraper.ts:240-242 | a malformed script changes nothing |
| Scrape.PageTitle | lib/recipe-scraper.ts:245-248 | the trimmed, decoded `<title>` when it is not blank, else the decoded `og:title` |
| Scrape.ScrapeFromHtml | lib/recipe-scraper.ts:227-278 | it throws exactly when the extraction does; otherwise a record is always returned with the site as its source, and the only error is the structured-data one, with which the record has the page title and no ingredients, steps or tags |
| Scrape.ScrapeFoundIff | lib/recipe-scraper.ts:261-264 | no error exactly when a script holds a recipe |
| Scrape.ScrapeIgnoresMalformed | lib/recipe-scraper.ts:237-243 | inserting a malformed script changes nothing |
| Scrape.StatusError | lib/recipe-scraper.ts:314-316 | the error is "blocked" exactly for status 403 |
| Scrape.ScrapeFromUrl | lib/recipe-scraper.ts:280-330 | a failed fetch gives "Failed to fetch URL"; a non-ok response gives no recipe and its status error; an ok one scrapes the page |
| Scrape.BlockedIff | lib/recipe-scraper.ts:314-317 | "blocked" exactly for a 403 response |
| Scrape.NoRecipeIff | lib/recipe-scraper.ts:306-327 | no recipe exactly when the fetch failed or the response was not ok |
| Bookmarklet.BookmarkletPayload | lib/bookmarklet.ts:70 | the link is `javascript:` followed by the encoded code |
| Bookmarklet.TrimmedNonEmpty | lib/bookmarklet.ts:31 | the kept texts are trimmed and non-empty |
| Bookmarklet.TrimmedNonEmptyAppend | lib/bookmarklet.ts:31 | the filter distributes over concatenation |
| Bookmarklet.StripServings | lib/bookmarklet.ts:33 | the result is a suffix; text is removed only after a leading "servings:" in any case, and then no space is left at the front |
| Bookmarklet.StripServingsLabel | lib/bookmarklet.ts:33 | "Servings:" and spaces before a value leave exactly the value |
| Bookmarklet.TimeValue | lib/bookmarklet.ts:35 | the `datetime` attribute when it is set and not empty, else the trimmed text |
| Bookmarklet.InstructionTexts | lib/bookmarklet.ts:36-46 | the instruction elements when there are any; else the directions' paragraphs, or the directions' whole text; the texts are trimmed and non-empty |
| Bookmarklet.Microdata | lib/bookmarklet.ts:25-48 | a node is added exactly when there is a recipe scope with a name or an ingredient |
| Bookmarklet.Jsonld | lib/bookmarklet.ts:20-47 | the parsed scripts, followed by the microdata node when there is one |
| Bookmarklet.MicrodataFields | lib/bookmarklet.ts:27-46 | the node's type is "Recipe", with the kept ingredients and one `HowToStep` per instruction text |
| Bookmarklet.MicrodataReadBack | lib/bookmarklet.ts:27-47 | the extractor takes the node for a recipe and reads back its ingredients and instruction texts, decoded |
| Bookmarklet.Handle | lib/bookmarklet.ts:59-64 | a message that is not the ready signal changes nothing; a removed listener stays removed; the first ready signal posts once and removes it |
| Bookmarklet.FirstSettling | lib/bookmarklet.ts:59-66 | the first event that ends the handshake, if any |
| Bookmarklet.HandshakeDescribed | lib/bookmarklet.ts:56-66 | after any events, the listener and the replies are as the handshake describes |
| Bookmarklet.AtMostOneReply | lib/bookmarklet.ts:58-63 | the payload is posted at most once |
| Bookmarklet.ReplyAnswersReady | lib/bookmarklet.ts:59-66 | a reply answers a ready signal that came before any timeout, with the popup open |
| Bookmarklet.FirstReadyAnswered | lib/bookmarklet.ts:59-64 | the first ready signal before a timeout is the one answered |
| Bookmarklet.TimeoutSilences | lib/bookmarklet.ts:66 | nothing is answered after the timeout |
| Bookmarklet.BlockedPopupSilent | lib/bookmarklet.ts:57 | a blocked popup means nothing is posted |
| Forms.Rows | components/recipes/import-flow.tsx:61-66 | the rows are the texts, or one empty row when there are none |
| Forms.OrEmpty | components/recipes/import-flow.tsx:73 | a missing or null value becomes the empty string |
| Forms.RecipeToFormDefaults | components/recipes/import-flow.tsx:53-75 | no defaults without a recipe; otherwise each ingredient row is an ingredient's raw text and each instruction row a step's text, with one empty row for an empty list; title "", tags [] and url "" when missing |
| Forms.IsKnownBlockedSite | components/recipes/import-flow.tsx:78-89 | true exactly when the URL contains one of the six hints |
| Forms.CookingHintCovered | components/recipes/import-flow.tsx:80-81 | a URL containing "cooking.nytimes.com" also contains "nytimes.com" |
| Forms.AddTag | components/recipes/import-flow.tsx:187-191 | the input is cleared; the tags grow by the trimmed, lower-cased input exactly when it is non-empty and new, and nothing else changes |
| Forms.RemoveTag | components/recipes/import-flow.tsx:193-195 | the tags left are exactly the old ones other than the removed tag |
| Forms.RemoveTagDistinct | components/recipes/import-flow.tsx:193-195 | removal keeps the tags free of duplicates |
| Forms.RemoveAppend | components/recipes/import-flow.tsx:193-195 | removal distributes over concatenation |
| Forms.RemoveUndoesAdd | components/recipes/import-flow.tsx:187-195 | removing a tag just added restores the tags |
| Forms.AddAfterRemove | components/recipes/import-flow.tsx:187-195 | adding a tag back after removing it puts it at the end |
| Forms.Submit | components/recipes/import-flow.tsx:197-202 | each ingredient row is sent as its raw text and its name, and each instruction row is numbered i+1 in order |
| Forms.ImportRoundTrip | components/recipes/import-flow.tsx:53-202 | a recipe's ingredient texts and step texts survive being put in the form and submitted |
| Forms.ParsedStepsNumbered | components/recipes/import-flow.tsx:197-202 | resubmitting parsed steps renumbers them as they were |
| Forms.HandleFetch | components/recipes/import-flow.tsx:144-185 | a blank URL does nothing; a failed call keeps the step and form and raises a toast; "blocked" moves to review and keeps the form; otherwise the error is shown and the form is filled from the recipe |
| Forms.SaveDisabledOnForbidden | components/recipes/import-flow.tsx:469 | saving is disabled after the import exactly when the site answered 403 |
| Forms.LineRows | components/recipes/recipe-form.tsx:68-73 | each stored line becomes a row with its text, and no lines give one empty row |
| Forms.EditDefaults | components/recipes/recipe-form.tsx:62-80 | a new recipe gets blank fields; an edited one gets its own values |
| Forms.SubmitRequest | components/recipes/recipe-form.tsx:137-139 | create posts to /api/recipes; edit patches /api/recipes/ followed by the id |
| Forms.EditPathsDistinct | components/recipes/recipe-form.tsx:137-139 | recipes with different ids are patched at different paths |
| RecipeList.BeforeTransitive | components/recipes/recipe-list.tsx:38 | the code-unit order used by `sort()` is transitive |
| RecipeList.BeforeTotal | components/recipes/recipe-list.tsx:38 | any two different strings are ordered one way or the other |
| RecipeList.Insert | components/recipes/recipe-list.tsx:38 | inserting into a sorted tag list keeps it sorted and holds the old tags and the new one |
| RecipeList.AscendingUnique | components/recipes/recipe-list.tsx:38 | two sorted duplicate-free lists with the same members are equal |
| RecipeList.AllTags | components/recipes/recipe-list.tsx:38 | the tag cloud is sorted and duplicate-free, and holds exactly the tags of some recipe |
| RecipeList.AllTagsOrderFree | components/recipes/recipe-list.tsx:38 | reordering the recipes does not change the tag cloud |
| RecipeList.ToggleTag | components/recipes/recipe-list.tsx:126 | clicking the active tag clears it; clicking another makes it active |
| RecipeList.Filtered | components/recipes/recipe-list.tsx:40-47 | a recipe is shown exactly when it matches the search, case-insensitively on title or description, and the active tag |
| RecipeList.FilteredInOrder | components/recipes/recipe-list.tsx:40-47 | the shown recipes keep the list's order |
| RecipeList.FilteredAppend | components/recipes/recipe-list.tsx:40-47 | filtering distributes over concatenation |
| RecipeList.NoFilterShowsAll | components/recipes/recipe-list.tsx:41-45 | with no search and no tag, every recipe is shown |
| RecipeList.FiltersCompose | components/recipes/recipe-list.tsx:40-47 | filtering by search and tag together is filtering by one and then by the other |
| RecipeList.TagFilterExact | components/recipes/recipe-list.tsx:45 | with no search, a recipe is shown under a tag exactly when it carries it |
| RecipeList.QueueEntries | components/recipes/recipe-list.tsx:33-35 | one switch per recipe id |
| RecipeList.QueueEntriesLast | components/recipes/recipe-list.tsx:33-35 | with repeated ids the last recipe's flag wins |
| RecipeList.InitialSwitches | components/recipes/recipe-list.tsx:70-73 | before any toggle, each displayed switch shows the recipe's own flag |
| RecipeList.QueueToggleAsWritten | components/recipes/recipe-list.tsx:49-61 | as written: the switch flips at once and flips back only on an answer that is not ok, so after a throw it stays flipped; other switches are untouched |
| RecipeList.ThrowKeepsFlip | components/recipes/recipe-list.tsx:49-61 | as written, a failed call that throws leaves the switch flipped |
| RecipeList.QueueToggle | components/recipes/recipe-list.tsx:49-61 | the switch ends flipped exactly when the call answers ok; other switches are untouched |
| RecipeList.QueueVerb | components/recipes/recipe-list.tsx:53 | the call is a DELETE exactly when the recipe is in the queue, and a POST otherwise |
| RecipeList.QueueVerbMatchesSwitch | components/recipes/recipe-list.tsx:49-61 | after an ok answer the switch is on exactly when the call was a POST and off exactly when it was a DELETE |
| RecipeList.ToggleOutcome | components/recipes/recipe-list.tsx:49-73 | after a toggle the displayed switch is flipped exactly on success, and every other recipe's is unchanged |
| Auth.Authorized | auth.config.ts:22-41 | a path is allowed exactly when the user is signed in or it starts with a public route, "/u/", "/r/" or "/api/" |
| Auth.StartsWithAnyIff | auth.config.ts:31-33 | `some(startsWith)` holds exactly when one prefix matches |
| Auth.OpenBelow | auth.config.ts:31-39 | a path open to everyone stays open with anything appended |
| Auth.Guarded | auth.config.ts:24-40 | a path whose second character rules out every open prefix needs a signed-in user |
| Auth.ProtectedPages | tests/e2e/auth.spec.ts:84-97 | /recipes/new, /settings and /queue are refused when signed out and allowed when signed in |
| Auth.NormalizeAuthUrl | auth.config.ts:6-12 | a set value without a scheme gets "https://" in front; an unset or empty value, or one with a scheme, is unchanged |
| Auth.NormalizeIdempotent | auth.config.ts:6-12 | fixing twice is fixing once |

## Left out

- Network access, request headers, the 15-second fetch timeout and the Cloudflare sniffing of lib/recipe-scraper.ts:287-309 are not modelled. A fetch is a parameter: it either fails or returns a status, a status text and a page.
- The HTML parser is not modelled. A page is given as its scripts, each parsed or malformed, plus its title, `og:` metadata and the bookmarklet's recipe scope.
- `rawPayload` is not modelled. It is diagnostic data that nothing in the core reads.
- `String.fromCharCode`, `Number` of a non-number and `simplify(0.05)` are abstract parameters (`Host`, `simp`). Their results are not constrained.
- Quantity.FormatFraction: the `toFixed(2)` fallback of lib/scale-ingredient.ts:126-128 is not modelled. It runs only when `simplify` throws, and `simp` is total here.
- Quantity.UnsignedLiteral: repeating decimals such as "0.(3)" and exponents are not read. The scaler's token pattern cannot produce them, but a stored amount could contain one.
- Text.ToLower: only ASCII letters are folded. `toLowerCase` folds all of Unicode, so the search of recipe-list.tsx may match more for non-ASCII text.
- IngredientLines.MatchLine: a character stands for a UTF-16 code unit. The classes `¼-¾` and `⅐-⅞` (¼–¾, ⅐–⅞) are matched as characters; a surrogate pair is not split.
- RecipeList.Before: the order compares characters. `sort()` compares UTF-16 code units, so the two can differ on text outside the Basic Multilingual Plane.
- JsonLdFields.ServerServings and Images.RatioOf: numbers are `real`, not IEEE doubles; the same holds for the division `w / h` and the `ratio > bestRatio` comparison of the image pick. `n > 0` and the integer test are exact, and NaN, infinities and rounding are not modelled.
- Scaler.LineRest: the leading token's line is kept only up to its first line break. That is what `(.*)` matches without the `s` flag. Later lines are dropped, as in the source.
- The integer test in formatFraction is done on the exact value, not on `valueOf()`. A value within rounding of a whole number is not treated as whole.
- Browser APIs are not modelled beyond the handshake events: `window.open` sizing, `alert` text, `removeEventListener` identity and `postMessage` target origins.
- React state, toasts, router navigation, `setFetching` and the loading spinners are not modelled. Only the state the import flow reads back is kept.
- The import page's bookmarklet mode (receiving a payload and calling the client extractor) is not modelled. The extraction it runs is `Extractor` with `Side.Client`.
- The API routes (app/api/…) are not modelled, except that the import route passes the scraper's error through as `parseError` (`Forms.ReplyOf`).
- Image upload and fields that submission passes through unchanged (title, times, servings, urls, visibility) are not modelled.
- The zod schema of the forms is not modelled. Only the rule that a row must not be empty is kept, as `Forms.Filled`.

## Findings

| source | as written | input that shows it | evidently intended | confidence | as-written member | corrected member |
|---|---|---|---|---|---|---|
| components/recipes/recipe-list.tsx:49-61 | the switch is flipped before the call and set back only when a response arrives that is not ok | a network failure makes `fetch` reject, so the rollback is skipped and the switch stays flipped although the queue did not change | set the switch back on any failure | medium, not executed | RecipeList.QueueToggleAsWritten, RecipeList.ThrowKeepsFlip | RecipeList.QueueToggle |

Behaviour that follows from the code and is kept as written:

- The mixed-number branch of `parseFractionString` (lib/scale-ingredient.ts:97-104) checks only the denominator, although its doc comment (lines 91-92) promises null for any amount that is not positive. So "0 0/3 cups" scales to "0 cups" rather than to null. The model keeps the code (`Scaler.ScaleZeroMixedLine`).
- The server reads servings from the first item of an array, and the client reads none.
- An edit without an id patches "/api/recipes/undefined".
- The route guard matches prefixes only, so "/auth/signinx" is public.
- The "cooking.nytimes.com" hint is implied by "nytimes.com".
- API routes always pass the guard and check the session themselves.

=== FILE: auth.dfy ===
/** The route guard and the `AUTH_URL` fix-up of auth.config.ts. */
module Auth {
  import opened Wrappers
  import opened Text
  import opened Schema

  // ---------------------------------------------------------------------------
  // the `authorized` callback

  /** The sign-in, sign-up, password and error pages. */
  const PublicRoutes: seq<string> :=
    ["/auth/signin", "/auth/signup", "/auth/forgot-password", "/auth/reset-password", "/auth/error"]

  /** Public profiles and shared recipes. */
  const PublicContent: seq<string> := ["/u/", "/r/"]

  const ApiPrefix := "/api/"

  /** The path starts with one of the prefixes (`prefixes.some(startsWith)`). */
  predicate StartsWithAny(path: string, prefixes: seq<string>) {
    prefixes != [] && (StartsWith(path, prefixes[0]) || StartsWithAny(path, prefixes[1..]))
  }

  lemma {:induction false} StartsWithAnyIff(path: string, prefixes: seq<string>)
    ensures StartsWithAny(path, prefixes) <==> exists i :: 0 <= i < |prefixes| && StartsWith(path, prefixes[i])
  {
    if prefixes != [] {
      StartsWithAnyIff(path, prefixes[1..]);
      if exists i :: 0 <= i < |prefixes[1..]| && StartsWith(path, prefixes[1..][i]) {
        var i :| 0 <= i < |prefixes[1..]| && StartsWith(path, prefixes[1..][i]);
        assert StartsWith(path, prefixes[i + 1]);
      }
      if exists i :: 0 <= i < |prefixes| && StartsWith(path, prefixes[i]) {
        var i :| 0 <= i < |prefixes| && StartsWith(path, prefixes[i]);
        if i > 0 {
          assert StartsWith(path, prefixes[1..][i - 1]);
        }
      }
    }
  }

  /** `authorized`: the public pages, public content and the API (which
      checks sessions itself) are open to everyone; every other path needs
      a signed-in user. */
  function Authorized(path: string, authenticated: bool): (r: bool)
    ensures r <==> (
      authenticated
      || (exists i :: 0 <= i < |PublicRoutes| && StartsWith(path, PublicRoutes[i]))
      || (exists i :: 0 <= i < |PublicContent| && StartsWith(path, PublicContent[i]))
      || StartsWith(path, ApiPrefix))
  {
    StartsWithAnyIff(path, PublicRoutes);
    StartsWithAnyIff(path, PublicContent);
    var isPublicRoute := StartsWithAny(path, PublicRoutes);
    var isPublicContent := StartsWithAny(path, PublicContent);
    var isApiRoute := StartsWith(path, ApiPrefix);
    if isPublicRoute || isPublicContent || isApiRoute then true else authenticated
  }

  lemma StartsWithExtended(path: string, prefix: string, more: string)
    requires StartsWith(path, prefix)
    ensures StartsWith(path + more, prefix)
  {
    assert (path + more)[..|prefix|] == path[..|prefix|];
  }

  /** The guard looks at prefixes only: a path it lets through lets
      through everything below it too. */
  lemma OpenBelow(path: string, more: string)
    requires Authorized(path, false)
    ensures Authorized(path + more, false)
  {
    if StartsWith(path, ApiPrefix) {
      StartsWithExtended(path, ApiPrefix, more);
    } else if exists i :: 0 <= i < |PublicRoutes| && StartsWith(path, PublicRoutes[i]) {
      var i :| 0 <= i < |PublicRoutes| && StartsWith(path, PublicRoutes[i]);
      StartsWithExtended(path, PublicRoutes[i], more);
    } else {
      var i :| 0 <= i < |PublicContent| && StartsWith(path, PublicContent[i]);
      StartsWithExtended(path, PublicContent[i], more);
    }
  }

  /** Every open prefix begins `/a` or `/u/` or `/r/`, so a path whose
      second character rules those out needs a signed-in user. */
  lemma Guarded(path: string)
    requires |path| >= 2 && path[1] != 'a' && path[1] != 'u'
    requires path[1] == 'r' && |path| >= 3 ==> path[2] != '/'
    ensures !Authorized(path, false)
  {
    forall i | 0 <= i < |PublicRoutes| ensures !StartsWith(path, PublicRoutes[i]) {
      assert PublicRoutes[i][1] == 'a';
    }
    assert ApiPrefix[1] == 'a';
    assert PublicContent[0][1] == 'u';
    assert PublicContent[1][1] == 'r' && PublicContent[1][2] == '/';
  }

  /** The protected pages of the route-protection scenarios. */
  lemma ProtectedPages(newRecipe: string, settings: string, queue: string)
    requires newRecipe == "/recipes/new" && settings == "/settings" && queue == "/queue"
    ensures !Authorized(newRecipe, false) && !Authorized(settings, false) && !Authorized(queue, false)
    ensures Authorized(newRecipe, true) && Authorized(settings, true) && Authorized(queue, true)
  {
    Guarded(newRecipe);
    Guarded(settings);
    Guarded(queue);
  }

  // ---------------------------------------------------------------------------
  // the `AUTH_URL` fix-up

  predicate HasScheme(url: string) {
    StartsWith(url, "http://") || StartsWith(url, "https://")
  }

  /** A set `AUTH_URL` without a scheme gets `https://` in front; an unset
      or empty one, or one with a scheme, is left alone. */
  function NormalizeAuthUrl(v: Option<string>): (r: Option<string>)
    ensures Present(v) ==> r.Some? && HasScheme(r.value) && EndsWith(r.value, v.value)
    ensures !Present(v) || HasScheme(v.value) ==> r == v
    ensures Present(v) && !HasScheme(v.value) ==> r.Some? && StartsWith(r.value, "https://")
  {
    if Present(v) && !HasScheme(v.value) then
      var url := "https://" + v.value;
      assert url[..8] == "https://" && url[8..] == v.value;
      Some(url)
    else v
  }

  /** Fixing an already fixed value changes nothing. */
  lemma NormalizeIdempotent(v: Option<string>)
    ensures NormalizeAuthUrl(NormalizeAuthUrl(v)) == NormalizeAuthUrl(v)
  {
  }
}

=== FILE: bookmarklet.dfy ===
/** The script `buildBookmarkletCode` (lib/bookmarklet.ts) embeds in the
    bookmarklet: the Schema.org microdata fallback it builds when a page has
    no usable JSON-LD, and the one-shot `postMessage` handshake with the
    import window. The DOM, `window.open`, message delivery and
    `encodeURIComponent` are browser services and stay abstract: the page is
    the record of element texts the script reads, and the handshake is a
    trace of the events its listener sees. */
module Bookmarklet {
  import opened Wrappers
  import opened Text
  import opened JsonValue
  import opened Schema
  import opened Entities
  import opened JsonLdFields
  import opened Extractor
  import opened Scrape

  // ---------------------------------------------------------------------------
  // the bookmarklet URL

  const Scheme := "javascript:"

  /** The bookmarklet: the scheme, then the code as `encode` writes it. */
  function BookmarkletUrl(code: string, encode: string -> string): string {
    Scheme + encode(code)
  }

  /** What a browser runs for a `javascript:` URL: the text after the
      scheme, when the URL has it. */
  function Payload(url: string): Option<string> {
    if StartsWith(url, Scheme) then Some(url[|Scheme|..]) else None
  }

  lemma BookmarkletPayload(code: string, encode: string -> string)
    ensures Payload(BookmarkletUrl(code, encode)) == Some(encode(code))
  {
    var url := BookmarkletUrl(code, encode);
    assert url[..|Scheme|] == Scheme && url[|Scheme|..] == encode(code);
  }

  // ---------------------------------------------------------------------------
  // the microdata fallback

  /** An element holding a time: its `datetime` attribute, if any, and its
      text. */
  datatype TimeElement = TimeElement(datetime: Option<string>, text: string)

  /** The `.e-instructions` / `.jetpack-recipe-directions` container: the
      texts of its paragraphs, and its whole text. */
  datatype Directions = Directions(paragraphs: seq<string>, text: string)

  /** What the script reads inside the element whose `itemtype` is the
      Schema.org recipe type: the first `itemprop` element of each single
      field, every `recipeIngredient` and `recipeInstructions` element, and
      the directions container. Texts are `textContent`, untrimmed. */
  datatype RecipeScope = RecipeScope(
    name: Option<string>,
    ingredients: seq<string>,
    recipeYield: Option<string>,
    totalTime: Option<TimeElement>,
    cookTime: Option<TimeElement>,
    prepTime: Option<TimeElement>,
    instructions: seq<string>,
    directions: Option<Directions>)

  /** The trimmed texts that are not blank, in order. */
  function TrimmedNonEmpty(texts: seq<string>): (r: seq<string>)
    ensures |r| <= |texts|
    ensures forall i :: 0 <= i < |r| ==> r[i] != "" && Trimmed(r[i])
  {
    if texts == [] then []
    else
      var t := Trim(texts[0]);
      if t != "" then [t] + TrimmedNonEmpty(texts[1..]) else TrimmedNonEmpty(texts[1..])
  }

  lemma {:induction false} TrimmedNonEmptyAppend(a: seq<string>, b: seq<string>)
    ensures TrimmedNonEmpty(a + b) == TrimmedNonEmpty(a) + TrimmedNonEmpty(b)
  {
    if a == [] {
      assert a + b == b;
    } else {
      assert (a + b)[0] == a[0] && (a + b)[1..] == a[1..] + b;
      TrimmedNonEmptyAppend(a[1..], b);
    }
  }

  /** Texts that are already trimmed and not empty are all kept. */
  lemma {:induction false} TrimmedNonEmptyKeeps(texts: seq<string>)
    requires forall i :: 0 <= i < |texts| ==> texts[i] != "" && Trimmed(texts[i])
    ensures TrimmedNonEmpty(texts) == texts
  {
    if texts != [] {
      TrimOfTrimmed(texts[0]);
      TrimmedNonEmptyKeeps(texts[1..]);
    }
  }

  /** Blank texts are all dropped. */
  lemma {:induction false} TrimmedNonEmptyDrops(texts: seq<string>)
    requires forall i :: 0 <= i < |texts| ==> Trim(texts[i]) == ""
    ensures TrimmedNonEmpty(texts) == []
  {
    if texts != [] {
      TrimmedNonEmptyDrops(texts[1..]);
    }
  }

  const ServingsLabel := "servings:"

  /** The `recipeYield` clean-up, a case-insensitive `^servings:\s*`
      replaced by nothing: a leading "servings:" in any case, and the white
      space after it, removed. */
  function StripServings(s: string): (r: string)
    ensures |r| <= |s| && r == s[|s| - |r|..]
    ensures r != s ==> |s| >= |ServingsLabel| && ToLower(s[..|ServingsLabel|]) == ServingsLabel
    ensures r == [] || !IsSpace(r[0]) || r == s
  {
    if |s| >= |ServingsLabel| && ToLower(s[..|ServingsLabel|]) == ServingsLabel then
      var r := TrimStart(s[|ServingsLabel|..]);
      assert r == s[|s| - |r|..];
      r
    else s
  }

  /** The label in any case, then white space, then the value: the value. */
  lemma StripServingsLabel(lead: string, spaces: string, value: string)
    requires |lead| == |ServingsLabel| && ToLower(lead) == ServingsLabel
    requires AllSpace(spaces) && (value == [] || !IsSpace(value[0]))
    ensures StripServings(lead + spaces + value) == value
  {
    var s := lead + spaces + value;
    assert s[..|ServingsLabel|] == lead;
    assert s[|ServingsLabel|..] == spaces + value;
    TrimStartSpaces(spaces, value);
  }

  lemma {:induction false} TrimStartSpaces(spaces: string, value: string)
    requires AllSpace(spaces) && (value == [] || !IsSpace(value[0]))
    ensures TrimStart(spaces + value) == value
  {
    if spaces == [] {
      assert spaces + value == value;
    } else {
      assert (spaces + value)[1..] == spaces[1..] + value;
      TrimStartSpaces(spaces[1..], value);
    }
  }

  /** `getAttribute('datetime') || textContent.trim()`. */
  function TimeValue(t: TimeElement): (r: string)
    ensures Present(t.datetime) ==> r == t.datetime.value
    ensures !Present(t.datetime) ==> r == Trim(t.text)
  {
    if Present(t.datetime) then t.datetime.value else Trim(t.text)
  }

  /** The instruction texts: the `recipeInstructions` elements when there
      are any; otherwise the container's paragraphs when it has some, its
      whole text when it has none, and nothing without a container. */
  function InstructionTexts(scope: RecipeScope): (r: seq<string>)
    ensures forall i :: 0 <= i < |r| ==> r[i] != "" && Trimmed(r[i])
    ensures |scope.instructions| > 0 ==> r == TrimmedNonEmpty(scope.instructions)
    ensures |scope.instructions| == 0 && scope.directions.None? ==> r == []
    ensures |scope.instructions| == 0 && scope.directions.Some? && |scope.directions.value.paragraphs| > 0 ==>
      r == TrimmedNonEmpty(scope.directions.value.paragraphs)
    ensures |scope.instructions| == 0 && scope.directions.Some? && |scope.directions.value.paragraphs| == 0 ==>
      r == TrimmedNonEmpty([scope.directions.value.text])
  {
    if |scope.instructions| > 0 then TrimmedNonEmpty(scope.instructions)
    else match scope.directions
      case None => []
      case Some(d) => if |d.paragraphs| > 0 then TrimmedNonEmpty(d.paragraphs) else TrimmedNonEmpty([d.text])
  }

  /** A member set only when the field was found. */
  function Field(key: string, value: Option<string>): seq<Member> {
    if value.Some? then [Member(key, Str(value.value))] else []
  }

  function TimeField(key: string, t: Option<TimeElement>): seq<Member> {
    if t.Some? then [Member(key, Str(TimeValue(t.value)))] else []
  }

  /** The members the script sets after creating the node, in order: the
      trimmed name, the cleaned-up yield, then the three times. */
  function LaterFields(scope: RecipeScope): seq<Member> {
    Later(if scope.name.Some? then Some(Trim(scope.name.value)) else None,
          if scope.recipeYield.Some? then Some(StripServings(Trim(scope.recipeYield.value))) else None,
          scope.totalTime, scope.cookTime, scope.prepTime)
  }

  function Later(name: Option<string>, yieldValue: Option<string>, total: Option<TimeElement>,
                 cook: Option<TimeElement>, prep: Option<TimeElement>): seq<Member> {
    Field("name", name) + Field("recipeYield", yieldValue)
    + TimeField("totalTime", total) + TimeField("cookTime", cook) + TimeField("prepTime", prep)
  }

  const LaterKeys: set<string> := {"name", "recipeYield", "totalTime", "cookTime", "prepTime"}

  /** Every member's key is one of the given keys. */
  predicate KeysAmong(members: seq<Member>, keys: set<string>) {
    forall j :: 0 <= j < |members| ==> members[j].key in keys
  }

  lemma KeysAmongAppend(a: seq<Member>, b: seq<Member>, keys: set<string>)
    requires KeysAmong(a, keys) && KeysAmong(b, keys)
    ensures KeysAmong(a + b, keys)
  {
    assert forall j :: 0 <= j < |a + b| ==> (a + b)[j] == if j < |a| then a[j] else b[j - |a|];
  }

  lemma LaterKeysOnly(name: Option<string>, yieldValue: Option<string>, total: Option<TimeElement>,
                      cook: Option<TimeElement>, prep: Option<TimeElement>)
    ensures KeysAmong(Later(name, yieldValue, total, cook, prep), LaterKeys)
  {
    var n, y, t, c, p := Field("name", name), Field("recipeYield", yieldValue),
      TimeField("totalTime", total), TimeField("cookTime", cook), TimeField("prepTime", prep);
    KeysAmongAppend(n, y, LaterKeys);
    KeysAmongAppend(n + y, t, LaterKeys);
    KeysAmongAppend(n + y + t, c, LaterKeys);
    KeysAmongAppend(n + y + t + c, p, LaterKeys);
  }

  /** The node as the script builds it: `@type`, the non-blank ingredient
      texts and the instruction texts as `HowToStep`s, then the fields it
      found. */
  function MicrodataNode(scope: RecipeScope): Json {
    Node(TrimmedNonEmpty(scope.ingredients), InstructionTexts(scope), LaterFields(scope))
  }

  function Node(ingredients: seq<string>, steps: seq<string>, later: seq<Member>): Json {
    Obj([Member("@type", Str("Recipe")),
         Member("recipeIngredient", Arr(Map(ingredients, StringValue))),
         Member("recipeInstructions", Arr(Map(steps, HowToStep)))]
        + later)
  }

  /** `md.name || md.recipeIngredient.length`. */
  predicate Worthwhile(scope: RecipeScope) {
    (scope.name.Some? && Trim(scope.name.value) != "") || |TrimmedNonEmpty(scope.ingredients)| > 0
  }

  /** The microdata node, when the page has a recipe scope and the node
      has a name or an ingredient. */
  function Microdata(scope: Option<RecipeScope>): (r: Option<Json>)
    ensures r.Some? <==> scope.Some? && Worthwhile(scope.value)
  {
    if scope.Some? && Worthwhile(scope.value) then Some(MicrodataNode(scope.value)) else None
  }

  /** The payload's `jsonld`: the scripts that parse, in order, then the
      microdata node when there is one. */
  function Jsonld(scripts: seq<Option<Json>>, scope: Option<RecipeScope>): (r: seq<Json>)
    ensures Microdata(scope).None? ==> r == Parsed(scripts)
    ensures Microdata(scope).Some? ==> r == Parsed(scripts) + [Microdata(scope).value]
  {
    Parsed(scripts) + if Microdata(scope).Some? then [Microdata(scope).value] else []
  }

  lemma {:induction false} HowToStepsRead(texts: seq<string>, fromCharCode: nat -> string)
    requires forall i :: 0 <= i < |texts| ==> texts[i] != ""
    ensures forall i :: 0 <= i < |Map(texts, HowToStep)| ==> StepOk(Map(texts, HowToStep)[i])
    ensures InstructionLines(Map(texts, HowToStep), fromCharCode) == Map(texts, Decoder(fromCharCode))
  {
    if texts != [] {
      var steps := Map(texts, HowToStep);
      HowToStepTexts(texts[0], fromCharCode);
      StepRead(steps[0], fromCharCode);
      HowToStepsRead(texts[1..], fromCharCode);
      assert steps[1..] == Map(texts[1..], HowToStep);
      assert Map(texts, Decoder(fromCharCode))[1..] == Map(texts[1..], Decoder(fromCharCode));
    }
  }

  function Decoder(fromCharCode: nat -> string): string -> string {
    s => DecodeHtmlEntities(s, fromCharCode)
  }

  /** The node's fields under the keys the extractor reads first. */
  lemma NodeFields(ingredients: seq<string>, steps: seq<string>, later: seq<Member>)
    requires KeysAmong(later, LaterKeys)
    ensures Get(Node(ingredients, steps, later), "@type") == Some(Str("Recipe"))
    ensures Get(Node(ingredients, steps, later), "recipeIngredient") == Some(Arr(Map(ingredients, StringValue)))
    ensures Get(Node(ingredients, steps, later), "recipeInstructions") == Some(Arr(Map(steps, HowToStep)))
  {
    var m0 := Member("@type", Str("Recipe"));
    var m1 := Member("recipeIngredient", Arr(Map(ingredients, StringValue)));
    var m2 := Member("recipeInstructions", Arr(Map(steps, HowToStep)));
    HeadFields(m0, m1, m2);
    LookupSkip([m0, m1, m2], later, "@type");
    LookupSkip([m0, m1, m2], later, "recipeIngredient");
    LookupSkip([m0, m1, m2], later, "recipeInstructions");
  }

  lemma HeadFields(m0: Member, m1: Member, m2: Member)
    requires m0.key == "@type" && m1.key == "recipeIngredient" && m2.key == "recipeInstructions"
    ensures Lookup([m0, m1, m2], m0.key) == Some(m0.value)
    ensures Lookup([m0, m1, m2], m1.key) == Some(m1.value)
    ensures Lookup([m0, m1, m2], m2.key) == Some(m2.value)
  {
    assert [m0, m1, m2] == [m0, m1] + [m2];
    assert [m0, m1] == [m0] + [m1];
    LookupAppend([m0, m1], m2.key, m2.value, m0.key);
    LookupAppend([m0, m1], m2.key, m2.value, m1.key);
    LookupAppend([m0], m1.key, m1.value, m0.key);
  }

  lemma MicrodataFields(scope: RecipeScope)
    ensures Get(MicrodataNode(scope), "@type") == Some(Str("Recipe"))
    ensures Get(MicrodataNode(scope), "recipeIngredient") == Some(Arr(Map(TrimmedNonEmpty(scope.ingredients), StringValue)))
    ensures Get(MicrodataNode(scope), "recipeInstructions") == Some(Arr(Map(InstructionTexts(scope), HowToStep)))
  {
    LaterKeysOnly(if scope.name.Some? then Some(Trim(scope.name.value)) else None,
                  if scope.recipeYield.Some? then Some(StripServings(Trim(scope.recipeYield.value))) else None,
                  scope.totalTime, scope.cookTime, scope.prepTime);
    NodeFields(TrimmedNonEmpty(scope.ingredients), InstructionTexts(scope), LaterFields(scope));
  }

  /** The extractor reads the node back as a recipe whose raw ingredient
      and instruction lines are the texts the script collected. */
  lemma MicrodataReadBack(scope: RecipeScope, fromCharCode: nat -> string)
    ensures RecipeNode(MicrodataNode(scope))
    ensures RawIngredients(Get(MicrodataNode(scope), "recipeIngredient"), fromCharCode)
         == Done(Map(TrimmedNonEmpty(scope.ingredients), Decoder(fromCharCode)))
    ensures RawInstructions(Get(MicrodataNode(scope), "recipeInstructions"), fromCharCode)
         == Done(Map(InstructionTexts(scope), Decoder(fromCharCode)))
  {
    MicrodataFields(scope);
    NodeReadBack(TrimmedNonEmpty(scope.ingredients), InstructionTexts(scope), LaterFields(scope), fromCharCode);
  }

  lemma NodeReadBack(ingredients: seq<string>, steps: seq<string>, later: seq<Member>, fromCharCode: nat -> string)
    requires forall i :: 0 <= i < |steps| ==> steps[i] != ""
    requires Get(Node(ingredients, steps, later), "@type") == Some(Str("Recipe"))
    requires Get(Node(ingredients, steps, later), "recipeIngredient") == Some(Arr(Map(ingredients, StringValue)))
    requires Get(Node(ingredients, steps, later), "recipeInstructions") == Some(Arr(Map(steps, HowToStep)))
    ensures RecipeNode(Node(ingredients, steps, later))
    ensures RawIngredients(Get(Node(ingredients, steps, later), "recipeIngredient"), fromCharCode)
         == Done(Map(ingredients, Decoder(fromCharCode)))
    ensures RawInstructions(Get(Node(ingredients, steps, later), "recipeInstructions"), fromCharCode)
         == Done(Map(steps, Decoder(fromCharCode)))
  {
    assert "Recipe" in RecipeTypes;
    StringsDecoded(ingredients, fromCharCode);
    HowToStepsRead(steps, fromCharCode);
  }

  /** Strings decode one by one. */
  lemma StringsDecoded(texts: seq<string>, fromCharCode: nat -> string)
    ensures DecodeAll(Map(texts, StringValue), fromCharCode) == Done(Map(texts, Decoder(fromCharCode)))
  {
    var d := DecodeAll(Map(texts, StringValue), fromCharCode);
    assert d.Done?;
    assert d.value == Map(texts, Decoder(fromCharCode));
  }

  // ---------------------------------------------------------------------------
  // the handshake

  /** What the opener window's listener can see: a message with its `data`,
      or the 30-second timer firing. */
  datatype Event = Message(data: Option<Json>) | Timeout

  /** `e.data && e.data.type === 'aleppo:ready'`. */
  predicate IsReady(data: Option<Json>) {
    Truthy(data) && Get(data.value, "type") == Some(Str("aleppo:ready"))
  }

  /** The listener's registration and the `sent` flag. */
  datatype Listener = Listener(listening: bool, sent: bool)

  /** After `window.open`: listening when the window opened; when the popup
      was blocked the script alerts and returns, registering nothing. */
  function Launch(popupOpened: bool): Listener {
    Listener(popupOpened, false)
  }

  /** The listener posts `aleppo:data` on this event. */
  predicate Posts(s: Listener, e: Event) {
    s.listening && e.Message? && IsReady(e.data) && !s.sent
  }

  /** One event: the timer removes the listener; a ready message, the
      first time, sets `sent`, removes the listener and posts; anything
      else changes nothing. */
  function Handle(s: Listener, e: Event): (r: Listener)
    ensures e.Message? && !IsReady(e.data) ==> r == s
    ensures !s.listening ==> !r.listening && r.sent == s.sent
    ensures Posts(s, e) ==> r == Listener(false, true)
  {
    match e
    case Timeout => s.(listening := false)
    case Message(data) =>
      if !s.listening || !IsReady(data) || s.sent then s else Listener(false, true)
  }

  /** The listener after the first k events. */
  function After(popupOpened: bool, events: seq<Event>, k: nat): Listener
    requires k <= |events|
  {
    if k == 0 then Launch(popupOpened) else Handle(After(popupOpened, events, k - 1), events[k - 1])
  }

  /** The positions, among the first k events, of those answered with a
      post. */
  function Replies(popupOpened: bool, events: seq<Event>, k: nat): seq<nat>
    requires k <= |events|
  {
    if k == 0 then []
    else
      Replies(popupOpened, events, k - 1)
      + if Posts(After(popupOpened, events, k - 1), events[k - 1]) then [k - 1] else []
  }

  /** An event that settles the handshake: the timer, or a ready message. */
  predicate Settles(e: Event) { e.Timeout? || (e.Message? && IsReady(e.data)) }

  /** The first settling event among the first k. */
  function FirstSettling(events: seq<Event>, k: nat): (r: Option<nat>)
    requires k <= |events|
    ensures r.None? ==> forall i :: 0 <= i < k ==> !Settles(events[i])
    ensures r.Some? ==> r.value < k && Settles(events[r.value]) && forall i :: 0 <= i < r.value ==> !Settles(events[i])
  {
    if k == 0 then None
    else if FirstSettling(events, k - 1).Some? then FirstSettling(events, k - 1)
    else if Settles(events[k - 1]) then Some(k - 1)
    else None
  }

  /** The handshake in one statement: with the window open, the first
      settling event decides it, and only a ready message gets the one
      reply; with the popup blocked there is never a reply. */
  function Expected(popupOpened: bool, events: seq<Event>, k: nat): Listener
    requires k <= |events|
  {
    if !popupOpened then Listener(false, false)
    else match FirstSettling(events, k)
      case None => Listener(true, false)
      case Some(j) => Listener(false, events[j].Message?)
  }

  function ExpectedReplies(popupOpened: bool, events: seq<Event>, k: nat): seq<nat>
    requires k <= |events|
  {
    var j := FirstSettling(events, k);
    if popupOpened && j.Some? && events[j.value].Message? then [j.value] else []
  }

  lemma {:induction false} HandshakeDescribed(popupOpened: bool, events: seq<Event>, k: nat)
    requires k <= |events|
    ensures After(popupOpened, events, k) == Expected(popupOpened, events, k)
    ensures Replies(popupOpened, events, k) == ExpectedReplies(popupOpened, events, k)
  {
    if k > 0 {
      HandshakeDescribed(popupOpened, events, k - 1);
    }
  }

  /** At most one `aleppo:data` post per run. */
  lemma AtMostOneReply(popupOpened: bool, events: seq<Event>)
    ensures |Replies(popupOpened, events, |events|)| <= 1
  {
    HandshakeDescribed(popupOpened, events, |events|);
  }

  /** A post answers a ready message that came before the timer. */
  lemma ReplyAnswersReady(popupOpened: bool, events: seq<Event>, i: nat)
    requires i in Replies(popupOpened, events, |events|)
    ensures popupOpened && i < |events| && events[i].Message? && IsReady(events[i].data)
    ensures forall l :: 0 <= l < i ==> events[l] != Timeout
  {
    HandshakeDescribed(popupOpened, events, |events|);
  }

  /** With the window open, the first ready message before the timer is
      answered, and it alone. */
  lemma FirstReadyAnswered(events: seq<Event>, i: nat)
    requires i < |events| && events[i].Message? && IsReady(events[i].data)
    requires forall l :: 0 <= l < i ==> !Settles(events[l])
    ensures Replies(true, events, |events|) == [i]
  {
    HandshakeDescribed(true, events, |events|);
    var j := FirstSettling(events, |events|);
    assert !(j.value < i) && !(i < j.value);
  }

  /** Once the timer has fired, no later message is answered. */
  lemma TimeoutSilences(popupOpened: bool, events: seq<Event>, t: nat, i: nat)
    requires t < i < |events| && events[t] == Timeout
    ensures i !in Replies(popupOpened, events, |events|)
  {
    HandshakeDescribed(popupOpened, events, |events|);
  }

  /** A blocked popup: nothing is ever posted. */
  lemma BlockedPopupSilent(events: seq<Event>)
    ensures Replies(false, events, |events|) == []
  {
    HandshakeDescribed(false, events, |events|);
  }
}

=== FILE: durations.dfy ===
/** `parseTimeToMinutes`: the hours and minutes of an ISO 8601 duration
    (section 4.4.3.2 of ISO 8601:2004, the "PTnHnM" form only), read at the
    first "PT" in the text. */
module Durations {
  import opened Wrappers
  import opened Text
  import opened JsonValue

  /** "PT" starts at position i of s. */
  predicate PTAt(s: string, i: int) { 0 <= i && i + 1 < |s| && s[i] == 'P' && s[i + 1] == 'T' }

  /** The first position of "PT" in s. */
  function FindPT(s: string): (r: Option<nat>)
    ensures r.Some? ==> PTAt(s, r.value) && forall i :: 0 <= i < r.value ==> !PTAt(s, i)
    ensures r.None? ==> forall i :: 0 <= i ==> !PTAt(s, i)
    decreases |s|
  {
    if |s| < 2 then None
    else if s[0] == 'P' && s[1] == 'T' then Some(0)
    else
      assert !PTAt(s, 0);
      assert forall i :: 1 <= i ==> PTAt(s, i) == PTAt(s[1..], i - 1);
      match FindPT(s[1..])
      case None => None
      case Some(k) => Some(k + 1)
  }

  /** `(?:(\d+)D)?` for a designator D: the whole run of digits, if the
      designator follows it; otherwise the group is skipped and counts as
      "0". Returns the number and the text after the group. */
  function Designator(t: string, d: char): (r: (nat, string))
    requires !IsDigit(d)
    ensures |r.1| <= |t| && r.1 == t[|t| - |r.1|..]
    ensures r.1 == t ==> r.0 == 0
  {
    var k := DigitRun(t);
    if 0 < k < |t| && t[k] == d then (DigitsValue(t[..k]), t[k + 1..]) else (0, t)
  }

  /** The minutes an ISO duration string spells, when positive. */
  function MinutesOf(s: string): (r: Option<nat>)
    ensures r.Some? ==> r.value > 0
    ensures FindPT(s).None? ==> r.None?
  {
    match FindPT(s)
    case None => None
    case Some(i) => Minutes(s[i + 2..])
  }

  /** The hours and minutes designators right after "PT", as minutes when
      the total is positive. */
  function Minutes(t: string): (r: Option<nat>)
    ensures r.Some? ==> r.value > 0
  {
    var (hours, u) := Designator(t, 'H');
    var (minutes, _) := Designator(u, 'M');
    var total := hours * 60 + minutes;
    if total > 0 then Some(total) else None
  }

  /** Text that starts with "PT" is read right after it. */
  lemma MinutesAfterPT(t: string)
    ensures MinutesOf("PT" + t) == Minutes(t)
  {
    var s := "PT" + t;
    assert s[0] == 'P' && s[1] == 'T';
    assert s[2..] == t;
  }

  /** `parseTimeToMinutes(v)`: a falsy value gives undefined; a truthy value
      that is not a string has no `match` method, so the call throws. */
  function ParseTimeToMinutes(v: Option<Json>): (r: Outcome<Option<nat>>)
    ensures r.Throws? <==> Truthy(v) && !IsString(v)
    ensures !Truthy(v) ==> r == Done(None)
    ensures Truthy(v) && IsString(v) ==> r == Done(MinutesOf(v.value.s))
    ensures r.Done? && r.value.Some? ==> r.value.value > 0
  {
    if !Truthy(v) then Done(None)
    else if !v.value.Str? then Throws
    else Done(MinutesOf(v.value.s))
  }

  // ---------------------------------------------------------------------------
  // the duration format, written out

  /** "nD" for a positive n and designator D; nothing for zero. */
  function Part(n: nat, d: char): string {
    if n > 0 then NatToString(n) + [d] else ""
  }

  /** "PT", then "nH" when there are hours, then "nM" when there are
      minutes. */
  function Written(hours: nat, minutes: nat): string {
    "PT" + (Part(hours, 'H') + Part(minutes, 'M'))
  }

  /** A written part is read back by its designator. */
  lemma PartRead(n: nat, d: char, rest: string)
    requires !IsDigit(d)
    requires n > 0 || rest == [] || !IsDigit(rest[0])
    ensures Designator(Part(n, d) + rest, d) == (n, rest)
  {
    if n > 0 {
      var w := NatToString(n);
      assert Part(n, d) + rest == w + ([d] + rest);
      DigitRunOfDigits(w, [d] + rest);
      assert (w + ([d] + rest))[..|w|] == w;
      assert (w + ([d] + rest))[|w| + 1..] == rest;
      NatToStringRoundTrip(n);
    } else {
      assert Part(n, d) + rest == rest;
    }
  }

  /** A written part is skipped by another designator. */
  lemma PartSkipped(n: nat, e: char, d: char, rest: string)
    requires !IsDigit(d) && !IsDigit(e) && e != d
    requires rest == [] || !IsDigit(rest[0])
    ensures Designator(Part(n, e) + rest, d) == (0, Part(n, e) + rest)
  {
    if n > 0 {
      var w := NatToString(n);
      assert Part(n, e) + rest == w + ([e] + rest);
      DigitRunOfDigits(w, [e] + rest);
    } else {
      assert Part(n, e) + rest == rest;
    }
  }

  /** A duration written from hours and minutes reads back as their total
      in minutes (seconds or other text may follow, as long as it does not
      start with a digit), or as undefined when the total is zero. */
  lemma WrittenRoundTrip(hours: nat, minutes: nat, rest: string)
    requires rest == [] || !IsDigit(rest[0])
    ensures MinutesOf(Written(hours, minutes) + rest)
         == if hours * 60 + minutes > 0 then Some(hours * 60 + minutes) else None
  {
    var u := Part(minutes, 'M') + rest;
    var t := Part(hours, 'H') + u;
    assert Written(hours, minutes) + rest == "PT" + t;
    MinutesAfterPT(t);
    HoursRead(hours, minutes, rest);
    PartRead(minutes, 'M', rest);
    MinutesOfDesignators(t, hours, u, minutes, rest);
  }

  lemma HoursRead(hours: nat, minutes: nat, rest: string)
    requires rest == [] || !IsDigit(rest[0])
    ensures Designator(Part(hours, 'H') + (Part(minutes, 'M') + rest), 'H') == (hours, Part(minutes, 'M') + rest)
  {
    if hours > 0 {
      PartRead(hours, 'H', Part(minutes, 'M') + rest);
    } else {
      PartSkipped(minutes, 'M', 'H', rest);
      assert Part(hours, 'H') + (Part(minutes, 'M') + rest) == Part(minutes, 'M') + rest;
    }
  }

  lemma MinutesOfDesignators(t: string, hours: nat, u: string, minutes: nat, rest: string)
    requires Designator(t, 'H') == (hours, u) && Designator(u, 'M') == (minutes, rest)
    ensures Minutes(t) == if hours * 60 + minutes > 0 then Some(hours * 60 + minutes) else None
  {
  }
}

/** Worked examples of reading durations. */
module DurationExamples {
  import opened Wrappers
  import opened Text
  import opened Durations

  // Each example names its text through a parameter fixed by the
  // precondition and reads it one designator at a time.

  lemma ThirtyValue() ensures DigitsValue("30") == 30 { assert NatToString(30) == "30"; NatToStringRoundTrip(30); }
  lemma FortyFiveValue() ensures DigitsValue("45") == 45 { assert NatToString(45) == "45"; NatToStringRoundTrip(45); }

  lemma HourAndHalf(t: string)
    requires t == "1H30M"
    ensures Minutes(t) == Some(90)
  {
    assert DigitRun(t) == 1;
    assert t[..1] == "1";
    assert DigitsValue("1") == 1;
    var u := t[2..];
    assert u == "30" + "M";
    DigitRunOfDigits("30", "M");
    assert u[..2] == "30";
    ThirtyValue();
  }

  /** "PT1H30M" is 90 minutes. */
  lemma ExampleHoursAndMinutes(s: string)
    requires s == "PT1H30M"
    ensures MinutesOf(s) == Some(90)
  {
    var t := s[2..];
    assert s == "PT" + t;
    MinutesAfterPT(t);
    HourAndHalf(t);
  }

  lemma FortyFive(t: string)
    requires t == "45M"
    ensures Minutes(t) == Some(45)
  {
    assert t == "45" + "M";
    DigitRunOfDigits("45", "M");
    assert t[..2] == "45";
    FortyFiveValue();
  }

  /** "PT45M" is 45 minutes. */
  lemma ExampleMinutes(s: string)
    requires s == "PT45M"
    ensures MinutesOf(s) == Some(45)
  {
    var t := s[2..];
    assert s == "PT" + t;
    MinutesAfterPT(t);
    FortyFive(t);
  }

  lemma TwoHours(t: string)
    requires t == "2H"
    ensures Minutes(t) == Some(120)
  {
    assert DigitRun(t) == 1;
    assert t[..1] == "2";
    assert DigitsValue("2") == 2;
  }

  /** "PT2H" is 120 minutes. */
  lemma ExampleHours(s: string)
    requires s == "PT2H"
    ensures MinutesOf(s) == Some(120)
  {
    var t := s[2..];
    assert s == "PT" + t;
    MinutesAfterPT(t);
    TwoHours(t);
  }
}

=== FILE: entities.dfy ===
/** `decodeHtmlEntities`: the named entities the extractors recognise, then
    decimal and hexadecimal character references, each pass a global
    `replace` over the output of the one before. */
module Entities {
  import opened Text

  /** `s.replace(/pat/g, rep)` for a literal pattern: occurrences are found
      left to right, each search resuming after the previous match. */
  function ReplaceAll(s: string, pat: string, rep: string): string
    requires |pat| > 0
    decreases |s|
  {
    if |s| == 0 then []
    else if StartsWith(s, pat) then rep + ReplaceAll(s[|pat|..], pat, rep)
    else [s[0]] + ReplaceAll(s[1..], pat, rep)
  }

  /** A pattern whose first character is absent matches nowhere. */
  lemma {:induction false} ReplaceAllWithout(s: string, pat: string, rep: string)
    requires |pat| > 0 && pat[0] !in s
    ensures ReplaceAll(s, pat, rep) == s
    decreases |s|
  {
    if |s| > 0 {
      assert s[0] != pat[0];
      assert s[1..] == s[1..] && pat[0] !in s[1..];
      ReplaceAllWithout(s[1..], pat, rep);
    }
  }

  /** A character that does not start the pattern is copied. */
  lemma ReplaceAllCons(c: char, s: string, pat: string, rep: string)
    requires |pat| > 0 && c != pat[0]
    ensures ReplaceAll([c] + s, pat, rep) == [c] + ReplaceAll(s, pat, rep)
  {
    assert ([c] + s)[1..] == s;
  }

  /** An occurrence at the front is replaced. */
  lemma ReplaceAllFront(s: string, pat: string, rep: string)
    requires |pat| > 0
    ensures ReplaceAll(pat + s, pat, rep) == rep + ReplaceAll(s, pat, rep)
  {
    assert (pat + s)[..|pat|] == pat;
    assert (pat + s)[|pat|..] == s;
  }

  /** Escaping one character as an entity and replacing the entity back
      restores the text, when the text holds no '&' of its own. */
  lemma {:induction false} ReplaceAllInverse(s: string, c: char, entity: string)
    requires |entity| > 1 && entity[0] == '&' && '&' !in s
    ensures ReplaceAll(ReplaceAll(s, [c], entity), entity, [c]) == s
    decreases |s|
  {
    if |s| > 0 {
      assert s == [s[0]] + s[1..];
      assert '&' !in s[1..];
      ReplaceAllInverse(s[1..], c, entity);
      if s[0] == c {
        ReplaceAllFront(s[1..], [c], entity);
        ReplaceAllFront(ReplaceAll(s[1..], [c], entity), entity, [c]);
      } else {
        ReplaceAllCons(s[0], s[1..], [c], entity);
        ReplaceAllCons(s[0], ReplaceAll(s[1..], [c], entity), entity, [c]);
      }
    }
  }

  // ---------------------------------------------------------------------------
  // numeric character references

  predicate IsHexDigit(c: char) { IsDigit(c) || 'a' <= c <= 'f' || 'A' <= c <= 'F' }

  predicate AllHex(s: string) { forall i :: 0 <= i < |s| ==> IsHexDigit(s[i]) }

  function HexDigitValue(c: char): nat
    requires IsHexDigit(c)
  {
    if IsDigit(c) then DigitValue(c)
    else if 'a' <= c <= 'f' then c as int - 'a' as int + 10
    else c as int - 'A' as int + 10
  }

  /** `parseInt(h, 16)` on a run of hexadecimal digits. */
  function HexValue(s: string): nat
    requires AllHex(s)
    decreases |s|
  {
    if |s| == 0 then 0 else HexValue(s[..|s| - 1]) * 16 + HexDigitValue(s[|s| - 1])
  }

  /** Length of the leading run of hexadecimal digits. */
  function HexRun(s: string): (k: nat)
    ensures k <= |s| && AllHex(s[..k])
    ensures k == |s| || !IsHexDigit(s[k])
  {
    if |s| > 0 && IsHexDigit(s[0]) then
      var k := 1 + HexRun(s[1..]);
      assert s[..k] == [s[0]] + s[1..][..k - 1];
      k
    else 0
  }

  /** The digits of a decimal reference "&#digits;" at the front of s
      (empty when there is none). */
  function DecimalRef(s: string): (d: string)
    ensures AllDigits(d)
    ensures d != [] ==> |s| > 2 + |d| && s[..2] == "&#" && s[2..2 + |d|] == d && s[2 + |d|] == ';'
    ensures |s| > 0 && s[0] != '&' ==> d == []
    ensures |s| > 2 && s[..2] == "&#" && 0 < DigitRun(s[2..]) < |s| - 2 && s[2 + DigitRun(s[2..])] == ';' ==>
      d == s[2..2 + DigitRun(s[2..])]
  {
    if |s| > 2 && s[..2] == "&#" then
      var t := s[2..];
      var k := DigitRun(t);
      if k > 0 && k < |t| && t[k] == ';' then t[..k] else []
    else []
  }

  /** The digits of a hexadecimal reference "&#xdigits;" at the front of s. */
  function HexRef(s: string): (d: string)
    ensures AllHex(d)
    ensures d != [] ==> |s| > 3 + |d| && s[..3] == "&#x" && s[3..3 + |d|] == d && s[3 + |d|] == ';'
    ensures |s| > 0 && s[0] != '&' ==> d == []
    ensures |s| > 3 && s[..3] == "&#x" && 0 < HexRun(s[3..]) < |s| - 3 && s[3 + HexRun(s[3..])] == ';' ==>
      d == s[3..3 + HexRun(s[3..])]
  {
    if |s| > 3 && s[..3] == "&#x" then
      var t := s[3..];
      var k := HexRun(t);
      if k > 0 && k < |t| && t[k] == ';' then t[..k] else []
    else []
  }

  /** `s.replace(/&#(\d+);/g, …)`: "&#", the whole run of digits and ';'
      become the character `String.fromCharCode` gives for their value,
      which `fromCharCode` stands for. */
  function DecodeDecimal(s: string, fromCharCode: nat -> string): string
    decreases |s|
  {
    if |s| == 0 then []
    else
      var d := DecimalRef(s);
      if d != [] then fromCharCode(DigitsValue(d)) + DecodeDecimal(s[3 + |d|..], fromCharCode)
      else [s[0]] + DecodeDecimal(s[1..], fromCharCode)
  }

  /** `s.replace(/&#x([0-9a-fA-F]+);/g, …)`, likewise in base sixteen. */
  function DecodeHex(s: string, fromCharCode: nat -> string): string
    decreases |s|
  {
    if |s| == 0 then []
    else
      var d := HexRef(s);
      if d != [] then fromCharCode(HexValue(d)) + DecodeHex(s[4 + |d|..], fromCharCode)
      else [s[0]] + DecodeHex(s[1..], fromCharCode)
  }

  lemma {:induction false} HexRunOfHex(a: string, b: string)
    requires AllHex(a)
    requires b == [] || !IsHexDigit(b[0])
    ensures HexRun(a + b) == |a|
  {
    if |a| > 0 {
      assert (a + b)[1..] == a[1..] + b;
      HexRunOfHex(a[1..], b);
    }
  }

  /** Any written decimal reference is recognised, with exactly its digits,
      whatever follows it. */
  lemma DecimalRefOf(d: string, rest: string)
    requires d != [] && AllDigits(d)
    ensures DecimalRef("&#" + d + ";" + rest) == d
  {
    var s := "&#" + d + ";" + rest;
    assert s[..2] == "&#" && s[2..] == d + (";" + rest);
    DigitRunOfDigits(d, ";" + rest);
    assert s[2 + |d|] == ';' && s[2..2 + |d|] == d;
  }

  /** Any written hexadecimal reference is recognised, with exactly its
      digits, whatever follows it. */
  lemma HexRefOf(d: string, rest: string)
    requires d != [] && AllHex(d)
    ensures HexRef("&#x" + d + ";" + rest) == d
  {
    var s := "&#x" + d + ";" + rest;
    assert s[..3] == "&#x" && s[3..] == d + (";" + rest);
    HexRunOfHex(d, ";" + rest);
    assert s[3 + |d|] == ';' && s[3..3 + |d|] == d;
  }

  /** A decimal reference at the front is replaced by the character of its
      value, and decoding goes on right after its ';'. */
  lemma DecodeDecimalRef(d: string, rest: string, fromCharCode: nat -> string)
    requires d != [] && AllDigits(d)
    ensures DecodeDecimal("&#" + d + ";" + rest, fromCharCode)
         == fromCharCode(DigitsValue(d)) + DecodeDecimal(rest, fromCharCode)
  {
    var s := "&#" + d + ";" + rest;
    DecimalRefOf(d, rest);
    assert s[3 + |d|..] == rest;
  }

  /** A hexadecimal reference at the front is replaced by the character of
      its value, and decoding goes on right after its ';'. */
  lemma DecodeHexRef(d: string, rest: string, fromCharCode: nat -> string)
    requires d != [] && AllHex(d)
    ensures DecodeHex("&#x" + d + ";" + rest, fromCharCode)
         == fromCharCode(HexValue(d)) + DecodeHex(rest, fromCharCode)
  {
    var s := "&#x" + d + ";" + rest;
    HexRefOf(d, rest);
    assert s[4 + |d|..] == rest;
  }

  lemma {:induction false} DecodeDecimalWithout(s: string, fromCharCode: nat -> string)
    requires '&' !in s
    ensures DecodeDecimal(s, fromCharCode) == s
    decreases |s|
  {
    if |s| > 0 {
      assert s[0] != '&' && '&' !in s[1..];
      DecodeDecimalWithout(s[1..], fromCharCode);
    }
  }

  lemma {:induction false} DecodeHexWithout(s: string, fromCharCode: nat -> string)
    requires '&' !in s
    ensures DecodeHex(s, fromCharCode) == s
    decreases |s|
  {
    if |s| > 0 {
      assert s[0] != '&' && '&' !in s[1..];
      DecodeHexWithout(s[1..], fromCharCode);
    }
  }

  // ---------------------------------------------------------------------------
  // the whole decoder

  /** The named-entity passes, in the order the code applies them. */
  function DecodeNamed(s: string): string {
    var a := ReplaceAll(s, "&amp;", "&");
    var b := ReplaceAll(a, "&lt;", "<");
    var c := ReplaceAll(b, "&gt;", ">");
    var d := ReplaceAll(c, "&quot;", "\"");
    var e := ReplaceAll(d, "&apos;", "'");
    var f := ReplaceAll(e, "&#39;", "'");
    ReplaceAll(f, "&nbsp;", " ")
  }

  /** `decodeHtmlEntities`. */
  function DecodeHtmlEntities(s: string, fromCharCode: nat -> string): string {
    DecodeHex(DecodeDecimal(DecodeNamed(s), fromCharCode), fromCharCode)
  }

  /** Text without '&' holds no entity and comes back unchanged. */
  lemma DecodeWithoutAmpersand(s: string, fromCharCode: nat -> string)
    requires '&' !in s
    ensures DecodeHtmlEntities(s, fromCharCode) == s
  {
    ReplaceAllWithout(s, "&amp;", "&");
    ReplaceAllWithout(s, "&lt;", "<");
    ReplaceAllWithout(s, "&gt;", ">");
    ReplaceAllWithout(s, "&quot;", "\"");
    ReplaceAllWithout(s, "&apos;", "'");
    ReplaceAllWithout(s, "&#39;", "'");
    ReplaceAllWithout(s, "&nbsp;", " ");
    DecodeDecimalWithout(s, fromCharCode);
    DecodeHexWithout(s, fromCharCode);
  }

  /** The passes run one after another, so an escaped ampersand is decoded
      a second time by the passes after it: "&amp;lt;" becomes "<". */
  lemma DoubleDecoding(fromCharCode: nat -> string)
    ensures DecodeHtmlEntities("&amp;lt;", fromCharCode) == "<"
  {
    assert "&amp;lt;" == "&amp;" + "lt;";
    ReplaceAllFront("lt;", "&amp;", "&");
    ReplaceAllWithout("lt;", "&amp;", "&");
    assert "&" + "lt;" == "&lt;" + "";
    ReplaceAllFront("", "&lt;", "<");
    assert "<" + "" == "<";
    ReplaceAllWithout("<", "&gt;", ">");
    ReplaceAllWithout("<", "&quot;", "\"");
    ReplaceAllWithout("<", "&apos;", "'");
    ReplaceAllWithout("<", "&#39;", "'");
    ReplaceAllWithout("<", "&nbsp;", " ");
    DecodeDecimalWithout("<", fromCharCode);
    DecodeHexWithout("<", fromCharCode);
  }
}

=== FILE: extractor.dfy ===
/** `extractFromJsonLd` / `extractOneJsonLd`, `findRecipeNode` and
    `extractFromJsonLdArray` / `extractRecipeFromJsonLd`: the search for a
    Schema.org recipe in the parsed `ld+json` scripts of a page, through
    top-level arrays, `@graph` (section 4.9 of JSON-LD 1.1) and
    `mainEntity`, and its normalisation into a `ScrapedRecipe`. The server
    (lib/recipe-scraper.ts) and the client (lib/extract-recipe-client.ts)
    copies differ only in how they read servings, which `Side` selects. */
module Extractor {
  import opened Wrappers
  import opened JsonValue
  import opened Schema
  import opened Durations
  import opened Images
  import opened IngredientLines
  import opened JsonLdFields

  datatype Side = Server | Client

  /** What an import hands to the review form. */
  datatype ScrapedRecipe = ScrapedRecipe(
    title: Option<string>,
    description: Option<string>,
    ingredients: seq<Ingredient>,
    instructions: seq<InstructionStep>,
    prepTime: Option<nat>,
    cookTime: Option<nat>,
    servings: Option<real>,
    imageUrl: Option<Json>,
    sourceName: Option<string>,
    tags: Option<seq<Json>>)

  /** The host conversions the model leaves abstract: `String.fromCharCode`
      and `Number` of a string, array or object. */
  datatype Host = Host(fromCharCode: nat -> string, numberOf: Json -> Option<real>)

  type Found = Outcome<Option<ScrapedRecipe>>

  function Servings(side: Side, v: Option<Json>): Option<real> {
    match side
    case Server => ServerServings(v)
    case Client => ClientServings(v)
  }

  /** The image: a string as it is, the best of a non-empty array, or the
      truthy `url` of anything else. */
  function ImageUrl(v: Option<Json>, numberOf: Json -> Option<real>): (r: Option<Json>)
    ensures IsString(v) ==> r == v
    ensures !IsString(v) && r.Some? ==> Truthy(r)
  {
    if IsString(v) then v
    else if IsArray(v) && |v.value.items| > 0 then
      PickFromEntries(v.value.items, numberOf);
      PickBestImage(v.value.items, numberOf)
    else if Truthy(OptGet(v, "url")) then OptGet(v, "url")
    else None
  }

  /** The node's `@type` marks it as a recipe. */
  predicate RecipeNode(node: Json) { IsRecipeType(Get(node, "@type")) }

  /** `extractFromJsonLd`: nothing for a node that is not a recipe; a throw
      when a field has a shape the code cannot read (see
      `JsonLdFields.StepOk` and `RawInstructions`). Servings are the only
      field the two copies read differently. */
  function ExtractOne(node: Json, side: Side, host: Host): (r: Found)
    ensures r == Done(None) <==> !RecipeNode(node)
    ensures r.Done? && r.value.Some? ==> r.value.value.sourceName.None? && r.value.value.tags.Some?
  {
    if !RecipeNode(node) then Done(None)
    else
      var recipe :- SharedFields(node, host);
      Done(Some(recipe.(servings := Servings(side, Get(node, "recipeYield")))))
  }

  /** Every field of the record but servings, read the same way by both
      copies; reading servings cannot throw, so its place among the other
      fields does not matter. */
  function SharedFields(node: Json, host: Host): (r: Outcome<ScrapedRecipe>)
    ensures r.Done? ==> r.value.servings.None? && r.value.sourceName.None? && r.value.tags.Some?
  {
    var ingredients :- RawIngredients(Get(node, "recipeIngredient"), host.fromCharCode);
    var instructions :- RawInstructions(Get(node, "recipeInstructions"), host.fromCharCode);
    var prep :- ParseTimeToMinutes(Get(node, "prepTime"));
    var cook :- ParseTimeToMinutes(Get(node, "cookTime"));
    var total :- ParseTimeToMinutes(Get(node, "totalTime"));
    var title :- DecodeIfTruthy(Get(node, "name"), host.fromCharCode);
    var description :- DecodeIfTruthy(Get(node, "description"), host.fromCharCode);
    Done(ScrapedRecipe(
      title, description,
      ParseIngredients(ingredients), ParseInstructions(instructions),
      prep, CookTime(cook, prep, total),
      None,
      ImageUrl(Get(node, "image"), host.numberOf),
      None,
      Some(Tags(Get(node, "keywords")))))
  }

  // ---------------------------------------------------------------------------
  // the search

  /** `findRecipeNode`: the elements of an array left to right; for an
      object, the object itself, then its truthy `@graph`, then its truthy
      `mainEntity`; nothing for anything else. */
  function FindRecipeNode(node: Json, side: Side, host: Host): (r: Found)
    ensures !node.Arr? && !node.Obj? ==> r == Done(None)
    ensures r.Done? && r.value.Some? ==> r.value.value.sourceName.None?
    decreases node, if node.Arr? then |node.items| + 1 else 1
  {
    match node
    case Arr(_) => FindInItems(node, 0, side, host)
    case Obj(_) =>
      var direct :- ExtractOne(node, side, host);
      if direct.Some? then Done(direct)
      else
        var inGraph :- FindInChild(node, "@graph", side, host);
        if inGraph.Some? then Done(inGraph)
        else FindInChild(node, "mainEntity", side, host)
    case _ => Done(None)
  }

  /** The first hit among the array's elements from index i on. */
  function FindInItems(node: Json, i: nat, side: Side, host: Host): (r: Found)
    requires node.Arr? && i <= |node.items|
    ensures r.Done? && r.value.Some? ==> r.value.value.sourceName.None?
    decreases node, |node.items| - i
  {
    if i == |node.items| then Done(None)
    else
      var found :- FindRecipeNode(node.items[i], side, host);
      if found.Some? then Done(found) else FindInItems(node, i + 1, side, host)
  }

  /** The search inside `node[key]`, when that is truthy. */
  function FindInChild(node: Json, key: string, side: Side, host: Host): (r: Found)
    requires node.Obj?
    ensures r.Done? && r.value.Some? ==> r.value.value.sourceName.None?
    decreases node, 0
  {
    match KeyIndex(node.members, key)
    case None => Done(None)
    case Some(k) =>
      var child := node.members[k].value;
      if Truthy(Some(child)) then FindRecipeNode(child, side, host) else Done(None)
  }

  // ---------------------------------------------------------------------------
  // what the search visits

  /** `sub` is a node the search visits from `node`. */
  predicate Reachable(node: Json, sub: Json)
    decreases node, if node.Arr? then |node.items| + 1 else 1
  {
    || sub == node
    || (node.Arr? && ReachableInItems(node, 0, sub))
    || (node.Obj? && (ReachableInChild(node, "@graph", sub) || ReachableInChild(node, "mainEntity", sub)))
  }

  predicate ReachableInItems(node: Json, i: nat, sub: Json)
    requires node.Arr? && i <= |node.items|
    decreases node, |node.items| - i
  {
    i < |node.items| && (Reachable(node.items[i], sub) || ReachableInItems(node, i + 1, sub))
  }

  predicate ReachableInChild(node: Json, key: string, sub: Json)
    requires node.Obj?
    decreases node, 0
  {
    match KeyIndex(node.members, key)
    case None => false
    case Some(k) => Truthy(Some(node.members[k].value)) && Reachable(node.members[k].value, sub)
  }

  /** No recipe among the nodes the search visits. */
  ghost predicate NoRecipeIn(node: Json) {
    forall sub :: Reachable(node, sub) ==> !RecipeNode(sub)
  }

  ghost predicate NoRecipeInItems(node: Json, i: nat)
    requires node.Arr? && i <= |node.items|
  {
    forall sub :: ReachableInItems(node, i, sub) ==> !RecipeNode(sub)
  }

  ghost predicate NoRecipeInChild(node: Json, key: string)
    requires node.Obj?
  {
    forall sub :: ReachableInChild(node, key, sub) ==> !RecipeNode(sub)
  }

  /** The search finds nothing exactly when no node it visits is a
      recipe: a recipe it reaches is either returned or throws. */
  lemma {:induction false} FindNothing(node: Json, side: Side, host: Host)
    ensures FindRecipeNode(node, side, host) == Done(None) <==> NoRecipeIn(node)
    decreases node, if node.Arr? then |node.items| + 1 else 1
  {
    match node
    case Arr(_) =>
      FindNothingInItems(node, 0, side, host);
      assert NoRecipeIn(node) <==> NoRecipeInItems(node, 0);
    case Obj(_) =>
      FindNothingInChild(node, "@graph", side, host);
      FindNothingInChild(node, "mainEntity", side, host);
      assert NoRecipeIn(node) <==>
        !RecipeNode(node) && NoRecipeInChild(node, "@graph") && NoRecipeInChild(node, "mainEntity");
    case _ =>
      assert forall sub :: Reachable(node, sub) ==> sub == node;
  }

  lemma {:induction false} FindNothingInItems(node: Json, i: nat, side: Side, host: Host)
    requires node.Arr? && i <= |node.items|
    ensures FindInItems(node, i, side, host) == Done(None) <==> NoRecipeInItems(node, i)
    decreases node, |node.items| - i
  {
    if i < |node.items| {
      FindNothing(node.items[i], side, host);
      FindNothingInItems(node, i + 1, side, host);
      assert NoRecipeInItems(node, i) <==> NoRecipeIn(node.items[i]) && NoRecipeInItems(node, i + 1);
    }
  }

  lemma {:induction false} FindNothingInChild(node: Json, key: string, side: Side, host: Host)
    requires node.Obj?
    ensures FindInChild(node, key, side, host) == Done(None) <==> NoRecipeInChild(node, key)
    decreases node, 0
  {
    match KeyIndex(node.members, key)
    case None =>
    case Some(k) =>
      var child := node.members[k].value;
      if Truthy(Some(child)) {
        FindNothing(child, side, host);
        assert NoRecipeInChild(node, key) <==> NoRecipeIn(child);
      }
  }

  /** A recipe the search returns is the extraction of a recipe node it
      visits. */
  lemma {:induction false} FindSound(node: Json, side: Side, host: Host) returns (sub: Json)
    requires FindRecipeNode(node, side, host).Done? && FindRecipeNode(node, side, host).value.Some?
    ensures Reachable(node, sub) && RecipeNode(sub)
    ensures ExtractOne(sub, side, host) == FindRecipeNode(node, side, host)
    decreases node, if node.Arr? then |node.items| + 1 else 1
  {
    match node
    case Arr(_) =>
      sub := FindSoundInItems(node, 0, side, host);
    case Obj(_) =>
      if ExtractOne(node, side, host).value.Some? {
        sub := node;
      } else if FindInChild(node, "@graph", side, host).value.Some? {
        sub := FindSoundInChild(node, "@graph", side, host);
      } else {
        sub := FindSoundInChild(node, "mainEntity", side, host);
      }
  }

  lemma {:induction false} FindSoundInItems(node: Json, i: nat, side: Side, host: Host) returns (sub: Json)
    requires node.Arr? && i <= |node.items|
    requires FindInItems(node, i, side, host).Done? && FindInItems(node, i, side, host).value.Some?
    ensures ReachableInItems(node, i, sub) && RecipeNode(sub)
    ensures ExtractOne(sub, side, host) == FindInItems(node, i, side, host)
    decreases node, |node.items| - i
  {
    if FindRecipeNode(node.items[i], side, host).value.Some? {
      sub := FindSound(node.items[i], side, host);
    } else {
      sub := FindSoundInItems(node, i + 1, side, host);
    }
  }

  lemma {:induction false} FindSoundInChild(node: Json, key: string, side: Side, host: Host) returns (sub: Json)
    requires node.Obj?
    requires FindInChild(node, key, side, host).Done? && FindInChild(node, key, side, host).value.Some?
    ensures ReachableInChild(node, key, sub) && RecipeNode(sub)
    ensures ExtractOne(sub, side, host) == FindInChild(node, key, side, host)
    decreases node, 0
  {
    var k := KeyIndex(node.members, key).value;
    sub := FindSound(node.members[k].value, side, host);
  }

  /** Arrays are searched left to right and the first hit wins. */
  lemma {:induction false} FirstHitWins(node: Json, j: nat, side: Side, host: Host)
    requires node.Arr? && j < |node.items|
    requires forall i :: 0 <= i < j ==> FindRecipeNode(node.items[i], side, host) == Done(None)
    requires FindRecipeNode(node.items[j], side, host).Done? && FindRecipeNode(node.items[j], side, host).value.Some?
    ensures FindRecipeNode(node, side, host) == FindRecipeNode(node.items[j], side, host)
  {
    FirstHitFrom(node, 0, j, side, host);
  }

  lemma {:induction false} FirstHitFrom(node: Json, i: nat, j: nat, side: Side, host: Host)
    requires node.Arr? && i <= j < |node.items|
    requires forall l :: i <= l < j ==> FindRecipeNode(node.items[l], side, host) == Done(None)
    requires FindRecipeNode(node.items[j], side, host).Done? && FindRecipeNode(node.items[j], side, host).value.Some?
    ensures FindInItems(node, i, side, host) == FindRecipeNode(node.items[j], side, host)
    decreases j - i
  {
    if i < j {
      FirstHitFrom(node, i + 1, j, side, host);
    }
  }

  /** A recipe node is returned itself, ahead of anything in its `@graph`
      or `mainEntity`. */
  lemma RecipeNodeFirst(node: Json, side: Side, host: Host)
    requires node.Obj? && RecipeNode(node)
    ensures FindRecipeNode(node, side, host) == ExtractOne(node, side, host)
  {
  }

  // ---------------------------------------------------------------------------
  // server and client

  /** The record without its servings. */
  function WithoutServings(r: Found): Found {
    match r
    case Done(Some(recipe)) => Done(Some(recipe.(servings := None)))
    case _ => r
  }

  /** The client copy builds the server's record with its own servings. */
  lemma ClientMirrorsServer(node: Json, host: Host)
    ensures ExtractOne(node, Client, host).Done? == ExtractOne(node, Server, host).Done?
    ensures WithoutServings(ExtractOne(node, Client, host)) == WithoutServings(ExtractOne(node, Server, host))
    ensures ExtractOne(node, Client, host).Done? && ExtractOne(node, Client, host).value.Some? ==>
      ExtractOne(node, Client, host).value.value.servings == ClientServings(Get(node, "recipeYield"))
  {
  }

  /** Both copies search alike: they find a recipe in the same node and
      agree on everything but servings. */
  lemma {:induction false} FindMirrors(node: Json, host: Host)
    ensures WithoutServings(FindRecipeNode(node, Client, host)) == WithoutServings(FindRecipeNode(node, Server, host))
    decreases node, if node.Arr? then |node.items| + 1 else 1
  {
    match node
    case Arr(_) =>
      FindMirrorsInItems(node, 0, host);
    case Obj(_) =>
      ClientMirrorsServer(node, host);
      FindMirrorsInChild(node, "@graph", host);
      FindMirrorsInChild(node, "mainEntity", host);
    case _ =>
  }

  lemma {:induction false} FindMirrorsInItems(node: Json, i: nat, host: Host)
    requires node.Arr? && i <= |node.items|
    ensures WithoutServings(FindInItems(node, i, Client, host)) == WithoutServings(FindInItems(node, i, Server, host))
    decreases node, |node.items| - i
  {
    if i < |node.items| {
      FindMirrors(node.items[i], host);
      FindMirrorsInItems(node, i + 1, host);
    }
  }

  lemma {:induction false} FindMirrorsInChild(node: Json, key: string, host: Host)
    requires node.Obj?
    ensures WithoutServings(FindInChild(node, key, Client, host)) == WithoutServings(FindInChild(node, key, Server, host))
    decreases node, 0
  {
    match KeyIndex(node.members, key)
    case None =>
    case Some(k) =>
      FindMirrors(node.members[k].value, host);
  }

  // ---------------------------------------------------------------------------
  // the page's scripts

  /** The page metadata the extraction falls back on. */
  datatype Meta = Meta(pageTitle: Option<string>, ogImage: Option<string>, siteName: Option<string>)

  /** `extractFromJsonLdArray` / `extractRecipeFromJsonLd`: the first recipe
      among the scripts, its source named by the site and its image
      falling back on the page's `og:image`. */
  function ExtractFromScripts(scripts: seq<Json>, meta: Meta, side: Side, host: Host): (r: Found)
    ensures r.Done? && r.value.Some? ==> r.value.value.sourceName == meta.siteName
    ensures r.Done? && r.value.Some? ==> r.value.value.imageUrl.None? || Truthy(r.value.value.imageUrl)
  {
    var found :- FindRecipeNode(Arr(scripts), side, host);
    match found
    case None => Done(None)
    case Some(recipe) =>
      Done(Some(recipe.(
        sourceName := if Present(recipe.sourceName) then recipe.sourceName else meta.siteName,
        imageUrl := if Truthy(recipe.imageUrl) then recipe.imageUrl
                    else if Present(meta.ogImage) then Some(Str(meta.ogImage.value))
                    else None)))
  }

  /** There is no recipe exactly when no script holds a recipe node the
      search visits. */
  lemma ExtractNothing(scripts: seq<Json>, meta: Meta, side: Side, host: Host)
    ensures ExtractFromScripts(scripts, meta, side, host) == Done(None) <==> NoRecipeIn(Arr(scripts))
  {
    FindNothing(Arr(scripts), side, host);
  }
}

=== FILE: forms.dfy ===
/** The two recipe forms (components/recipes/import-flow.tsx and
    components/recipes/recipe-form.tsx): the values each form starts from,
    the tag editor they share, the lists they send on submit, and the import
    flow's reaction to the import endpoint's reply. React state, toasts and
    navigation are reduced to the values they hold. */
module Forms {
  import opened Wrappers
  import opened Text
  import opened JsonValue
  import opened Schema
  import opened IngredientLines
  import opened Extractor
  import opened Scrape

  // ---------------------------------------------------------------------------
  // lists of rows

  /** A list field: the given texts, or one empty row to type into. */
  function Rows(texts: seq<string>): (r: seq<string>)
    ensures |r| == if texts == [] then 1 else |texts|
    ensures forall i :: 0 <= i < |texts| ==> r[i] == texts[i]
    ensures texts == [] ==> r[0] == ""
  {
    if texts == [] then [""] else texts
  }

  /** A form's lists can be submitted when no row is empty (`min(1)`). */
  predicate Filled(rows: seq<string>) {
    forall i :: 0 <= i < |rows| ==> rows[i] != ""
  }

  // ---------------------------------------------------------------------------
  // the import form's starting values (`recipeToFormDefaults`)

  /** The fields of the import form that an imported recipe fills. */
  datatype ImportForm = ImportForm(
    title: string,
    description: string,
    ingredients: seq<string>,
    instructions: seq<string>,
    tags: seq<Json>,
    prepTime: Option<nat>,
    cookTime: Option<nat>,
    servings: Option<real>,
    sourceUrl: string,
    sourceName: string,
    imageUrl: Json)

  /** `v ?? ""` for a JSON value, where `null` counts as absent too. */
  function OrEmpty(v: Option<Json>): (r: Json)
    ensures r.Null? ==> false
  {
    if v.Some? && !v.value.Null? then v.value else Str("")
  }

  /** The form values for an imported recipe: each ingredient row is a raw
      line and each instruction row a step's text, in order; empty lists get
      one blank row. None stands for `{}`, which leaves the form's blank
      defaults in place. */
  function RecipeToFormDefaults(recipe: Option<ScrapedRecipe>, url: Option<string>): (r: Option<ImportForm>)
    ensures r.Some? <==> recipe.Some?
    ensures r.Some? ==>
      var ings := recipe.value.ingredients;
      |r.value.ingredients| == (if ings == [] then 1 else |ings|)
      && (forall i :: 0 <= i < |ings| ==> r.value.ingredients[i] == ings[i].raw)
    ensures r.Some? ==>
      var steps := recipe.value.instructions;
      |r.value.instructions| == (if steps == [] then 1 else |steps|)
      && (forall i :: 0 <= i < |steps| ==> r.value.instructions[i] == steps[i].text)
    ensures r.Some? ==>
      r.value.title == recipe.value.title.GetOr("") && r.value.sourceUrl == url.GetOr("")
      && r.value.tags == recipe.value.tags.GetOr([])
  {
    match recipe
    case None => None
    case Some(rec) =>
      Some(ImportForm(
        rec.title.GetOr(""),
        rec.description.GetOr(""),
        Rows(Raws(rec.ingredients)),
        Rows(Texts(rec.instructions)),
        rec.tags.GetOr([]),
        rec.prepTime, rec.cookTime, rec.servings,
        url.GetOr(""),
        rec.sourceName.GetOr(""),
        OrEmpty(rec.imageUrl)))
  }

  // ---------------------------------------------------------------------------
  // sites that refuse server-side fetches

  const BlockedSiteHints: seq<string> :=
    ["seriouseats.com", "nytimes.com", "cooking.nytimes.com", "bonappetit.com", "epicurious.com", "food52.com"]

  /** Some hint in `hints` occurs in `url`. */
  predicate AnyIn(hints: seq<string>, url: string) {
    hints != [] && (Contains(url, hints[0]) || AnyIn(hints[1..], url))
  }

  lemma {:induction false} AnyInIff(hints: seq<string>, url: string)
    ensures AnyIn(hints, url) <==> exists i :: 0 <= i < |hints| && Contains(url, hints[i])
  {
    if hints != [] {
      AnyInIff(hints[1..], url);
      if exists i :: 0 <= i < |hints[1..]| && Contains(url, hints[1..][i]) {
        var i :| 0 <= i < |hints[1..]| && Contains(url, hints[1..][i]);
        assert Contains(url, hints[i + 1]);
      }
      if exists i :: 0 <= i < |hints| && Contains(url, hints[i]) {
        var i :| 0 <= i < |hints| && Contains(url, hints[i]);
        if i > 0 {
          assert Contains(url, hints[1..][i - 1]);
        }
      }
    }
  }

  /** `isKnownBlockedSite`: the URL contains one of the hints anywhere. */
  function IsKnownBlockedSite(url: string): (r: bool)
    ensures r <==> exists i :: 0 <= i < |BlockedSiteHints| && Contains(url, BlockedSiteHints[i])
  {
    AnyInIff(BlockedSiteHints, url);
    AnyIn(BlockedSiteHints, url)
  }

  /** The match is a substring test, not a host test: the `nytimes.com`
      hint already covers `cooking.nytimes.com`, and the hint may sit
      anywhere in the URL. */
  lemma CookingHintCovered(url: string)
    requires Contains(url, "cooking.nytimes.com")
    ensures Contains(url, "nytimes.com")
  {
    ContainsIff(url, "cooking.nytimes.com");
    var i :| OccursAt(url, "cooking.nytimes.com", i);
    assert url[i + 8..i + 19] == url[i..i + 19][8..];
    assert OccursAt(url, "nytimes.com", i + 8);
    ContainsIff(url, "nytimes.com");
  }

  // ---------------------------------------------------------------------------
  // the tag editor (`addTag`, `removeTag`; the same in both forms)

  /** The tags so far and the text in the tag input. */
  datatype TagEditor = TagEditor(tags: seq<Json>, input: string)

  /** The tag `addTag` makes of the input: trimmed and lower-cased. */
  function Typed(input: string): string {
    ToLower(Trim(input))
  }

  /** `addTag`: appends the typed tag unless it is empty or already there;
      the input is cleared either way. */
  function AddTag(e: TagEditor): (r: TagEditor)
    ensures r.input == ""
    ensures |e.tags| <= |r.tags| <= |e.tags| + 1 && r.tags[..|e.tags|] == e.tags
    ensures forall x :: x in r.tags <==> x in e.tags || (Typed(e.input) != "" && x == Str(Typed(e.input)))
    ensures |r.tags| == |e.tags| + 1 <==> Typed(e.input) != "" && Str(Typed(e.input)) !in e.tags
  {
    var tag := Typed(e.input);
    if tag != "" && Str(tag) !in e.tags then
      assert (e.tags + [Str(tag)])[..|e.tags|] == e.tags;
      TagEditor(e.tags + [Str(tag)], "")
    else
      assert e.tags[..|e.tags|] == e.tags;
      TagEditor(e.tags, "")
  }

  /** `removeTag`: every copy of the tag goes, the rest keep their order. */
  function RemoveTag(tags: seq<Json>, tag: Json): (r: seq<Json>)
    ensures |r| <= |tags|
    ensures forall x :: x in r <==> x in tags && x != tag
  {
    if tags == [] then []
    else
      var rest := RemoveTag(tags[1..], tag);
      assert forall x :: x in tags <==> x == tags[0] || x in tags[1..];
      if tags[0] == tag then rest else [tags[0]] + rest
  }

  /** No tag appears twice. */
  predicate Distinct(tags: seq<Json>) {
    forall i, j :: 0 <= i < j < |tags| ==> tags[i] != tags[j]
  }

  /** Adding keeps the tags free of duplicates. */
  lemma AddTagDistinct(e: TagEditor)
    requires Distinct(e.tags)
    ensures Distinct(AddTag(e).tags)
  {
  }

  /** Removing keeps the tags free of duplicates. */
  lemma {:induction false} RemoveTagDistinct(tags: seq<Json>, tag: Json)
    requires Distinct(tags)
    ensures Distinct(RemoveTag(tags, tag))
  {
    if tags != [] {
      assert Distinct(tags[1..]) by {
        forall i, j | 0 <= i < j < |tags[1..]| ensures tags[1..][i] != tags[1..][j] {
          assert tags[1..][i] == tags[i + 1] && tags[1..][j] == tags[j + 1];
        }
      }
      RemoveTagDistinct(tags[1..], tag);
      var rest := RemoveTag(tags[1..], tag);
      assert tags[0] !in tags[1..];
      assert tags[0] !in rest;
    }
  }

  /** Removing a tag that is not there changes nothing. */
  lemma {:induction false} RemoveAbsent(tags: seq<Json>, tag: Json)
    requires tag !in tags
    ensures RemoveTag(tags, tag) == tags
  {
    if tags != [] {
      RemoveAbsent(tags[1..], tag);
      assert [tags[0]] + tags[1..] == tags;
    }
  }

  lemma {:induction false} RemoveAppend(a: seq<Json>, b: seq<Json>, tag: Json)
    ensures RemoveTag(a + b, tag) == RemoveTag(a, tag) + RemoveTag(b, tag)
  {
    if a == [] {
      assert a + b == b;
    } else {
      assert (a + b)[0] == a[0] && (a + b)[1..] == a[1..] + b;
      RemoveAppend(a[1..], b, tag);
    }
  }

  /** Removing the tag just added undoes the addition. */
  lemma RemoveUndoesAdd(e: TagEditor)
    ensures Typed(e.input) != "" && Str(Typed(e.input)) !in e.tags ==>
      RemoveTag(AddTag(e).tags, Str(Typed(e.input))) == e.tags
  {
    var x := Str(Typed(e.input));
    if Typed(e.input) != "" && x !in e.tags {
      RemoveAppend(e.tags, [x], x);
      RemoveAbsent(e.tags, x);
      assert RemoveTag([x], x) == [];
    }
  }

  /** Adding a tag that was just removed puts it back, at the end. */
  lemma AddAfterRemove(tags: seq<Json>, input: string)
    requires Typed(input) != ""
    ensures AddTag(TagEditor(RemoveTag(tags, Str(Typed(input))), input)).tags
         == RemoveTag(tags, Str(Typed(input))) + [Str(Typed(input))]
  {
  }

  // ---------------------------------------------------------------------------
  // submitting (`onSubmit`, the same list mapping in both forms)

  /** The two lists `onSubmit` sends in place of the typed rows; the other
      fields go out as typed. */
  datatype Submission = Submission(ingredients: seq<Ingredient>, instructions: seq<InstructionStep>)

  /** `{ raw, name: raw }`. */
  function AsIngredient(raw: string): Ingredient {
    Ingredient(raw, None, None, Some(raw), None)
  }

  /** Each ingredient row becomes a line named by its whole text, and the
      instruction rows are numbered one, two, three, … in order. */
  function Submit(ingredientRows: seq<string>, instructionRows: seq<string>): (r: Submission)
    ensures Raws(r.ingredients) == ingredientRows
    ensures forall i :: 0 <= i < |r.ingredients| ==>
      r.ingredients[i].name == Some(ingredientRows[i])
      && r.ingredients[i].amount.None? && r.ingredients[i].unit.None? && r.ingredients[i].notes.None?
    ensures Texts(r.instructions) == instructionRows
    ensures forall i :: 0 <= i < |r.instructions| ==> r.instructions[i].step == i + 1
  {
    var steps := NumberedFrom(instructionRows, 0);
    TextsNumbered(instructionRows, 0);
    forall i | 0 <= i < |steps| ensures steps[i].step == i + 1 {
      NumberedFromAt(instructionRows, 0, i);
    }
    Submission(Map(ingredientRows, AsIngredient), steps)
  }

  /** Steps numbered one, two, three, … in order. */
  predicate NumberedInOrder(steps: seq<InstructionStep>) {
    forall i :: 0 <= i < |steps| ==> steps[i].step == i + 1
  }

  lemma StepsFromTexts(steps: seq<InstructionStep>)
    requires NumberedInOrder(steps)
    ensures Submit([], Texts(steps)).instructions == steps
  {
    var r := Submit([], Texts(steps)).instructions;
    assert |r| == |steps|;
    forall i | 0 <= i < |steps| ensures r[i] == steps[i] {
      assert r[i].text == Texts(steps)[i] == steps[i].text;
    }
  }

  /** Saving an imported recipe untouched sends back its ingredient lines
      and its steps, provided both lists are non-empty and the steps are
      numbered in order. */
  lemma ImportRoundTrip(recipe: ScrapedRecipe, url: Option<string>)
    requires recipe.ingredients != [] && recipe.instructions != []
    requires NumberedInOrder(recipe.instructions)
    ensures var form := RecipeToFormDefaults(Some(recipe), url).value;
      var sent := Submit(form.ingredients, form.instructions);
      Raws(sent.ingredients) == Raws(recipe.ingredients) && sent.instructions == recipe.instructions
  {
    var form := RecipeToFormDefaults(Some(recipe), url).value;
    assert form.ingredients == Raws(recipe.ingredients);
    assert form.instructions == Texts(recipe.instructions);
    StepsFromTexts(recipe.instructions);
  }

  /** The extractor's steps are numbered in order, so the round trip holds
      for every imported recipe with ingredients and steps. */
  lemma ParsedStepsNumbered(lines: seq<string>)
    ensures NumberedInOrder(ParseInstructions(lines))
  {
    ParseInstructionsNumbered(lines);
  }

  /** An import without ingredients or without steps leaves an empty row,
      which the form refuses to submit until it is filled or removed. */
  lemma EmptyListBlocksSubmit(recipe: ScrapedRecipe, url: Option<string>)
    requires recipe.ingredients == [] || recipe.instructions == []
    ensures var form := RecipeToFormDefaults(Some(recipe), url).value;
      !Filled(form.ingredients) || !Filled(form.instructions)
  {
  }

  // ---------------------------------------------------------------------------
  // the import flow (`handleFetch` and the Save button)

  datatype FlowStep = UrlStep | ReviewStep

  /** The import flow's state: the step shown, the URL typed, the parse
      error shown, the form values (None while they are the blank
      defaults), and the last toast. */
  datatype Flow = Flow(step: FlowStep, url: string, parseError: Option<string>, form: Option<ImportForm>, toast: Option<string>)

  /** What the import endpoint answered: nothing readable (the request or
      `res.json()` threw), a non-2xx answer with its `error`, or the
      scrape's recipe and error. */
  datatype Reply = Unreadable | Refused(error: Option<string>) | Imported(recipe: Option<ScrapedRecipe>, parseError: Option<string>)

  /** The reply the endpoint builds from a scrape outcome. */
  function ReplyOf(s: Scraped): Reply {
    Imported(s.recipe, s.error)
  }

  /** `handleFetch`. A blank URL does nothing. Otherwise the parse error is
      cleared; a failed request toasts and stays put; a `"blocked"` scrape
      opens the review step with the form as it was; any other scrape opens
      the review step showing its error, with the form filled from the
      recipe when there is one. */
  function HandleFetch(s: Flow, reply: Reply): (r: Flow)
    ensures Trim(s.url) == "" ==> r == s
    ensures r.url == s.url
    ensures Trim(s.url) != "" && !reply.Imported? ==>
      r.step == s.step && r.form == s.form && r.parseError.None?
    ensures Trim(s.url) != "" && reply.Unreadable? ==> r.toast == Some(FetchFailed)
    ensures Trim(s.url) != "" && reply.Refused? ==>
      r.toast == Some(if Present(reply.error) then reply.error.value else FetchFailed)
    ensures Trim(s.url) != "" && reply.Imported? ==> r.step == ReviewStep && r.toast == s.toast
    ensures Trim(s.url) != "" && reply.Imported? && reply.parseError == Some(Blocked) ==>
      r.form == s.form && r.parseError == Some(Blocked)
    ensures Trim(s.url) != "" && reply.Imported? && reply.parseError != Some(Blocked) ==>
      r.parseError == (if Present(reply.parseError) then reply.parseError else None)
      && r.form == (if reply.recipe.Some? then RecipeToFormDefaults(reply.recipe, Some(Trim(s.url))) else s.form)
  {
    if Trim(s.url) == "" then s
    else
      var cleared := s.(parseError := None);
      match reply
      case Unreadable => cleared.(toast := Some(FetchFailed))
      case Refused(error) => cleared.(toast := Some(if Present(error) then error.value else FetchFailed))
      case Imported(recipe, err) =>
        if err == Some(Blocked) then cleared.(parseError := Some(Blocked), step := ReviewStep)
        else
          var shown := if Present(err) then cleared.(parseError := err) else cleared;
          var filled := if recipe.Some? then shown.(form := RecipeToFormDefaults(recipe, Some(Trim(s.url)))) else shown;
          filled.(step := ReviewStep)
  }

  /** The Save button is disabled while submitting or when the site
      blocked the fetch. */
  predicate SaveDisabled(s: Flow, submitting: bool) {
    submitting || s.parseError == Some(Blocked)
  }

  /** After a fetch, Save is disabled (outside a submission) exactly when
      the scrape came back `"blocked"`. */
  lemma SaveDisabledIff(s: Flow, reply: Reply)
    ensures Trim(s.url) != "" ==>
      (SaveDisabled(HandleFetch(s, reply), false) <==> reply.Imported? && reply.parseError == Some(Blocked))
  {
  }

  /** Traced back to the fetch: Save is disabled exactly when the recipe
      site answered 403. */
  lemma SaveDisabledOnForbidden(s: Flow, f: Fetch, host: Host)
    requires Trim(s.url) != ""
    requires ScrapeFromUrl(f, host).Done?
    ensures SaveDisabled(HandleFetch(s, ReplyOf(ScrapeFromUrl(f, host).value)), false) <==> f.Response? && f.status == 403
  {
    BlockedIff(f, host);
    SaveDisabledIff(s, ReplyOf(ScrapeFromUrl(f, host).value));
  }

  // ---------------------------------------------------------------------------
  // the create / edit form (`RecipeForm`)

  /** A stored list row as an edit page passes it: a bare string, or an
      object whose `raw` (ingredient) or `text` (instruction) is the row. */
  datatype Line = Bare(text: string) | Object(field: string)

  function LineText(l: Line): string {
    match l
    case Bare(t) => t
    case Object(f) => f
  }

  /** The `initialData` a create or edit page passes; every field optional. */
  datatype EditData = EditData(
    id: Option<string>,
    title: Option<string>,
    description: Option<string>,
    sourceUrl: Option<string>,
    sourceName: Option<string>,
    imageUrl: Option<string>,
    ingredients: Option<seq<Line>>,
    instructions: Option<seq<Line>>,
    tags: Option<seq<Json>>,
    isPublic: Option<bool>,
    notes: Option<string>,
    prepTime: Option<nat>,
    cookTime: Option<nat>,
    servings: Option<nat>)

  /** The recipe form's values. */
  datatype RecipeFields = RecipeFields(
    title: string,
    description: string,
    sourceUrl: string,
    sourceName: string,
    imageUrl: string,
    ingredients: seq<string>,
    instructions: seq<string>,
    tags: seq<Json>,
    isPublic: bool,
    notes: string,
    prepTime: Option<nat>,
    cookTime: Option<nat>,
    servings: Option<nat>)

  /** The rows of an optional list: its texts, or one empty row when the
      list is absent or empty. */
  function LineRows(lines: Option<seq<Line>>): (r: seq<string>)
    ensures |r| == if lines.None? || lines.value == [] then 1 else |lines.value|
    ensures lines.Some? ==> forall i :: 0 <= i < |lines.value| ==> r[i] == LineText(lines.value[i])
    ensures lines.None? ==> r == [""]
  {
    Rows(Map(lines.GetOr([]), LineText))
  }

  /** The form's starting values: each absent field blank, private, and one
      empty row in each list. */
  function EditDefaults(data: Option<EditData>): (r: RecipeFields)
    ensures data.None? ==> r == RecipeFields("", "", "", "", "", [""], [""], [], false, "", None, None, None)
    ensures data.Some? ==>
      r.title == data.value.title.GetOr("") && r.isPublic == data.value.isPublic.GetOr(false)
      && r.tags == data.value.tags.GetOr([]) && r.servings == data.value.servings
    ensures data.Some? ==> r.ingredients == LineRows(data.value.ingredients) && r.instructions == LineRows(data.value.instructions)
  {
    match data
    case None => RecipeFields("", "", "", "", "", [""], [""], [], false, "", None, None, None)
    case Some(d) =>
      RecipeFields(
        d.title.GetOr(""), d.description.GetOr(""), d.sourceUrl.GetOr(""), d.sourceName.GetOr(""),
        d.imageUrl.GetOr(""),
        LineRows(d.ingredients), LineRows(d.instructions),
        d.tags.GetOr([]), d.isPublic.GetOr(false), d.notes.GetOr(""),
        d.prepTime, d.cookTime, d.servings)
  }

  /** Saving an edited recipe untouched sends back the rows it was given,
      whether they came as strings or as objects. */
  lemma EditRoundTrip(d: EditData)
    requires d.ingredients.Some? && d.ingredients.value != []
    requires d.instructions.Some? && d.instructions.value != []
    ensures var form := EditDefaults(Some(d));
      var sent := Submit(form.ingredients, form.instructions);
      Raws(sent.ingredients) == Map(d.ingredients.value, LineText)
      && Texts(sent.instructions) == Map(d.instructions.value, LineText)
      && NumberedInOrder(sent.instructions)
  {
  }

  datatype Mode = Create | Edit

  /** Where the form sends its body. */
  datatype Request = Request(verb: string, path: string)

  const RecipesPath := "/api/recipes"

  /** Create posts to the collection; edit patches the recipe by id, and an
      edit page that passed no id patches `/api/recipes/undefined`, the way
      a missing value prints in a template string. */
  function SubmitRequest(mode: Mode, data: Option<EditData>): (r: Request)
    ensures mode == Create ==> r == Request("POST", RecipesPath)
    ensures mode == Edit ==> r.verb == "PATCH" && StartsWith(r.path, RecipesPath + "/")
    ensures mode == Edit && data.Some? && data.value.id.Some? ==>
      r.path[|RecipesPath| + 1..] == data.value.id.value
    ensures mode == Edit && (data.None? || data.value.id.None?) ==>
      r.path[|RecipesPath| + 1..] == "undefined"
  {
    match mode
    case Create => Request("POST", RecipesPath)
    case Edit =>
      var id := if data.Some? && data.value.id.Some? then data.value.id.value else "undefined";
      var path := RecipesPath + "/" + id;
      assert path[..|RecipesPath| + 1] == RecipesPath + "/";
      Request("PATCH", path)
  }

  /** Different recipes are patched at different paths. */
  lemma EditPathsDistinct(a: EditData, b: EditData)
    requires a.id.Some? && b.id.Some? && a.id != b.id
    ensures SubmitRequest(Edit, Some(a)).path != SubmitRequest(Edit, Some(b)).path
  {
  }
}

=== FILE: images.dfy ===
/** `pickBestImage`: of the entries of a Schema.org `image` array, the one
    with the widest aspect ratio, or the last one when no entry gives its
    dimensions. */
module Images {
  import opened Wrappers
  import opened Text
  import opened JsonValue

  /** What the loop reads from one entry: its URL, when truthy, and its
      width-to-height ratio, when both are positive. */
  datatype Entry = Entry(url: Option<Json>, ratio: Option<real>)

  /** `typeof img === "string" ? img : img?.url`, when truthy: entries
      without one are skipped. */
  function UrlOf(img: Json): (r: Option<Json>)
    ensures r.Some? ==> Truthy(r)
    ensures img.Str? ==> r == (if img.s != "" then Some(img) else None)
    ensures !img.Str? && !img.Obj? ==> r.None?
  {
    var url := if img.Str? then Some(img) else Get(img, "url");
    if Truthy(url) then url else None
  }

  /** `Number(img?.width) / Number(img?.height)`, when both are positive
      (`Number` of strings and objects is `numberOf`). */
  function RatioOf(img: Json, numberOf: Json -> Option<real>): (r: Option<real>)
    ensures r.Some? ==> r.value > 0.0
    ensures !img.Obj? ==> r.None?
  {
    var w := ToNumber(Get(img, "width"), numberOf);
    var h := ToNumber(Get(img, "height"), numberOf);
    if w.Some? && h.Some? && w.value > 0.0 && h.value > 0.0 then Some(w.value / h.value) else None
  }

  function EntryOf(numberOf: Json -> Option<real>): Json -> Entry {
    img => Entry(UrlOf(img), RatioOf(img, numberOf))
  }

  /** Ratios are positive, so any of them beats the initial -1. */
  predicate Positive(entries: seq<Entry>) {
    forall i :: 0 <= i < |entries| && entries[i].ratio.Some? ==> entries[i].ratio.value > 0.0
  }

  /** An entry with a URL and dimensions. */
  predicate Rated(e: Entry) { e.url.Some? && e.ratio.Some? }

  /** The loop's variables: `bestUrl`, `bestRatio`, `hasAnyDimensions`. */
  datatype Pick = Pick(best: Option<Json>, bestRatio: real, hasAny: bool)

  const Start := Pick(None, -1.0, false)

  /** One turn of the loop. */
  function Step(p: Pick, e: Entry): Pick {
    match e.url
    case None => p
    case Some(url) =>
      match e.ratio
      case Some(ratio) =>
        if ratio > p.bestRatio then Pick(Some(url), ratio, true) else p.(hasAny := true)
      case None =>
        if !p.hasAny then p.(best := Some(url)) else p
  }

  /** The variables after the first k entries. */
  function PickPrefix(entries: seq<Entry>, k: nat): Pick
    requires k <= |entries|
  {
    if k == 0 then Start else Step(PickPrefix(entries, k - 1), entries[k - 1])
  }

  /** `pickBestImage`. */
  function PickBestImage(images: seq<Json>, numberOf: Json -> Option<real>): Option<Json> {
    var entries := Map(images, EntryOf(numberOf));
    PickPrefix(entries, |entries|).best
  }

  // ---------------------------------------------------------------------------
  // what the loop computes

  /** Entry j has the widest ratio of the first k entries, and no entry
      before it is as wide. */
  predicate Widest(entries: seq<Entry>, k: nat, j: nat)
    requires j < k <= |entries|
  {
    && Rated(entries[j])
    && (forall i :: 0 <= i < j && Rated(entries[i]) ==> entries[i].ratio.value < entries[j].ratio.value)
    && (forall i :: j < i < k && Rated(entries[i]) ==> entries[i].ratio.value <= entries[j].ratio.value)
  }

  /** Entry j is the last of the first k entries with a URL. */
  predicate LastWithUrl(entries: seq<Entry>, k: nat, j: nat)
    requires j < k <= |entries|
  {
    entries[j].url.Some? && forall i :: j < i < k ==> entries[i].url.None?
  }

  /** No entry among the first k has both a URL and dimensions. */
  predicate NoneRated(entries: seq<Entry>, k: nat)
    requires k <= |entries|
  {
    forall i :: 0 <= i < k ==> !Rated(entries[i])
  }

  /** Which entry the variables describe after k entries. */
  datatype Seen = NoUrl | LastUrl(j: nat) | WidestAt(j: nat)

  /** What the variables hold after k entries: nothing while no entry had a
      URL; the last URL while no entry had dimensions; afterwards the
      widest entry with dimensions. */
  predicate Describes(entries: seq<Entry>, k: nat, p: Pick, w: Seen)
    requires k <= |entries|
  {
    match w
    case NoUrl =>
      p == Start && forall i :: 0 <= i < k ==> entries[i].url.None?
    case LastUrl(j) =>
      j < k && LastWithUrl(entries, k, j) && NoneRated(entries, k)
      && p == Pick(entries[j].url, -1.0, false)
    case WidestAt(j) =>
      j < k && Widest(entries, k, j)
      && p == Pick(entries[j].url, entries[j].ratio.value, true)
  }

  lemma {:induction false} PickPrefixDescribed(entries: seq<Entry>, k: nat) returns (w: Seen)
    requires k <= |entries| && Positive(entries)
    ensures Describes(entries, k, PickPrefix(entries, k), w)
  {
    if k == 0 {
      w := NoUrl;
    } else {
      var v := PickPrefixDescribed(entries, k - 1);
      w := StepDescribed(entries, k - 1, PickPrefix(entries, k - 1), v);
    }
  }

  /** One turn of the loop keeps the description. */
  lemma StepDescribed(entries: seq<Entry>, k: nat, p: Pick, v: Seen) returns (w: Seen)
    requires k < |entries| && Positive(entries) && Describes(entries, k, p, v)
    ensures Describes(entries, k + 1, Step(p, entries[k]), w)
  {
    var e := entries[k];
    if e.url.None? {
      w := v;
      StepSkipped(entries, k, p, v);
    } else if e.ratio.Some? {
      if v.WidestAt? {
        w := StepRatedAfterRated(entries, k, p, v.j);
      } else {
        w := WidestAt(k);
        StepFirstRated(entries, k, p, v);
      }
    } else if v.WidestAt? {
      w := v;
      StepUnratedAfterRated(entries, k, p, v.j);
    } else {
      w := LastUrl(k);
      StepUnrated(entries, k, p, v);
    }
  }

  lemma StepSkipped(entries: seq<Entry>, k: nat, p: Pick, v: Seen)
    requires k < |entries| && Describes(entries, k, p, v) && entries[k].url.None?
    ensures Describes(entries, k + 1, Step(p, entries[k]), v)
  {
    match v
    case NoUrl =>
    case LastUrl(j) => assert LastWithUrl(entries, k + 1, j);
    case WidestAt(j) => assert Widest(entries, k + 1, j);
  }

  lemma StepFirstRated(entries: seq<Entry>, k: nat, p: Pick, v: Seen)
    requires k < |entries| && Positive(entries) && Describes(entries, k, p, v) && !v.WidestAt?
    requires Rated(entries[k])
    ensures Describes(entries, k + 1, Step(p, entries[k]), WidestAt(k))
  {
    assert NoneRated(entries, k);
    assert p.bestRatio == -1.0 && entries[k].ratio.value > 0.0;
    assert Widest(entries, k + 1, k);
  }

  lemma StepRatedAfterRated(entries: seq<Entry>, k: nat, p: Pick, j: nat) returns (w: Seen)
    requires k < |entries| && Describes(entries, k, p, WidestAt(j))
    requires Rated(entries[k])
    ensures Describes(entries, k + 1, Step(p, entries[k]), w)
  {
    if entries[k].ratio.value > p.bestRatio {
      w := WidestAt(k);
      StepWider(entries, k, p, j);
    } else {
      w := WidestAt(j);
      StepNotWider(entries, k, p, j);
    }
  }

  /** A strictly wider entry takes over. */
  lemma StepWider(entries: seq<Entry>, k: nat, p: Pick, j: nat)
    requires k < |entries| && Describes(entries, k, p, WidestAt(j))
    requires Rated(entries[k]) && entries[k].ratio.value > p.bestRatio
    ensures Describes(entries, k + 1, Step(p, entries[k]), WidestAt(k))
  {
    assert Widest(entries, k + 1, k);
  }

  /** An entry no wider than the best so far changes nothing. */
  lemma StepNotWider(entries: seq<Entry>, k: nat, p: Pick, j: nat)
    requires k < |entries| && Describes(entries, k, p, WidestAt(j))
    requires Rated(entries[k]) && entries[k].ratio.value <= p.bestRatio
    ensures Describes(entries, k + 1, Step(p, entries[k]), WidestAt(j))
  {
    assert Widest(entries, k + 1, j);
  }

  lemma StepUnratedAfterRated(entries: seq<Entry>, k: nat, p: Pick, j: nat)
    requires k < |entries| && Describes(entries, k, p, WidestAt(j))
    requires entries[k].url.Some? && entries[k].ratio.None?
    ensures Describes(entries, k + 1, Step(p, entries[k]), WidestAt(j))
  {
    assert Widest(entries, k + 1, j);
  }

  lemma StepUnrated(entries: seq<Entry>, k: nat, p: Pick, v: Seen)
    requires k < |entries| && Describes(entries, k, p, v) && !v.WidestAt?
    requires entries[k].url.Some? && entries[k].ratio.None?
    ensures Describes(entries, k + 1, Step(p, entries[k]), LastUrl(k))
  {
    assert NoneRated(entries, k + 1);
    assert LastWithUrl(entries, k + 1, k);
  }

  lemma WidestUnique(entries: seq<Entry>, k: nat, j: nat, j': nat)
    requires j < k <= |entries| && j' < k
    requires Widest(entries, k, j) && Widest(entries, k, j')
    ensures j == j'
  {
    assert !(j < j') && !(j' < j);
  }

  // ---------------------------------------------------------------------------
  // the result

  /** The entries the loop reads from the images. */
  lemma EntriesOf(images: seq<Json>, numberOf: Json -> Option<real>) returns (entries: seq<Entry>)
    ensures entries == Map(images, EntryOf(numberOf))
    ensures PickBestImage(images, numberOf) == PickPrefix(entries, |entries|).best
    ensures Positive(entries) && Read(images, numberOf, entries)
  {
    entries := Map(images, EntryOf(numberOf));
  }

  /** The entries describe the images one for one. */
  predicate Read(images: seq<Json>, numberOf: Json -> Option<real>, entries: seq<Entry>) {
    |entries| == |images| && forall i :: 0 <= i < |images| ==> entries[i] == Entry(UrlOf(images[i]), RatioOf(images[i], numberOf))
  }

  /** The widest entry wins, whatever came before it. */
  lemma PickWidestEntry(entries: seq<Entry>, j: nat)
    requires j < |entries| && Positive(entries) && Widest(entries, |entries|, j)
    ensures PickPrefix(entries, |entries|).best == entries[j].url
  {
    var w := PickPrefixDescribed(entries, |entries|);
    assert Rated(entries[j]);
    assert w.WidestAt?;
    WidestUnique(entries, |entries|, j, w.j);
  }

  /** Without dimensions, the last URL wins. */
  lemma PickLastEntry(entries: seq<Entry>, j: nat)
    requires j < |entries| && Positive(entries) && LastWithUrl(entries, |entries|, j) && NoneRated(entries, |entries|)
    ensures PickPrefix(entries, |entries|).best == entries[j].url
  {
    var w := PickPrefixDescribed(entries, |entries|);
    assert w.LastUrl?;
    assert !(j < w.j) && !(w.j < j);
  }

  /** Without URLs, nothing wins. */
  lemma PickNoEntry(entries: seq<Entry>)
    requires Positive(entries) && forall i :: 0 <= i < |entries| ==> entries[i].url.None?
    ensures PickPrefix(entries, |entries|).best.None?
  {
    var w := PickPrefixDescribed(entries, |entries|);
    assert w.NoUrl?;
  }

  /** The winner is one of the entries' URLs. */
  lemma PickSomeEntry(entries: seq<Entry>) returns (j: nat)
    requires Positive(entries) && PickPrefix(entries, |entries|).best.Some?
    ensures j < |entries| && PickPrefix(entries, |entries|).best == entries[j].url
  {
    var w := PickPrefixDescribed(entries, |entries|);
    j := w.j;
  }

  /** With some entry that gives its dimensions, the result is the URL of
      the widest such entry, the first of equally wide ones. */
  lemma PickWidest(images: seq<Json>, j: nat, numberOf: Json -> Option<real>)
    requires j < |images|
    requires UrlOf(images[j]).Some? && RatioOf(images[j], numberOf).Some?
    requires forall i :: 0 <= i < j && UrlOf(images[i]).Some? && RatioOf(images[i], numberOf).Some? ==>
      RatioOf(images[i], numberOf).value < RatioOf(images[j], numberOf).value
    requires forall i :: j < i < |images| && UrlOf(images[i]).Some? && RatioOf(images[i], numberOf).Some? ==>
      RatioOf(images[i], numberOf).value <= RatioOf(images[j], numberOf).value
    ensures PickBestImage(images, numberOf) == UrlOf(images[j])
  {
    var entries := EntriesOf(images, numberOf);
    WidestRead(images, numberOf, entries, j);
    PickWidestEntry(entries, j);
  }

  lemma WidestRead(images: seq<Json>, numberOf: Json -> Option<real>, entries: seq<Entry>, j: nat)
    requires Read(images, numberOf, entries) && j < |images|
    requires UrlOf(images[j]).Some? && RatioOf(images[j], numberOf).Some?
    requires forall i :: 0 <= i < j && UrlOf(images[i]).Some? && RatioOf(images[i], numberOf).Some? ==>
      RatioOf(images[i], numberOf).value < RatioOf(images[j], numberOf).value
    requires forall i :: j < i < |images| && UrlOf(images[i]).Some? && RatioOf(images[i], numberOf).Some? ==>
      RatioOf(images[i], numberOf).value <= RatioOf(images[j], numberOf).value
    ensures Widest(entries, |entries|, j)
  {
  }

  /** With no entry that gives its dimensions, the result is the last URL. */
  lemma PickLastUrl(images: seq<Json>, j: nat, numberOf: Json -> Option<real>)
    requires j < |images| && UrlOf(images[j]).Some?
    requires forall i :: j < i < |images| ==> UrlOf(images[i]).None?
    requires forall i :: 0 <= i < |images| ==> UrlOf(images[i]).None? || RatioOf(images[i], numberOf).None?
    ensures PickBestImage(images, numberOf) == UrlOf(images[j])
  {
    var entries := EntriesOf(images, numberOf);
    LastRead(images, numberOf, entries, j);
    PickLastEntry(entries, j);
  }

  lemma LastRead(images: seq<Json>, numberOf: Json -> Option<real>, entries: seq<Entry>, j: nat)
    requires Read(images, numberOf, entries) && j < |images| && UrlOf(images[j]).Some?
    requires forall i :: j < i < |images| ==> UrlOf(images[i]).None?
    requires forall i :: 0 <= i < |images| ==> UrlOf(images[i]).None? || RatioOf(images[i], numberOf).None?
    ensures LastWithUrl(entries, |entries|, j) && NoneRated(entries, |entries|)
  {
  }

  /** With no URL at all, there is no image. */
  lemma PickNone(images: seq<Json>, numberOf: Json -> Option<real>)
    requires forall i :: 0 <= i < |images| ==> UrlOf(images[i]).None?
    ensures PickBestImage(images, numberOf).None?
  {
    var entries := EntriesOf(images, numberOf);
    assert forall i :: 0 <= i < |entries| ==> entries[i].url.None?;
    PickNoEntry(entries);
  }

  /** The result is always the URL of one of the entries. */
  lemma PickFromEntries(images: seq<Json>, numberOf: Json -> Option<real>)
    ensures PickBestImage(images, numberOf).Some? ==>
      exists j :: 0 <= j < |images| && PickBestImage(images, numberOf) == UrlOf(images[j])
  {
    var entries := EntriesOf(images, numberOf);
    if PickPrefix(entries, |entries|).best.Some? {
      var j := PickSomeEntry(entries);
      assert entries[j].url == UrlOf(images[j]);
    }
  }
}

=== FILE: ingredient_examples.dfy ===
/** How typical ingredient lines split into amount, unit and name, and the
    two-word units the pattern prefers. */
module IngredientExamples {
  import opened Wrappers
  import opened Text
  import opened Schema
  import opened IngredientLines

  predicate Letters(w: string) { w != [] && forall i :: 0 <= i < |w| ==> IsAsciiLetter(w[i]) }

  /** One word of any characters but white space. */
  predicate Word(n: string) { n != [] && forall i :: 0 <= i < |n| ==> !IsSpace(n[i]) }

  /** The whole run of class p from i ends at j. */
  lemma {:induction false} RunEndIs(c: string, i: nat, j: nat, p: char -> bool)
    requires i <= j <= |c| && Within(c, i, j, p) && (j == |c| || !p(c[j]))
    ensures RunEnd(c, i, p) == j
    decreases j - i
  {
    if i < j {
      RunEndIs(c, i + 1, j, p);
    }
  }

  /** No rest of the pattern starts inside a word. */
  lemma NoRestInWord(c: string, from: nat)
    requires from <= |c| && forall k :: from <= k < |c| ==> !IsSpace(c[k])
    ensures forall e, r :: from <= e ==> !RestFits(c, e, r)
  {
    forall e, r | from <= e < r <= |c| ensures !Within(c, e, r, IsSpace) {
      assert !IsSpace(c[e]);
    }
  }

  /** The rest of the pattern after a single space before a word. */
  lemma RestBeforeWord(c: string, a: nat)
    requires a < |c| && c[a] == ' ' && Word(c[a + 1..])
    ensures RestAt(c, a) == Some(a + 1)
  {
    var n := c[a + 1..];
    if a + 1 < |c| {
      assert c[a + 1] == n[0];
    }
    RunEndIs(c, a, a + 1, IsSpace);
    assert NoLineTerminator(n) by {
      forall i | 0 <= i < |n| ensures !IsLineTerminator(n[i]) {
        assert !IsSpace(n[i]);
      }
    }
  }

  /** Trimming an amount followed by one space gives the amount. */
  lemma TrimAmount(d: string)
    requires AmountText(d)
    ensures Trim(d + " ") == d
  {
    var g := d + " ";
    assert g[0] == d[0];
    TrimStartNoop(g);
    assert g[..|g| - 1] == d;
    assert TrimEnd(g) == TrimEnd(d);
    assert TrimEnd(d) == d;
  }

  // ---------------------------------------------------------------------------
  // amount, one-word unit, name

  lemma OneWordLayout(c: string, d: string, w: string, n: string)
    requires c == d + " " + w + " " + n
    requires AmountText(d) && Letters(w) && Word(n)
    ensures var l, a := |d| + 1, |d| + 1 + |w|;
      && a < |c| && Within(c, 0, l, IsAmountChar) && !IsAmountChar(c[l]) && !IsSpace(c[l])
      && Within(c, l, a, IsAsciiLetter) && c[a] == ' ' && !IsAsciiLetter(c[a])
      && c[..l] == d + " " && c[l..a] == w && c[a + 1..] == n
  {
    var l, a := |d| + 1, |d| + 1 + |w|;
    assert c[..l] == d + " ";
    assert c[l..a] == w;
    assert c[a + 1..] == n;
    assert c[l] == w[0];
  }

  /** "d w n": the amount, a space, a word of letters, a space and a
      single word match with w as a one-word unit. */
  lemma MatchOneWordUnit(c: string, d: string, w: string, n: string)
    requires c == d + " " + w + " " + n
    requires AmountText(d) && Letters(w) && Word(n)
    ensures MatchLine(c) == Some(LineMatch(|d| + 1, |d| + 1, OneWord(|d| + 1 + |w|), |d| + 2 + |w|))
  {
    var l, a := |d| + 1, |d| + 1 + |w|;
    OneWordLayout(c, d, w, n);
    RunEndIs(c, 0, l, IsAmountChar);
    RunEndIs(c, l, l, IsSpace);
    RunEndIs(c, l, a, IsAsciiLetter);
    OneWordAfter(c, l, a);
    assert UnitFrom(c, l, a) == Some((OneWord(a), a + 1));
  }

  /** After a word followed by a space and a single word, the second word
      is rejected and the first is the unit. */
  lemma OneWordAfter(c: string, l: nat, a: nat)
    requires l < a < |c| && Within(c, l, a, IsAsciiLetter) && c[a] == ' ' && Word(c[a + 1..])
    ensures AfterWord(c, l, a) == Some((OneWord(a), a + 1))
  {
    assert c[a + 1] == c[a + 1..][0];
    RunEndIs(c, a, a + 1, IsSpace);
    NoSecondWordBefore(c, l, a);
    RestBeforeWord(c, a);
  }

  lemma NoSecondWordBefore(c: string, l: nat, a: nat)
    requires l < a < |c| && Within(c, l, a, IsAsciiLetter) && c[a] == ' ' && Word(c[a + 1..])
    requires a + 1 == RunEnd(c, a, IsSpace)
    ensures SpacedWord(c, l, a, a + 1).None?
  {
    forall k | a + 1 <= k < |c| ensures !IsSpace(c[k]) {
      assert c[k] == c[a + 1..][k - a - 1];
    }
    NoRestInWord(c, a + 1);
  }

  /** "2 large eggs" is amount "2", unit "large" and name "eggs"; in the
      same way "1 1/2 cups flour" is "1 1/2", "cups" and "flour". */
  lemma ExampleOneWordUnit(line: string, d: string, w: string, n: string)
    requires Clean(line) == d + " " + w + " " + n
    requires AmountText(d) && Letters(w) && Word(n)
    ensures ParseIngredient(line) == Ingredient(Clean(line), Some(d), Some(w), Some(n), None)
  {
    ParseOneWordUnit(Clean(line), d, w, n);
  }

  lemma ParseOneWordUnit(c: string, d: string, w: string, n: string)
    requires c == d + " " + w + " " + n
    requires AmountText(d) && Letters(w) && Word(n)
    ensures ParseCleaned(c) == Ingredient(c, Some(d), Some(w), Some(n), None)
  {
    var m := LineMatch(|d| + 1, |d| + 1, OneWord(|d| + 1 + |w|), |d| + 2 + |w|);
    MatchOneWordUnit(c, d, w, n);
    OneWordGroups(c, d, w, n, m);
  }

  lemma OneWordGroups(c: string, d: string, w: string, n: string, m: LineMatch)
    requires c == d + " " + w + " " + n
    requires AmountText(d) && Letters(w) && Word(n)
    requires m == LineMatch(|d| + 1, |d| + 1, OneWord(|d| + 1 + |w|), |d| + 2 + |w|) && Fits(c, m)
    ensures TrimmedGroup(AmountGroup(c, m)) == Some(d)
    ensures TrimmedGroup(UnitGroup(c, m)) == Some(w)
    ensures TrimmedGroup(NameGroup(c, m)) == Some(n)
  {
    OneWordLayout(c, d, w, n);
    TrimAmount(d);
    assert (d + " ")[0] == d[0];
    assert UnitGroup(c, m) == w;
    assert IsAsciiLetter(w[0]) && IsAsciiLetter(w[|w| - 1]);
    SolidGroup(w);
    assert NameGroup(c, m) == n;
    assert !IsSpace(n[0]) && !IsSpace(n[|n| - 1]);
    SolidGroup(n);
  }

  /** A group with no white space at its ends is kept as it is. */
  lemma SolidGroup(g: string)
    requires g != [] && !IsSpace(g[0]) && !IsSpace(g[|g| - 1])
    ensures TrimmedGroup(g) == Some(g)
  {
    TrimOfTrimmed(g);
  }

  // ---------------------------------------------------------------------------
  // amount, two-word unit, name

  lemma TwoWordLayout(c: string, d: string, w1: string, w2: string, n: string)
    requires c == d + " " + w1 + " " + w2 + " " + n
    requires AmountText(d) && Letters(w1) && Letters(w2) && Word(n)
    ensures var l, a := |d| + 1, |d| + 1 + |w1|; var e := a + 1 + |w2|;
      && e < |c| && Within(c, 0, l, IsAmountChar) && !IsAmountChar(c[l]) && !IsSpace(c[l])
      && Within(c, l, a, IsAsciiLetter) && c[a] == ' ' && !IsSpace(c[a + 1])
      && Within(c, a + 1, e, IsAsciiLetter) && c[e] == ' ' && !IsAsciiLetter(c[e])
      && c[..l] == d + " " && c[l..e] == w1 + " " + w2 && c[e + 1..] == n
  {
    var l, a := |d| + 1, |d| + 1 + |w1|;
    var e := a + 1 + |w2|;
    assert c[..l] == d + " ";
    assert c[l..e] == w1 + " " + w2;
    assert c[e + 1..] == n;
    assert c[l] == w1[0];
    assert c[a + 1] == w2[0];
    assert forall k :: a + 1 <= k < e ==> c[k] == w2[k - a - 1];
  }

  /** "d w1 w2 n": the unit group takes two words when a space and a single
      word follow them. */
  lemma MatchTwoWordUnit(c: string, d: string, w1: string, w2: string, n: string)
    requires c == d + " " + w1 + " " + w2 + " " + n
    requires AmountText(d) && Letters(w1) && Letters(w2) && Word(n)
    ensures MatchLine(c) == Some(LineMatch(|d| + 1, |d| + 1, TwoWords(|d| + 1 + |w1|, |d| + 2 + |w1|, |d| + |w1| + |w2| + 2), |d| + |w1| + |w2| + 3))
  {
    var l, a := |d| + 1, |d| + 1 + |w1|;
    var e := a + 1 + |w2|;
    TwoWordLayout(c, d, w1, w2, n);
    RunEndIs(c, 0, l, IsAmountChar);
    RunEndIs(c, l, l, IsSpace);
    RunEndIs(c, l, a, IsAsciiLetter);
    TwoWordAfter(c, l, a, e);
    assert UnitFrom(c, l, a) == Some((TwoWords(a, a + 1, e), e + 1));
  }

  lemma TwoWordAfter(c: string, l: nat, a: nat, e: nat)
    requires l < a && a + 1 < e < |c| && Within(c, l, a, IsAsciiLetter) && c[a] == ' '
    requires Within(c, a + 1, e, IsAsciiLetter) && c[e] == ' ' && Word(c[e + 1..])
    ensures AfterWord(c, l, a) == Some((TwoWords(a, a + 1, e), e + 1))
  {
    RunEndIs(c, a, a + 1, IsSpace);
    RunEndIs(c, a + 1, e, IsAsciiLetter);
    RestBeforeWord(c, e);
    assert SecondWord(c, l, a, a + 1, e) == Some((TwoWords(a, a + 1, e), e + 1));
  }

  lemma TwoWordGroups(c: string, d: string, w1: string, w2: string, n: string, m: LineMatch)
    requires c == d + " " + w1 + " " + w2 + " " + n
    requires AmountText(d) && Letters(w1) && Letters(w2) && Word(n)
    requires m.amountEnd == |d| + 1 && m.unitStart == |d| + 1 && m.unit.TwoWords?
    requires m.unit.secondEnd == |d| + |w1| + |w2| + 2 && m.restStart == |d| + |w1| + |w2| + 3 && Fits(c, m)
    ensures TrimmedGroup(AmountGroup(c, m)) == Some(d)
    ensures TrimmedGroup(UnitGroup(c, m)) == Some(w1 + " " + w2)
    ensures TrimmedGroup(NameGroup(c, m)) == Some(n)
  {
    TwoWordLayout(c, d, w1, w2, n);
    TrimAmount(d);
    assert (d + " ")[0] == d[0];
    var u := w1 + " " + w2;
    assert UnitGroup(c, m) == u;
    assert u[0] == w1[0] && u[|u| - 1] == w2[|w2| - 1];
    SolidGroup(u);
    assert NameGroup(c, m) == n;
    assert !IsSpace(n[0]) && !IsSpace(n[|n| - 1]);
    SolidGroup(n);
  }

  lemma ParseTwoWordUnit(c: string, d: string, w1: string, w2: string, n: string)
    requires c == d + " " + w1 + " " + w2 + " " + n
    requires AmountText(d) && Letters(w1) && Letters(w2) && Word(n)
    ensures ParseCleaned(c) == Ingredient(c, Some(d), Some(w1 + " " + w2), Some(n), None)
  {
    var m := LineMatch(|d| + 1, |d| + 1, TwoWords(|d| + 1 + |w1|, |d| + 2 + |w1|, |d| + |w1| + |w2| + 2), |d| + |w1| + |w2| + 3);
    MatchTwoWordUnit(c, d, w1, w2, n);
    TwoWordGroups(c, d, w1, w2, n, m);
  }

  /** The unit group is greedy: "1 cup white sugar" is amount "1", unit
      "cup white" and name "sugar". */
  lemma ExampleTwoWordUnit(line: string, d: string, w1: string, w2: string, n: string)
    requires Clean(line) == d + " " + w1 + " " + w2 + " " + n
    requires AmountText(d) && Letters(w1) && Letters(w2) && Word(n)
    ensures ParseIngredient(line) == Ingredient(Clean(line), Some(d), Some(w1 + " " + w2), Some(n), None)
  {
    ParseTwoWordUnit(Clean(line), d, w1, w2, n);
  }
}

=== FILE: ingredient_lines.dfy ===
/** `parseIngredients` and `parseInstructions`: blank lines dropped, each
    ingredient line cleaned and split by the pattern
      ^([\d\/\.\s¼-¾⅐-⅞]+)?\s*([a-zA-Z]+(?:\s+[a-zA-Z]+)?)?\s+(.+)?$
    into amount, unit and name, and instruction lines numbered from one. */
module IngredientLines {
  import opened Wrappers
  import opened Text
  import opened Schema

  // ---------------------------------------------------------------------------
  // character classes and runs

  /** `[\d\/\.\s¼-¾⅐-⅞]`: digits, '/', '.', white space
      and the vulgar-fraction characters. */
  predicate IsAmountChar(c: char) {
    IsDigit(c) || c == '/' || c == '.' || IsSpace(c) || ('\U{BC}' <= c <= '\U{BE}') || ('\U{2150}' <= c <= '\U{215E}')
  }

  /** Every character of c[i..j] is in the class p. */
  predicate Within(c: string, i: nat, j: nat, p: char -> bool)
    requires i <= j <= |c|
  {
    forall k :: i <= k < j ==> p(c[k])
  }

  /** Where the run of class p starting at i ends. */
  function RunEnd(c: string, i: nat, p: char -> bool): (e: nat)
    requires i <= |c|
    ensures i <= e <= |c| && Within(c, i, e, p)
    ensures e == |c| || !p(c[e])
    decreases |c| - i
  {
    if i < |c| && p(c[i]) then RunEnd(c, i + 1, p) else i
  }

  /** No run of class p starting at i reaches past the end of the run. */
  lemma RunEndMax(c: string, i: nat, j: nat, p: char -> bool)
    requires i <= j <= |c| && Within(c, i, j, p)
    ensures j <= RunEnd(c, i, p)
  {
  }

  // ---------------------------------------------------------------------------
  // what a match is

  /** The unit group: left out, one word, or two words with white space
      between them (positions in the cleaned line). */
  datatype UnitShape =
    | NoUnit
    | OneWord(wordEnd: nat)
    | TwoWords(firstEnd: nat, secondStart: nat, secondEnd: nat)

  /** One way the pattern matches the line: the amount group is c[..amountEnd]
      (left out when empty), white space up to unitStart, the unit group,
      white space, then the name group c[restStart..] (left out when empty). */
  datatype LineMatch = LineMatch(amountEnd: nat, unitStart: nat, unit: UnitShape, restStart: nat)

  function ShapeEnd(u: nat, shape: UnitShape): nat {
    match shape
    case NoUnit => u
    case OneWord(a) => a
    case TwoWords(_, _, e) => e
  }

  predicate ShapeFits(c: string, u: nat, shape: UnitShape)
    requires u <= |c|
  {
    match shape
    case NoUnit => true
    case OneWord(a) => u < a <= |c| && Within(c, u, a, IsAsciiLetter)
    case TwoWords(a, w, e) =>
      && u < a < w < e <= |c|
      && Within(c, u, a, IsAsciiLetter) && Within(c, a, w, IsSpace) && Within(c, w, e, IsAsciiLetter)
  }

  /** `\s+(.+)?$` from e: white space up to r, and nothing after r that `.`
      refuses. */
  predicate RestFits(c: string, e: nat, r: nat) {
    e < r <= |c| && Within(c, e, r, IsSpace) && NoLineTerminator(c[r..])
  }

  predicate Fits(c: string, m: LineMatch) {
    && m.amountEnd <= m.unitStart <= |c|
    && Within(c, 0, m.amountEnd, IsAmountChar)
    && Within(c, m.amountEnd, m.unitStart, IsSpace)
    && ShapeFits(c, m.unitStart, m.unit)
    && RestFits(c, ShapeEnd(m.unitStart, m.unit), m.restStart)
  }

  // ---------------------------------------------------------------------------
  // the backtracking search, in the order the regular-expression engine
  // tries the alternatives: greedy quantifiers longest first, an optional
  // group present before absent

  /** `\s+(.+)?$` at e. Taking the whole run of white space is the first
      choice and the only one that can succeed: a shorter run leaves more
      text for `.` to accept. */
  function RestAt(c: string, e: nat): (r: Option<nat>)
    requires e <= |c|
    ensures r.Some? ==> RestFits(c, e, r.value)
    ensures r.None? ==> forall q :: !RestFits(c, e, q)
  {
    var k := RunEnd(c, e, IsSpace);
    RestAtLongest(c, e);
    if k > e && NoLineTerminator(c[k..]) then Some(k) else None
  }

  /** Whatever white space the rest can start after, the whole run works
      as well. */
  lemma RestAtLongest(c: string, e: nat)
    requires e <= |c|
    ensures forall q :: RestFits(c, e, q) ==>
      RunEnd(c, e, IsSpace) > e && NoLineTerminator(c[RunEnd(c, e, IsSpace)..])
  {
    var k := RunEnd(c, e, IsSpace);
    forall q | RestFits(c, e, q) ensures k > e && NoLineTerminator(c[k..]) {
      RunEndMax(c, e, q, IsSpace);
      NoLineTerminatorSuffix(c, q, k);
    }
  }

  lemma NoLineTerminatorSuffix(c: string, q: nat, k: nat)
    requires q <= k <= |c| && NoLineTerminator(c[q..])
    ensures NoLineTerminator(c[k..])
  {
    forall i | 0 <= i < |c[k..]| ensures !IsLineTerminator(c[k..][i]) {
      assert c[k..][i] == c[q..][k - q + i];
    }
  }

  /** The second word of a two-word unit, ending at e or earlier. */
  function SecondWord(c: string, u: nat, a: nat, w: nat, e: nat): (r: Option<(UnitShape, nat)>)
    requires u < a < w <= e <= |c|
    requires Within(c, u, a, IsAsciiLetter) && Within(c, a, w, IsSpace) && Within(c, w, e, IsAsciiLetter)
    ensures r.Some? ==> ShapeFits(c, u, r.value.0) && RestFits(c, ShapeEnd(u, r.value.0), r.value.1)
    ensures r.Some? ==> r.value.0.TwoWords? && r.value.0.firstEnd == a
    ensures r.None? ==> forall e' :: w < e' <= e ==> RestAt(c, e').None?
    decreases e
  {
    if e == w then None
    else match RestAt(c, e)
      case Some(r) => Some((TwoWords(a, w, e), r))
      case None => SecondWord(c, u, a, w, e - 1)
  }

  /** No two-word unit whose first word ends at a can be followed by the
      rest of the pattern. */
  predicate NoSecondWord(c: string, a: nat)
    requires a <= |c|
  {
    forall w, e :: a < w < e <= |c| && Within(c, a, w, IsSpace) && Within(c, w, e, IsAsciiLetter) ==> RestAt(c, e).None?
  }

  /** `\s+[a-zA-Z]+` after the first word: the white space before the
      second word ending at w or earlier. */
  function SpacedWord(c: string, u: nat, a: nat, w: nat): (r: Option<(UnitShape, nat)>)
    requires u < a <= w <= |c|
    requires Within(c, u, a, IsAsciiLetter) && Within(c, a, w, IsSpace)
    requires w == RunEnd(c, a, IsSpace) || (w < |c| && IsSpace(c[w]))
    ensures r.Some? ==> ShapeFits(c, u, r.value.0) && RestFits(c, ShapeEnd(u, r.value.0), r.value.1)
    ensures r.Some? ==> r.value.0.TwoWords? && r.value.0.firstEnd == a
    ensures r.None? ==> forall w', e :: a < w' <= w && w' < e <= |c| && Within(c, a, w', IsSpace) && Within(c, w', e, IsAsciiLetter) ==> RestAt(c, e).None?
    decreases w
  {
    if w == a then None
    else
      var e := RunEnd(c, w, IsAsciiLetter);
      match SecondWord(c, u, a, w, e)
      case Some(x) => Some(x)
      case None =>
        SpacedWordStep(c, a, w, e);
        SpacedWord(c, u, a, w - 1)
  }

  lemma SpacedWordStep(c: string, a: nat, w: nat, e: nat)
    requires a < w <= e <= |c| && e == RunEnd(c, w, IsAsciiLetter)
    requires forall e' :: w < e' <= e ==> RestAt(c, e').None?
    ensures forall e' :: w < e' <= |c| && Within(c, w, e', IsAsciiLetter) ==> RestAt(c, e').None?
  {
    forall e' | w < e' <= |c| && Within(c, w, e', IsAsciiLetter) ensures RestAt(c, e').None? {
      RunEndMax(c, w, e', IsAsciiLetter);
    }
  }

  /** After a first word ending at a: the second word tried first, then the
      one-word unit. */
  function AfterWord(c: string, u: nat, a: nat): (r: Option<(UnitShape, nat)>)
    requires u < a <= |c| && Within(c, u, a, IsAsciiLetter)
    ensures r.Some? ==> ShapeFits(c, u, r.value.0) && RestFits(c, ShapeEnd(u, r.value.0), r.value.1)
    ensures r.None? ==> RestAt(c, a).None? && NoSecondWord(c, a)
  {
    var s := RunEnd(c, a, IsSpace);
    match SpacedWord(c, u, a, s)
    case Some(x) => Some(x)
    case None =>
      AfterWordStep(c, a, s);
      match RestAt(c, a)
      case Some(r) => Some((OneWord(a), r))
      case None => None
  }

  lemma AfterWordStep(c: string, a: nat, s: nat)
    requires a <= s <= |c| && s == RunEnd(c, a, IsSpace)
    requires forall w', e :: a < w' <= s && w' < e <= |c| && Within(c, a, w', IsSpace) && Within(c, w', e, IsAsciiLetter) ==> RestAt(c, e).None?
    ensures NoSecondWord(c, a)
  {
    forall w, e | a < w < e <= |c| && Within(c, a, w, IsSpace) && Within(c, w, e, IsAsciiLetter) ensures RestAt(c, e).None? {
      RunEndMax(c, a, w, IsSpace);
    }
  }

  /** No first word ending at a leads to a match. */
  predicate WordFails(c: string, a: nat)
    requires a <= |c|
  {
    RestAt(c, a).None? && NoSecondWord(c, a)
  }

  /** The unit group starting at u, its first word ending at a or earlier;
      then the group left out. */
  function UnitFrom(c: string, u: nat, a: nat): (r: Option<(UnitShape, nat)>)
    requires u <= a <= |c| && Within(c, u, a, IsAsciiLetter)
    ensures r.Some? ==> ShapeFits(c, u, r.value.0) && RestFits(c, ShapeEnd(u, r.value.0), r.value.1)
    ensures r.None? ==> RestAt(c, u).None? && forall a' :: u < a' <= a ==> WordFails(c, a')
    decreases a
  {
    if a == u then
      match RestAt(c, u)
      case Some(r) => Some((NoUnit, r))
      case None => None
    else match AfterWord(c, u, a)
      case Some(x) => Some(x)
      case None => UnitFrom(c, u, a - 1)
  }

  /** No unit group starting at u leads to a match. */
  predicate UnitFails(c: string, u: nat)
    requires u <= |c|
  {
    RestAt(c, u).None? && forall a :: u < a <= |c| && Within(c, u, a, IsAsciiLetter) ==> WordFails(c, a)
  }

  lemma UnitFromFails(c: string, u: nat)
    requires u <= |c|
    requires UnitFrom(c, u, RunEnd(c, u, IsAsciiLetter)).None?
    ensures UnitFails(c, u)
  {
    forall a | u < a <= |c| && Within(c, u, a, IsAsciiLetter) ensures WordFails(c, a) {
      RunEndMax(c, u, a, IsAsciiLetter);
    }
  }

  /** `\s*` after the amount group ending at l, its run ending at u or
      earlier. */
  function SpacesFrom(c: string, l: nat, u: nat): (r: Option<LineMatch>)
    requires l <= u <= |c|
    requires Within(c, 0, l, IsAmountChar) && Within(c, l, u, IsSpace)
    ensures r.Some? ==> Fits(c, r.value)
    ensures r.None? ==> forall u' :: l <= u' <= u ==> UnitFails(c, u')
    decreases u
  {
    var a := RunEnd(c, u, IsAsciiLetter);
    match UnitFrom(c, u, a)
    case Some(x) => Some(LineMatch(l, u, x.0, x.1))
    case None =>
      UnitFromFails(c, u);
      if u == l then None else SpacesFrom(c, l, u - 1)
  }

  /** No match has its amount group end at l. */
  predicate AmountFails(c: string, l: nat)
    requires l <= |c|
  {
    forall u :: l <= u <= |c| && Within(c, l, u, IsSpace) ==> UnitFails(c, u)
  }

  /** The amount group ending at l or earlier; l = 0 is the group left out. */
  function AmountFrom(c: string, l: nat): (r: Option<LineMatch>)
    requires l <= |c| && Within(c, 0, l, IsAmountChar)
    ensures r.Some? ==> Fits(c, r.value)
    ensures r.None? ==> forall l' :: 0 <= l' <= l ==> AmountFails(c, l')
    decreases l
  {
    var u := RunEnd(c, l, IsSpace);
    match SpacesFrom(c, l, u)
    case Some(m) => Some(m)
    case None =>
      AmountFromStep(c, l, u);
      if l == 0 then None else AmountFrom(c, l - 1)
  }

  lemma AmountFromStep(c: string, l: nat, u: nat)
    requires l <= u <= |c| && u == RunEnd(c, l, IsSpace)
    requires forall u' :: l <= u' <= u ==> UnitFails(c, u')
    ensures AmountFails(c, l)
  {
    forall u' | l <= u' <= |c| && Within(c, l, u', IsSpace) ensures UnitFails(c, u') {
      RunEndMax(c, l, u', IsSpace);
    }
  }

  /** `cleaned.match(...)`: the first match in the engine's order, if any. */
  function MatchLine(c: string): (r: Option<LineMatch>)
    ensures r.Some? ==> Fits(c, r.value)
  {
    AmountFrom(c, RunEnd(c, 0, IsAmountChar))
  }

  /** The search misses nothing: when it finds no match, there is none. */
  lemma MatchLineComplete(c: string, m: LineMatch)
    requires Fits(c, m)
    ensures MatchLine(c).Some?
  {
    RunEndMax(c, 0, m.amountEnd, IsAmountChar);
    var u := m.unitStart;
    match m.unit {
      case NoUnit =>
        assert RestAt(c, u).Some?;
      case OneWord(a) =>
        assert RestAt(c, a).Some?;
        assert !WordFails(c, a);
      case TwoWords(a, w, e) =>
        assert RestAt(c, e).Some?;
        assert !NoSecondWord(c, a);
        assert !WordFails(c, a);
    }
    assert !UnitFails(c, u);
    assert !AmountFails(c, m.amountEnd);
  }

  // ---------------------------------------------------------------------------
  // the groups of a match

  /** Group 1 (empty when it did not take part). */
  function AmountGroup(c: string, m: LineMatch): string
    requires Fits(c, m)
  {
    c[..m.amountEnd]
  }

  /** Group 2 (empty when it did not take part). */
  function UnitGroup(c: string, m: LineMatch): string
    requires Fits(c, m)
  {
    c[m.unitStart..ShapeEnd(m.unitStart, m.unit)]
  }

  /** Group 3 (empty when it did not take part). */
  function NameGroup(c: string, m: LineMatch): string
    requires Fits(c, m)
  {
    c[m.restStart..]
  }

  /** `g?.trim() || undefined` for the text g a group took. */
  function TrimmedGroup(g: string): (r: Option<string>)
    ensures r.Some? <==> !AllSpace(g)
    ensures r.Some? ==> r.value == Trim(g)
  {
    if Trim(g) != [] then Some(Trim(g)) else None
  }

  /** `raw.trim().replace(/\s+/g, " ")`. */
  function Clean(line: string): (c: string)
    ensures Trimmed(c) && SingleSpaced(c)
    ensures Visible(c) == Visible(line)
    ensures c == [] <==> AllSpace(line)
  {
    var t := Trim(line);
    TrimmedCollapse(t);
    CollapseSingleSpaced(t);
    CollapseVisible(t);
    VisibleTrim(line);
    Collapse(t)
  }

  /** Cleaning a cleaned line changes nothing. */
  lemma CleanIdempotent(line: string)
    ensures Clean(Clean(line)) == Clean(line)
  {
    var c := Clean(line);
    TrimOfTrimmed(c);
    CollapseOfSingleSpaced(c);
  }

  /** What group 1 can hold once trimmed: amount characters, without white
      space at either end. */
  predicate AmountText(a: string) {
    a != [] && Trimmed(a) && forall i :: 0 <= i < |a| ==> IsAmountChar(a[i])
  }

  /** What group 2 can hold in a cleaned line: letters, with single spaces
      inside. */
  predicate UnitText(u: string) {
    && u != [] && IsAsciiLetter(u[0]) && IsAsciiLetter(u[|u| - 1])
    && forall i :: 0 <= i < |u| ==> IsAsciiLetter(u[i]) || u[i] == ' '
  }

  /** The ingredient a cleaned line gives: the groups of its match as
      amount, unit and name, or the whole line as name when the pattern
      does not match. */
  function ParseCleaned(c: string): (r: Ingredient)
    ensures r.raw == c && r.notes.None? && r.name.Some?
  {
    match MatchLine(c)
    case None => Ingredient(c, None, None, Some(c), None)
    case Some(m) =>
      var name := TrimmedGroup(NameGroup(c, m));
      Ingredient(c, TrimmedGroup(AmountGroup(c, m)), TrimmedGroup(UnitGroup(c, m)), Some(if name.Some? then name.value else c), None)
  }

  /** One kept line of `parseIngredients`. */
  function ParseIngredient(line: string): (r: Ingredient)
    ensures r.raw == Clean(line) && r.notes.None? && r.name.Some?
  {
    ParseCleaned(Clean(line))
  }

  /** What the parts of a parsed line are: the amount is a prefix of the
      cleaned line made of amount characters, the unit is letters, the name
      is a suffix of the line and never empty for a line that is not blank,
      and an unmatched line is all name. */
  lemma ParseIngredientParts(line: string)
    ensures var r := ParseIngredient(line);
      && (!AllSpace(line) ==> r.name.value != [])
      && (r.amount.Some? ==> AmountText(r.amount.value) && r.amount.value <= r.raw)
      && (r.unit.Some? ==> UnitText(r.unit.value))
      && |r.name.value| <= |r.raw| && r.name.value == r.raw[|r.raw| - |r.name.value|..]
      && (MatchLine(r.raw).None? ==> r.amount.None? && r.unit.None? && r.name.value == r.raw)
  {
    var c := Clean(line);
    match MatchLine(c) {
      case None =>
      case Some(m) =>
        AmountOfMatch(c, m);
        UnitOfMatch(c, m);
        NameOfMatch(c, m);
    }
  }

  /** Parsing a stored raw text gives the ingredient back. */
  lemma ParseIngredientStable(line: string)
    ensures ParseIngredient(ParseIngredient(line).raw) == ParseIngredient(line)
  {
    CleanIdempotent(line);
  }

  /** Trimming group 1 leaves a prefix of the line made of amount
      characters. */
  lemma AmountOfMatch(c: string, m: LineMatch)
    requires Fits(c, m) && Trimmed(c)
    ensures var g := TrimmedGroup(AmountGroup(c, m)); g.Some? ==> AmountText(g.value) && g.value <= c
  {
    var g := AmountGroup(c, m);
    if !AllSpace(g) {
      assert g[0] == c[0];
      TrimStartNoop(g);
      var t := Trim(g);
      assert t == g[..|t|];
      assert forall i :: 0 <= i < |t| ==> t[i] == c[i];
    }
  }

  /** Group 2 needs no trimming and holds letters and single spaces. */
  lemma UnitOfMatch(c: string, m: LineMatch)
    requires Fits(c, m) && SingleSpaced(c)
    ensures var g := TrimmedGroup(UnitGroup(c, m)); g.Some? ==> UnitText(g.value)
  {
    var u := m.unitStart;
    var e := ShapeEnd(u, m.unit);
    if e > u {
      ShapeChars(c, u, m.unit);
      var g := c[u..e];
      assert forall i :: 0 <= i < |g| ==> g[i] == c[u + i];
      assert UnitText(g);
      TrimOfTrimmed(g);
    }
  }

  lemma ShapeChars(c: string, u: nat, shape: UnitShape)
    requires u <= |c| && ShapeFits(c, u, shape) && SingleSpaced(c) && ShapeEnd(u, shape) > u
    ensures IsAsciiLetter(c[u]) && IsAsciiLetter(c[ShapeEnd(u, shape) - 1])
    ensures forall k :: u <= k < ShapeEnd(u, shape) ==> IsAsciiLetter(c[k]) || c[k] == ' '
  {
  }

  /** Group 3 is never blank in a cleaned line, and trimming it leaves a
      suffix of the line. */
  lemma NameOfMatch(c: string, m: LineMatch)
    requires Fits(c, m) && Trimmed(c)
    ensures var g := TrimmedGroup(NameGroup(c, m)); g.Some? && |g.value| <= |c| && g.value == c[|c| - |g.value|..]
  {
    var r := m.restStart;
    assert IsSpace(c[r - 1]);
    TrimOfSuffix(c, r);
  }

  /** A non-empty suffix of a trimmed string trims to a suffix. */
  lemma TrimOfSuffix(c: string, r: nat)
    requires Trimmed(c) && r < |c|
    ensures !AllSpace(c[r..])
    ensures |Trim(c[r..])| <= |c| && Trim(c[r..]) == c[|c| - |Trim(c[r..])|..]
  {
    var g := c[r..];
    assert g[|g| - 1] == c[|c| - 1];
    TrimOfEndTrimmed(g);
    SuffixOfSuffix(c, r, |g| - |Trim(g)|);
  }

  lemma SuffixOfSuffix(c: string, r: nat, j: nat)
    requires r + j <= |c|
    ensures c[r..][j..] == c[r + j..]
  {
  }

  /** Trimming text that ends without white space only trims its front. */
  lemma TrimOfEndTrimmed(g: string)
    requires g != [] && !IsSpace(g[|g| - 1])
    ensures !AllSpace(g) && |Trim(g)| <= |g| && Trim(g) == g[|g| - |Trim(g)|..]
  {
    var a := TrimStart(g);
    assert a != [] by {
      assert g[..|g| - |a|] != g || a != [];
    }
    assert a[|a| - 1] == g[|g| - 1];
    assert TrimEnd(a) == a;
  }

  // ---------------------------------------------------------------------------
  // the lists

  /** `.filter((s) => s.trim())`: the lines that are not blank, in order. */
  function NonBlank(lines: seq<string>): (r: seq<string>)
    ensures |r| <= |lines|
  {
    if |lines| == 0 then []
    else
      var rest := NonBlank(lines[1..]);
      if AllSpace(lines[0]) then rest else [lines[0]] + rest
  }

  /** Only lines that are not blank are kept. */
  lemma {:induction false} NonBlankKept(lines: seq<string>)
    ensures forall i :: 0 <= i < |NonBlank(lines)| ==> !AllSpace(NonBlank(lines)[i])
  {
    if |lines| > 0 {
      NonBlankKept(lines[1..]);
    }
  }

  /** Lines none of which is blank are all kept. */
  lemma {:induction false} NonBlankNone(lines: seq<string>)
    requires forall i :: 0 <= i < |lines| ==> !AllSpace(lines[i])
    ensures NonBlank(lines) == lines
  {
    if |lines| > 0 {
      assert !AllSpace(lines[0]);
      NonBlankNone(lines[1..]);
      assert lines == [lines[0]] + lines[1..];
    }
  }

  /** Filtering distributes over concatenation. */
  lemma {:induction false} NonBlankAppend(a: seq<string>, b: seq<string>)
    ensures NonBlank(a + b) == NonBlank(a) + NonBlank(b)
  {
    if |a| > 0 {
      assert (a + b)[0] == a[0];
      assert (a + b)[1..] == a[1..] + b;
      NonBlankAppend(a[1..], b);
    } else {
      assert a + b == b;
    }
  }

  /** `parseIngredients`. */
  function ParseIngredients(lines: seq<string>): (r: seq<Ingredient>)
    ensures |r| == |NonBlank(lines)|
  {
    Map(NonBlank(lines), ParseIngredient)
  }

  /** Every parsed ingredient comes from one kept line, keeps its visible
      text, and has a name. */
  lemma ParseIngredientsNamed(lines: seq<string>)
    ensures var r := ParseIngredients(lines);
      forall i :: 0 <= i < |r| ==>
        && r[i] == ParseIngredient(NonBlank(lines)[i])
        && Visible(r[i].raw) == Visible(NonBlank(lines)[i])
        && r[i].raw != [] && r[i].name.value != []
  {
    var kept := NonBlank(lines);
    NonBlankKept(lines);
    forall i | 0 <= i < |kept| ensures ParseIngredient(kept[i]).name.value != [] {
      ParseIngredientParts(kept[i]);
    }
  }

  /** Parsing distributes over concatenation of the input lines. */
  lemma ParseIngredientsAppend(a: seq<string>, b: seq<string>)
    ensures ParseIngredients(a + b) == ParseIngredients(a) + ParseIngredients(b)
  {
    NonBlankAppend(a, b);
    MapAppend(NonBlank(a), NonBlank(b), ParseIngredient);
  }

  function RawText(ing: Ingredient): string { ing.raw }

  /** The raw texts of a list of ingredients. */
  function Raws(ings: seq<Ingredient>): (r: seq<string>)
    ensures |r| == |ings|
  {
    Map(ings, RawText)
  }

  /** Parsing is stable: the stored raw texts parse back to the same
      ingredients. */
  lemma ParseIngredientsStable(lines: seq<string>)
    ensures ParseIngredients(Raws(ParseIngredients(lines))) == ParseIngredients(lines)
  {
    var kept := NonBlank(lines);
    var r := ParseIngredients(lines);
    var raws := Raws(r);
    NonBlankKept(lines);
    forall i | 0 <= i < |raws| ensures !AllSpace(raws[i]) && ParseIngredient(raws[i]) == r[i] {
      assert raws[i] == Clean(kept[i]);
      ParseIngredientStable(kept[i]);
    }
    NonBlankNone(raws);
  }

  /** Texts numbered on from k. */
  function NumberedFrom(texts: seq<string>, k: int): (r: seq<InstructionStep>)
    ensures |r| == |texts|
  {
    if texts == [] then [] else [InstructionStep(k + 1, texts[0])] + NumberedFrom(texts[1..], k + 1)
  }

  lemma {:induction false} NumberedFromAt(texts: seq<string>, k: int, i: nat)
    requires i < |texts|
    ensures NumberedFrom(texts, k)[i] == InstructionStep(k + i + 1, texts[i])
  {
    if i > 0 {
      NumberedFromAt(texts[1..], k + 1, i - 1);
    }
  }

  /** `parseInstructions`. */
  function ParseInstructions(lines: seq<string>): (r: seq<InstructionStep>)
    ensures |r| == |NonBlank(lines)|
  {
    NumberedFrom(Map(NonBlank(lines), Trim), 0)
  }

  /** The steps are numbered one, two, three, …, in line order, and each
      holds the trimmed text of its line, never empty. */
  lemma ParseInstructionsNumbered(lines: seq<string>)
    ensures var r := ParseInstructions(lines);
      forall i :: 0 <= i < |r| ==>
        r[i].step == i + 1 && r[i].text == Trim(NonBlank(lines)[i]) && r[i].text != [] && Trimmed(r[i].text)
  {
    var kept := NonBlank(lines);
    var texts := Map(kept, Trim);
    NonBlankKept(lines);
    forall i | 0 <= i < |kept| ensures NumberedFrom(texts, 0)[i] == InstructionStep(i + 1, Trim(kept[i])) {
      NumberedFromAt(texts, 0, i);
    }
  }

  function StepText(step: InstructionStep): string { step.text }

  /** The texts of a list of steps. */
  function Texts(steps: seq<InstructionStep>): (r: seq<string>)
    ensures |r| == |steps|
  {
    Map(steps, StepText)
  }

  lemma TextsNumbered(texts: seq<string>, k: int)
    ensures Texts(NumberedFrom(texts, k)) == texts
  {
    forall i | 0 <= i < |texts| ensures Texts(NumberedFrom(texts, k))[i] == texts[i] {
      NumberedFromAt(texts, k, i);
    }
  }

  /** The steps' texts parse back to the same steps. */
  lemma ParseInstructionsStable(lines: seq<string>)
    ensures ParseInstructions(Texts(ParseInstructions(lines))) == ParseInstructions(lines)
  {
    var texts := Map(NonBlank(lines), Trim);
    TextsNumbered(texts, 0);
    TrimmedTexts(lines, texts);
    NonBlankNone(texts);
    MapTrimOfTrimmed(texts);
  }

  lemma TrimmedTexts(lines: seq<string>, texts: seq<string>)
    requires texts == Map(NonBlank(lines), Trim)
    ensures forall i :: 0 <= i < |texts| ==> !AllSpace(texts[i]) && Trim(texts[i]) == texts[i]
  {
    NonBlankKept(lines);
    forall i | 0 <= i < |texts| ensures !AllSpace(texts[i]) && Trim(texts[i]) == texts[i] {
      TrimOfTrimmed(texts[i]);
    }
  }

  lemma MapTrimOfTrimmed(texts: seq<string>)
    requires forall i :: 0 <= i < |texts| ==> Trim(texts[i]) == texts[i]
    ensures Map(texts, Trim) == texts
  {
  }

  /** Steps with their numbers moved on by k. */
  function Shift(steps: seq<InstructionStep>, k: int): (r: seq<InstructionStep>)
    ensures |r| == |steps|
  {
    if steps == [] then [] else [InstructionStep(steps[0].step + k, steps[0].text)] + Shift(steps[1..], k)
  }

  lemma {:induction false} NumberedAppend(x: seq<string>, y: seq<string>, k: int)
    ensures NumberedFrom(x + y, k) == NumberedFrom(x, k) + NumberedFrom(y, k + |x|)
  {
    if x == [] {
      assert x + y == y;
    } else {
      var head := [InstructionStep(k + 1, x[0])];
      assert (x + y)[0] == x[0];
      assert (x + y)[1..] == x[1..] + y;
      NumberedAppend(x[1..], y, k + 1);
      assert NumberedFrom(x + y, k) == head + (NumberedFrom(x[1..], k + 1) + NumberedFrom(y, k + |x|));
      assert NumberedFrom(x, k) == head + NumberedFrom(x[1..], k + 1);
    }
  }

  lemma {:induction false} ShiftNumbered(y: seq<string>, j: int, k: int)
    ensures Shift(NumberedFrom(y, j), k) == NumberedFrom(y, j + k)
  {
    if y != [] {
      var n := NumberedFrom(y, j);
      assert n[1..] == NumberedFrom(y[1..], j + 1);
      ShiftNumbered(y[1..], j + 1, k);
    }
  }

  /** The steps of two lists of lines are those of the first, then those of
      the second numbered on from where the first stopped. */
  lemma ParseInstructionsAppend(a: seq<string>, b: seq<string>)
    ensures ParseInstructions(a + b) == ParseInstructions(a) + Shift(ParseInstructions(b), |ParseInstructions(a)|)
  {
    ParseInstructionsTexts(a, b);
    NumberedSplit(Map(NonBlank(a), Trim), Map(NonBlank(b), Trim));
  }

  lemma ParseInstructionsTexts(a: seq<string>, b: seq<string>)
    ensures ParseInstructions(a + b) == NumberedFrom(Map(NonBlank(a), Trim) + Map(NonBlank(b), Trim), 0)
  {
    NonBlankAppend(a, b);
    MapAppend(NonBlank(a), NonBlank(b), Trim);
  }

  lemma NumberedSplit(ta: seq<string>, tb: seq<string>)
    ensures NumberedFrom(ta + tb, 0) == NumberedFrom(ta, 0) + Shift(NumberedFrom(tb, 0), |ta|)
  {
    NumberedAppend(ta, tb, 0);
    ShiftNumbered(tb, 0, |ta|);
  }
}

=== FILE: json.dfy ===
/** Values as `JSON.parse` produces them, with the JavaScript operations the
    extractors apply to them: property reads, truthiness and `Number(...)`. */
module JsonValue {
  import opened Wrappers

  datatype Json =
    | Null
    | Bool(b: bool)
    | Num(n: real)
    | Str(s: string)
    | Arr(items: seq<Json>)
    | Obj(members: seq<Member>)

  /** One `"key": value` pair of an object, in source order. */
  datatype Member = Member(key: string, value: Json)

  /** `obj[key]` on a parsed object: when a key is repeated, the last
      occurrence is the one `JSON.parse` keeps; `None` is `undefined`. */
  function Lookup(members: seq<Member>, key: string): (r: Option<Json>)
    ensures r.None? <==> forall i :: 0 <= i < |members| ==> members[i].key != key
  {
    if |members| == 0 then None
    else if members[|members| - 1].key == key then Some(members[|members| - 1].value)
    else Lookup(members[..|members| - 1], key)
  }

  /** The position of the member `obj[key]` reads: the last one with the
      key. */
  function KeyIndex(members: seq<Member>, key: string): (r: Option<nat>)
    ensures r.None? <==> Lookup(members, key).None?
    ensures r.Some? ==>
      r.value < |members| && members[r.value].key == key && Lookup(members, key) == Some(members[r.value].value)
  {
    if |members| == 0 then None
    else if members[|members| - 1].key == key then Some(|members| - 1)
    else KeyIndex(members[..|members| - 1], key)
  }

  /** The value read is that of the last member with the key. */
  lemma {:induction false} LookupLast(members: seq<Member>, key: string)
    requires Lookup(members, key).Some?
    ensures exists i :: 0 <= i < |members| && members[i] == Member(key, Lookup(members, key).value) && LastWithKey(members, key, i)
  {
    var n := |members|;
    if members[n - 1].key != key {
      var front := members[..n - 1];
      LookupLast(front, key);
      var i :| 0 <= i < |front| && front[i] == Member(key, Lookup(front, key).value) && LastWithKey(front, key, i);
      assert members[i] == front[i];
      assert LastWithKey(members, key, i);
    } else {
      assert LastWithKey(members, key, n - 1);
    }
  }

  /** No member after the i-th has the given key. */
  predicate LastWithKey(members: seq<Member>, key: string, i: nat) {
    forall j :: i < j < |members| ==> members[j].key != key
  }

  /** Appending a member makes it the one read under its key and leaves
      every other key's value as it was. */
  lemma LookupAppend(members: seq<Member>, key: string, value: Json, other: string)
    requires other != key
    ensures Lookup(members + [Member(key, value)], key) == Some(value)
    ensures Lookup(members + [Member(key, value)], other) == Lookup(members, other)
  {
    assert (members + [Member(key, value)])[..|members|] == members;
  }

  /** Members appended under other keys do not change what a key reads. */
  lemma {:induction false} LookupSkip(members: seq<Member>, later: seq<Member>, key: string)
    requires forall j :: 0 <= j < |later| ==> later[j].key != key
    ensures Lookup(members + later, key) == Lookup(members, key)
  {
    if later != [] {
      var all := members + later;
      assert all[..|all| - 1] == members + later[..|later| - 1];
      LookupSkip(members, later[..|later| - 1], key);
    } else {
      assert members + later == members;
    }
  }

  /** `v[key]` for a value that is not null: only objects have the
      properties the extractors read (no string, number or array has a
      property named like a Schema.org field). */
  function Get(v: Json, key: string): (r: Option<Json>)
    ensures !v.Obj? ==> r.None?
  {
    if v.Obj? then Lookup(v.members, key) else None
  }

  /** `v[key]`: reading a property of null throws a TypeError. */
  function Prop(v: Json, key: string): (r: Outcome<Option<Json>>)
    ensures r.Throws? <==> v.Null?
    ensures r.Done? ==> r.value == Get(v, key)
  {
    if v.Null? then Throws else Done(Get(v, key))
  }

  /** `v?.[key]`: optional chaining turns undefined and null into undefined. */
  function OptGet(v: Option<Json>, key: string): (r: Option<Json>)
    ensures v.None? || v == Some(Null) ==> r.None?
  {
    if v.Some? then Get(v.value, key) else None
  }

  /** JavaScript truthiness of a value that may be `undefined` (`None`):
      false for undefined, null, false, 0 and the empty string. */
  predicate Truthy(v: Option<Json>) {
    match v
    case None => false
    case Some(Null) => false
    case Some(Bool(b)) => b
    case Some(Num(n)) => n != 0.0
    case Some(Str(s)) => s != ""
    case Some(Arr(_)) => true
    case Some(Obj(_)) => true
  }

  /** `typeof v === "string"`. */
  predicate IsString(v: Option<Json>) { v.Some? && v.value.Str? }

  /** `Array.isArray(v)`. */
  predicate IsArray(v: Option<Json>) { v.Some? && v.value.Arr? }

  /** `Number(v)`, with `None` for NaN. Undefined, null, booleans and numbers
      convert by fixed rules; strings, arrays and objects go through string
      conversion, which `numberOf` stands for. */
  function ToNumber(v: Option<Json>, numberOf: Json -> Option<real>): (r: Option<real>)
    ensures v.None? ==> r.None?
    ensures v == Some(Null) ==> r == Some(0.0)
    ensures v.Some? && v.value.Num? ==> r == Some(v.value.n)
  {
    match v
    case None => None
    case Some(Null) => Some(0.0)
    case Some(Bool(b)) => Some(if b then 1.0 else 0.0)
    case Some(Num(n)) => Some(n)
    case Some(other) => numberOf(other)
  }
}

=== FILE: jsonld_fields.dfy ===
/** How the extractors read the fields of a Schema.org `Recipe` node
    (lib/recipe-scraper.ts and its client mirror lib/extract-recipe-client.ts
    share all of this). */
module JsonLdFields {
  import opened Wrappers
  import opened Text
  import opened JsonValue
  import opened Entities

  /** The `@type` values that mark a recipe. */
  const RecipeTypes: set<string> := {"Recipe", "https://schema.org/Recipe", "http://schema.org/Recipe"}

  /** `isRecipeType`: a recipe type string, or an array holding one (the set
      lookup matches strings only). */
  predicate IsRecipeType(t: Option<Json>) {
    match t
    case Some(Str(s)) => s in RecipeTypes
    case Some(Arr(items)) => exists i :: 0 <= i < |items| && items[i].Str? && items[i].s in RecipeTypes
    case _ => false
  }

  /** `decodeHtmlEntities(v)` on a value read from the JSON: only strings
      have `replace`, so anything else throws. */
  function DecodeValue(v: Json, fromCharCode: nat -> string): (r: Outcome<string>)
    ensures r.Done? <==> v.Str?
  {
    if v.Str? then Done(DecodeHtmlEntities(v.s, fromCharCode)) else Throws
  }

  /** `v ? decodeHtmlEntities(v) : undefined` (the title and description). */
  function DecodeIfTruthy(v: Option<Json>, fromCharCode: nat -> string): (r: Outcome<Option<string>>)
    ensures r.Throws? <==> Truthy(v) && !IsString(v)
    ensures r.Done? ==> (r.value.Some? <==> Truthy(v))
  {
    if Truthy(v) then
      var d :- DecodeValue(v.value, fromCharCode);
      Done(Some(d))
    else Done(None)
  }

  // ---------------------------------------------------------------------------
  // ingredients

  /** `items.map(decodeHtmlEntities)`. */
  function DecodeAll(items: seq<Json>, fromCharCode: nat -> string): (r: Outcome<seq<string>>)
    ensures r.Done? <==> forall i :: 0 <= i < |items| ==> items[i].Str?
    ensures r.Done? ==>
      |r.value| == |items| && forall i :: 0 <= i < |items| ==> r.value[i] == DecodeHtmlEntities(items[i].s, fromCharCode)
  {
    if items == [] then Done([])
    else
      var d :- DecodeValue(items[0], fromCharCode);
      var rest :- DecodeAll(items[1..], fromCharCode);
      Done([d] + rest)
  }

  /** The raw ingredient lines: `recipeIngredient` when it is an array,
      none otherwise. */
  function RawIngredients(v: Option<Json>, fromCharCode: nat -> string): (r: Outcome<seq<string>>)
    ensures !IsArray(v) ==> r == Done([])
    ensures IsArray(v) ==> r == DecodeAll(v.value.items, fromCharCode)
  {
    if IsArray(v) then DecodeAll(v.value.items, fromCharCode) else Done([])
  }

  // ---------------------------------------------------------------------------
  // instructions

  /** The concatenation of the pieces, or a throw if any piece threw. */
  function Concat(pieces: seq<Outcome<seq<string>>>): (r: Outcome<seq<string>>)
    ensures r.Done? <==> forall i :: 0 <= i < |pieces| ==> pieces[i].Done?
  {
    if pieces == [] then Done([])
    else if pieces[0].Throws? then Throws
    else
      var rest := Concat(pieces[1..]);
      if rest.Throws? then Throws else Done(pieces[0].value + rest.value)
  }

  lemma {:induction false} ConcatAppend(a: seq<Outcome<seq<string>>>, b: seq<Outcome<seq<string>>>)
    requires Concat(a).Done? && Concat(b).Done?
    ensures Concat(a + b) == Done(Concat(a).value + Concat(b).value)
  {
    if a != [] {
      assert (a + b)[0] == a[0] && (a + b)[1..] == a[1..] + b;
      ConcatAppend(a[1..], b);
      var x, y, z := a[0].value, Concat(a[1..]).value, Concat(b).value;
      assert Concat(a).value == x + y;
      assert x + (y + z) == (x + y) + z;
    } else {
      assert a + b == b;
      assert Concat(a).value + Concat(b).value == Concat(b).value;
    }
  }

  /** What one element of a section's `itemListElement` contributes:
      `if (sub.text) push(decodeHtmlEntities(sub.text))`; reading a
      property of null throws. */
  function SubStepTexts(sub: Json, fromCharCode: nat -> string): (r: Outcome<seq<string>>)
    ensures r.Throws? <==> sub.Null? || (Truthy(Get(sub, "text")) && !IsString(Get(sub, "text")))
    ensures r.Done? ==> |r.value| <= 1
  {
    if sub.Null? then Throws
    else if Truthy(Get(sub, "text")) then
      var d :- DecodeValue(Get(sub, "text").value, fromCharCode);
      Done([d])
    else Done([])
  }

  function SubStepReader(fromCharCode: nat -> string): Json -> Outcome<seq<string>> {
    sub => SubStepTexts(sub, fromCharCode)
  }

  /** What one element of `recipeInstructions` contributes: a string
      itself; a `HowToStep` its truthy text; a `HowToSection` the texts of
      its `itemListElement` array; anything else nothing. Reading a
      property of null throws, and so does decoding a truthy text that is
      not a string. */
  function StepTexts(step: Json, fromCharCode: nat -> string): (r: Outcome<seq<string>>)
    ensures step.Str? ==> r == Done([DecodeHtmlEntities(step.s, fromCharCode)])
    ensures step.Null? ==> r.Throws?
    ensures !step.Obj? && !step.Null? && !step.Str? ==> r == Done([])
  {
    match step
    case Str(s) => Done([DecodeHtmlEntities(s, fromCharCode)])
    case Null => Throws
    case Obj(_) => ObjectStepTexts(step, fromCharCode)
    case _ => Done([])
  }

  /** An object step: a `HowToStep` gives its truthy text, a
      `HowToSection` the texts of its `itemListElement` array. */
  function ObjectStepTexts(step: Json, fromCharCode: nat -> string): (r: Outcome<seq<string>>)
    requires step.Obj?
  {
    var t := Get(step, "@type");
    var text := Get(step, "text");
    var subs := Get(step, "itemListElement");
    if t == Some(Str("HowToStep")) && Truthy(text) then
      if text.value.Str? then Done([DecodeHtmlEntities(text.value.s, fromCharCode)]) else Throws
    else if t == Some(Str("HowToSection")) && IsArray(subs) then
      Concat(Map(subs.value.items, SubStepReader(fromCharCode)))
    else Done([])
  }

  function StepReader(fromCharCode: nat -> string): Json -> Outcome<seq<string>> {
    step => StepTexts(step, fromCharCode)
  }

  /** The raw instruction lines, in document order: the lines of each step
      one after another (see `InstructionLines`), or a throw when some step
      cannot be read (see `StepOk`). */
  function RawInstructions(v: Option<Json>, fromCharCode: nat -> string): (r: Outcome<seq<string>>)
    ensures !IsArray(v) ==> r == Done([])
    ensures IsArray(v) ==> (r.Done? <==> forall i :: 0 <= i < |v.value.items| ==> StepOk(v.value.items[i]))
    ensures IsArray(v) && r.Done? ==> r.value == InstructionLines(v.value.items, fromCharCode)
  {
    if IsArray(v) then
      StepsRead(v.value.items, fromCharCode);
      Concat(Map(v.value.items, StepReader(fromCharCode)))
    else Done([])
  }

  // ---------------------------------------------------------------------------
  // the instruction lines, stated without throws

  /** A section's sub-step the code reads without a TypeError: not null, and
      its text a string when truthy. */
  predicate SubOk(sub: Json) {
    !sub.Null? && (Truthy(Get(sub, "text")) ==> IsString(Get(sub, "text")))
  }

  /** A step the code reads without a TypeError: not null; a `HowToStep`'s
      truthy text a string; a `HowToSection`'s sub-steps all readable. */
  predicate StepOk(step: Json) {
    match step
    case Null => false
    case Obj(_) => ObjectStepOk(step)
    case _ => true
  }

  predicate ObjectStepOk(step: Json)
    requires step.Obj?
  {
    var t := Get(step, "@type");
    var text := Get(step, "text");
    var subs := Get(step, "itemListElement");
    if t == Some(Str("HowToStep")) && Truthy(text) then text.value.Str?
    else if t == Some(Str("HowToSection")) && IsArray(subs) then
      forall i :: 0 <= i < |subs.value.items| ==> SubOk(subs.value.items[i])
    else true
  }

  /** The line a readable sub-step gives: its decoded text when truthy. */
  function SubLines(sub: Json, fromCharCode: nat -> string): seq<string>
    requires SubOk(sub)
  {
    var text := Get(sub, "text");
    if Truthy(text) then [DecodeHtmlEntities(text.value.s, fromCharCode)] else []
  }

  /** The lines of a section's readable sub-steps, in order. */
  function SectionLines(subs: seq<Json>, fromCharCode: nat -> string): seq<string>
    requires forall i :: 0 <= i < |subs| ==> SubOk(subs[i])
  {
    if subs == [] then [] else SubLines(subs[0], fromCharCode) + SectionLines(subs[1..], fromCharCode)
  }

  /** The lines of a readable step: a string itself, a `HowToStep`'s truthy
      text, a `HowToSection`'s sub-step lines, nothing otherwise. */
  function StepLines(step: Json, fromCharCode: nat -> string): seq<string>
    requires StepOk(step)
  {
    match step
    case Str(s) => [DecodeHtmlEntities(s, fromCharCode)]
    case Obj(_) =>
      var t := Get(step, "@type");
      var text := Get(step, "text");
      var subs := Get(step, "itemListElement");
      if t == Some(Str("HowToStep")) && Truthy(text) then [DecodeHtmlEntities(text.value.s, fromCharCode)]
      else if t == Some(Str("HowToSection")) && IsArray(subs) then SectionLines(subs.value.items, fromCharCode)
      else []
    case _ => []
  }

  /** The lines of readable steps, step after step. */
  function InstructionLines(steps: seq<Json>, fromCharCode: nat -> string): seq<string>
    requires forall i :: 0 <= i < |steps| ==> StepOk(steps[i])
  {
    if steps == [] then [] else StepLines(steps[0], fromCharCode) + InstructionLines(steps[1..], fromCharCode)
  }

  lemma SubStepRead(sub: Json, fromCharCode: nat -> string)
    ensures SubStepTexts(sub, fromCharCode) == if SubOk(sub) then Done(SubLines(sub, fromCharCode)) else Throws
  {
  }

  lemma {:induction false} SectionRead(subs: seq<Json>, fromCharCode: nat -> string)
    ensures Concat(Map(subs, SubStepReader(fromCharCode)))
         == if forall i :: 0 <= i < |subs| ==> SubOk(subs[i]) then Done(SectionLines(subs, fromCharCode)) else Throws
  {
    if subs != [] {
      SubStepRead(subs[0], fromCharCode);
      SectionRead(subs[1..], fromCharCode);
      assert Map(subs, SubStepReader(fromCharCode))[1..] == Map(subs[1..], SubStepReader(fromCharCode));
      assert (forall i :: 0 <= i < |subs| ==> SubOk(subs[i]))
        <==> SubOk(subs[0]) && forall i :: 0 <= i < |subs[1..]| ==> SubOk(subs[1..][i]);
    }
  }

  lemma StepRead(step: Json, fromCharCode: nat -> string)
    ensures StepTexts(step, fromCharCode) == if StepOk(step) then Done(StepLines(step, fromCharCode)) else Throws
  {
    if step.Obj? {
      var subs := Get(step, "itemListElement");
      if IsArray(subs) {
        SectionRead(subs.value.items, fromCharCode);
      }
    }
  }

  /** Each step read in turn: the reading throws exactly when some step is
      unreadable, and otherwise gives every step's lines in order. */
  lemma {:induction false} StepsRead(steps: seq<Json>, fromCharCode: nat -> string)
    ensures Concat(Map(steps, StepReader(fromCharCode)))
         == if forall i :: 0 <= i < |steps| ==> StepOk(steps[i]) then Done(InstructionLines(steps, fromCharCode)) else Throws
  {
    if steps != [] {
      StepRead(steps[0], fromCharCode);
      StepsRead(steps[1..], fromCharCode);
      assert Map(steps, StepReader(fromCharCode))[1..] == Map(steps[1..], StepReader(fromCharCode));
      assert (forall i :: 0 <= i < |steps| ==> StepOk(steps[i]))
        <==> StepOk(steps[0]) && forall i :: 0 <= i < |steps[1..]| ==> StepOk(steps[1..][i]);
    }
  }

  /** A null step makes the reading throw. */
  lemma NullStepThrows(steps: seq<Json>, j: nat, fromCharCode: nat -> string)
    requires j < |steps| && steps[j].Null?
    ensures RawInstructions(Some(Arr(steps)), fromCharCode).Throws?
  {
    assert !StepOk(steps[j]);
  }

  /** A `HowToStep` with a string text. */
  function HowToStep(text: string): Json {
    Obj([Member("@type", Str("HowToStep")), Member("text", Str(text))])
  }

  lemma HowToStepTexts(text: string, fromCharCode: nat -> string)
    requires text != ""
    ensures StepTexts(HowToStep(text), fromCharCode) == Done([DecodeHtmlEntities(text, fromCharCode)])
  {
    var first := [Member("@type", Str("HowToStep"))];
    assert HowToStep(text).members == first + [Member("text", Str(text))];
    LookupAppend(first, "text", Str(text), "@type");
    assert Lookup(first, "@type") == Some(Str("HowToStep"));
  }

  /** A `HowToSection` around some steps. */
  function HowToSection(steps: seq<Json>): Json {
    Obj([Member("@type", Str("HowToSection")), Member("itemListElement", Arr(steps))])
  }

  lemma HowToSectionTexts(steps: seq<Json>, fromCharCode: nat -> string)
    ensures StepTexts(HowToSection(steps), fromCharCode) == Concat(Map(steps, SubStepReader(fromCharCode)))
  {
    var first := [Member("@type", Str("HowToSection"))];
    assert HowToSection(steps).members == first + [Member("itemListElement", Arr(steps))];
    LookupAppend(first, "itemListElement", Arr(steps), "@type");
    LookupAppend(first, "itemListElement", Arr(steps), "text");
    assert Lookup(first, "@type") == Some(Str("HowToSection"));
    assert Lookup(first, "text") == None;
  }

  /** Plain string steps are read one line each, in order. */
  lemma {:induction false} PlainStepsRead(items: seq<Json>, fromCharCode: nat -> string)
    requires forall i :: 0 <= i < |items| ==> items[i].Str?
    ensures Concat(Map(items, StepReader(fromCharCode))) == DecodeAll(items, fromCharCode)
  {
    if items != [] {
      PlainStepsRead(items[1..], fromCharCode);
      assert Map(items, StepReader(fromCharCode))[1..] == Map(items[1..], StepReader(fromCharCode));
    }
  }

  /** A step list split in two reads as the two halves' lines in order. */
  lemma StepsAppend(a: seq<Json>, b: seq<Json>, fromCharCode: nat -> string)
    requires Concat(Map(a, StepReader(fromCharCode))).Done? && Concat(Map(b, StepReader(fromCharCode))).Done?
    ensures Concat(Map(a + b, StepReader(fromCharCode)))
         == Done(Concat(Map(a, StepReader(fromCharCode))).value + Concat(Map(b, StepReader(fromCharCode))).value)
  {
    MapAppend(a, b, StepReader(fromCharCode));
    ConcatAppend(Map(a, StepReader(fromCharCode)), Map(b, StepReader(fromCharCode)));
  }

  // ---------------------------------------------------------------------------
  // keywords

  /** `xs.filter(Boolean)`. */
  function TruthyOnly(xs: seq<Json>): (r: seq<Json>)
    ensures |r| <= |xs|
    ensures forall i :: 0 <= i < |r| ==> Truthy(Some(r[i]))
  {
    if xs == [] then []
    else if Truthy(Some(xs[0])) then [xs[0]] + TruthyOnly(xs[1..])
    else TruthyOnly(xs[1..])
  }

  lemma {:induction false} TruthyOnlyKeeps(xs: seq<Json>)
    requires forall i :: 0 <= i < |xs| ==> Truthy(Some(xs[i]))
    ensures TruthyOnly(xs) == xs
  {
    if xs != [] {
      TruthyOnlyKeeps(xs[1..]);
    }
  }

  function TrimmedString(piece: string): Json { Str(Trim(piece)) }

  /** `tags`: a keywords string split at commas with each piece trimmed, or a
      keywords array as it is; empty pieces and falsy items dropped. */
  function Tags(v: Option<Json>): (r: seq<Json>)
    ensures forall i :: 0 <= i < |r| ==> Truthy(Some(r[i]))
    ensures !IsString(v) && !IsArray(v) ==> r == []
    ensures IsArray(v) ==> r == TruthyOnly(v.value.items)
  {
    if IsString(v) then TruthyOnly(Map(Split(v.value.s, ','), TrimmedString))
    else if IsArray(v) then TruthyOnly(v.value.items)
    else []
  }

  function StringValue(s: string): Json { Str(s) }

  /** Keywords written as a comma-separated list of non-empty trimmed words
      come back as those words. */
  lemma KeywordsRoundTrip(words: seq<string>)
    requires |words| >= 1
    requires forall i :: 0 <= i < |words| ==> words[i] != "" && Trimmed(words[i]) && ',' !in words[i]
    ensures Tags(Some(Str(Join(words, ',')))) == Map(words, StringValue)
  {
    JoinSplit(words, ',');
    TrimmedWords(words);
    TruthyOnlyKeeps(Map(words, StringValue));
  }

  lemma TrimmedWords(words: seq<string>)
    requires forall i :: 0 <= i < |words| ==> words[i] != "" && Trimmed(words[i])
    ensures Map(words, TrimmedString) == Map(words, StringValue)
    ensures forall i :: 0 <= i < |words| ==> Truthy(Some(Map(words, StringValue)[i]))
  {
    forall i | 0 <= i < |words|
      ensures TrimmedString(words[i]) == StringValue(words[i])
    {
      TrimOfTrimmed(words[i]);
    }
  }

  /** Joining pieces without the separator and splitting again gives the
      pieces back. */
  lemma {:induction false} JoinSplit(pieces: seq<string>, sep: char)
    requires |pieces| >= 1 && forall i :: 0 <= i < |pieces| ==> sep !in pieces[i]
    ensures Split(Join(pieces, sep), sep) == pieces
  {
    var p := pieces[0];
    if |pieces| == 1 {
      assert IndexOf(p, sep).None?;
    } else {
      var rest := pieces[1..];
      JoinSplit(rest, sep);
      var s := Join(pieces, sep);
      assert s == p + [sep] + Join(rest, sep);
      JoinSplitFront(p, Join(rest, sep), sep);
    }
  }

  lemma JoinSplitFront(p: string, tail: string, sep: char)
    requires sep !in p
    ensures Split(p + [sep] + tail, sep) == [p] + Split(tail, sep)
  {
    var s := p + [sep] + tail;
    IndexOfFirst(p, tail, sep);
    assert s[..|p|] == p;
    assert s[|p| + 1..] == tail;
  }

  lemma {:induction false} IndexOfFirst(p: string, tail: string, sep: char)
    requires sep !in p
    ensures IndexOf(p + [sep] + tail, sep) == Some(|p|)
  {
    var s := p + [sep] + tail;
    if p != [] {
      assert s[1..] == p[1..] + [sep] + tail;
      IndexOfFirst(p[1..], tail, sep);
    }
  }

  // ---------------------------------------------------------------------------
  // times and servings

  /** `cookTime ?? (!prepTime && totalTime ? totalTime : undefined)`: the
      total time stands in for a missing cook time when there is no
      preparation time either. */
  function CookTime(cook: Option<nat>, prep: Option<nat>, total: Option<nat>): (r: Option<nat>)
    ensures cook.Some? ==> r == cook
    ensures cook.None? && prep.Some? ==> r.None?
    ensures cook.None? && prep.None? ==> r == total
  {
    if cook.Some? then cook
    else if prep.None? && total.Some? then total
    else None
  }

  /** `parseInt(s, 10) || undefined`: NaN and zero are falsy. */
  function ServingsOfText(s: string): (r: Option<real>)
    ensures r.Some? ==> r.value != 0.0 && ParseInt(s).Some? && r.value == ParseInt(s).value as real
    ensures ParseInt(s).Some? && ParseInt(s).value != 0 ==> r.Some?
  {
    match ParseInt(s)
    case Some(n) => if n != 0 then Some(n as real) else None
    case None => None
  }

  /** `parseServings` on the server: the first item of an array; a
      positive number; the integer a string starts with. */
  function ServerServings(v: Option<Json>): (r: Option<real>)
    ensures r.Some? ==> r.value != 0.0
    ensures v.Some? && v.value.Num? ==> r == if v.value.n > 0.0 then Some(v.value.n) else None
    ensures IsString(v) ==> r == ServingsOfText(v.value.s)
    ensures IsArray(v) && |v.value.items| == 0 ==> r.None?
    ensures IsArray(v) && |v.value.items| > 0 && v.value.items[0].Num? ==>
      r == if v.value.items[0].n > 0.0 then Some(v.value.items[0].n) else None
    ensures IsArray(v) && |v.value.items| > 0 && v.value.items[0].Str? ==> r == ServingsOfText(v.value.items[0].s)
    ensures IsArray(v) && |v.value.items| > 0 && !v.value.items[0].Num? && !v.value.items[0].Str? ==> r.None?
    ensures v.Some? && !v.value.Num? && !v.value.Str? && !v.value.Arr? ==> r.None?
  {
    var raw: Option<Json> := if IsArray(v) then (if |v.value.items| > 0 then Some(v.value.items[0]) else None) else v;
    match raw
    case Some(Num(n)) => if n > 0.0 then Some(n) else None
    case Some(Str(s)) => ServingsOfText(s)
    case _ => None
  }

  /** The client's servings: a number as it is, even zero or negative;
      the integer a string starts with; nothing for an array. */
  function ClientServings(v: Option<Json>): (r: Option<real>)
    ensures v.Some? && v.value.Num? ==> r == Some(v.value.n)
    ensures IsString(v) ==> r == ServingsOfText(v.value.s)
    ensures IsArray(v) ==> r.None?
    ensures v.Some? && !v.value.Num? && !v.value.Str? ==> r.None?
  {
    match v
    case Some(Num(n)) => Some(n)
    case Some(Str(s)) => ServingsOfText(s)
    case _ => None
  }

  /** The two sides agree on strings and positive numbers. */
  lemma ServingsAgree(v: Option<Json>)
    requires IsString(v) || (v.Some? && v.value.Num? && v.value.n > 0.0)
    ensures ClientServings(v) == ServerServings(v)
  {
  }

  /** The two copies disagree exactly on a number that is not positive,
      which only the client keeps, and on an array whose first item the
      server can read, which the client drops. */
  lemma ServingsDiffer(v: Option<Json>)
    ensures ClientServings(v) != ServerServings(v) <==>
      (v.Some? && v.value.Num? && v.value.n <= 0.0) || (IsArray(v) && ServerServings(v).Some?)
  {
  }

  /** An array yield: the server reads its first item (one level deep),
      the client nothing. */
  lemma ServingsOfArray(first: Json, rest: seq<Json>)
    requires !first.Arr?
    ensures ServerServings(Some(Arr([first] + rest))) == ServerServings(Some(first))
    ensures ClientServings(Some(Arr([first] + rest))).None?
  {
    var items := [first] + rest;
    assert items[0] == first;
    assert IsArray(Some(Arr(items))) && |items| > 0;
    ServerServingsOfFirst(items);
  }

  lemma ServerServingsOfFirst(items: seq<Json>)
    requires |items| > 0 && !items[0].Arr?
    ensures ServerServings(Some(Arr(items))) == ServerServings(Some(items[0]))
  {
  }
}

=== FILE: quantity.dfy ===
/** Reading and writing ingredient quantities: the numeric-token regular
    expression shared by the scaler, `parseFractionString`, `formatFraction`,
    and the parts of `fraction.js` they call (its string parser and
    `toFraction(true)`). */
module Quantity {
  import opened Wrappers
  import opened Text
  import opened Rational

  // ---------------------------------------------------------------------------
  // the token `\d+\s+\d+\/\d+|\d+\/\d+|\d+\.?\d*`

  /** `\d+\s+\d+\/\d+` at the start of s: the length it matches. Every part of
      the pattern is a run of one character class, so greedy matching is the
      only way it can match. */
  function MixedLen(s: string): (r: Option<nat>)
    ensures r.Some? ==> 0 < r.value <= |s|
  {
    var a := DigitRun(s);
    if a == 0 then None else
    var t := s[a..];
    var b := SpaceRun(t);
    if b == 0 then None else
    match FracLen(t[b..])
    case Some(k) => Some(a + b + k)
    case None => None
  }

  /** `\d+\/\d+` at the start of s. */
  function FracLen(s: string): (r: Option<nat>)
    ensures r.Some? ==> 0 < r.value <= |s|
  {
    var a := DigitRun(s);
    if a > 0 && a < |s| && s[a] == '/' && DigitRun(s[a + 1..]) > 0 then
      Some(a + 1 + DigitRun(s[a + 1..]))
    else None
  }

  /** `\d+\.?\d*` at the start of s. */
  function NumberLen(s: string): (r: Option<nat>)
    ensures r.Some? ==> 0 < r.value <= |s|
  {
    var a := DigitRun(s);
    if a == 0 then None
    else if a < |s| && s[a] == '.' then Some(a + 1 + DigitRun(s[a + 1..]))
    else Some(a)
  }

  /** Length of the quantity token at the start of s (0 when there is none):
      the first alternative that matches wins, so a mixed number is taken
      whole before a bare integer could claim its first digits. */
  function TokenLen(s: string): (k: nat)
    ensures k <= |s|
    ensures k > 0 <==> |s| > 0 && IsDigit(s[0])
    ensures 0 < k < |s| ==> !IsDigit(s[k])
  {
    match MixedLen(s)
    case Some(k) => k
    case None =>
      match FracLen(s)
      case Some(k) => k
      case None => NumberLen(s).GetOr(0)
  }

  // ---------------------------------------------------------------------------
  // parseFractionString

  /** `^(\d+)\s+(\d+)\/(\d+)$`: whole part, numerator and denominator. */
  function MixedParts(s: string): (r: Option<(nat, nat, nat)>)
  {
    var a := DigitRun(s);
    if a == 0 then None else
    var t := s[a..];
    var b := SpaceRun(t);
    if b == 0 then None else
    match RatioParts(t[b..])
    case None => None
    case Some((n, d)) => Some((DigitsValue(s[..a]), n, d))
  }

  /** `(\d+)\/(\d+)$`: the numerator and denominator ending the text. */
  function RatioParts(u: string): Option<(nat, nat)>
  {
    var c := DigitRun(u);
    if c == 0 || c == |u| || u[c] != '/' then None else
    var v := u[c + 1..];
    if v == [] || DigitRun(v) != |v| then None else
    assert v[..|v|] == v;
    Some((DigitsValue(u[..c]), DigitsValue(v)))
  }

  function Pow10(k: nat): (r: nat)
    ensures r > 0
  {
    if k == 0 then 1 else 10 * Pow10(k - 1)
  }

  /** An unsigned literal as `fraction.js` reads it: an integer, a decimal
      (`5`, `5.`, `5.25`, `.25`), a ratio `a/b` or `a:b`, or `a b/c`; `None`
      where the library throws (malformed text, zero denominator). */
  function UnsignedLiteral(t: string): Option<Rat> {
    var a := DigitRun(t);
    if a == |t| then
      if a == 0 then None else Some(Normalize(DigitsValue(t), 1))
    else if t[a] == '.' then
      var f := t[a + 1..];
      if DigitRun(f) == |f| && (a > 0 || |f| > 0) then
        assert f[..|f|] == f;
        Some(Normalize(DigitsValue(t[..a]) * Pow10(|f|) + DigitsValue(f), Pow10(|f|)))
      else None
    else if a > 0 && (t[a] == '/' || t[a] == ':') then
      var e := t[a + 1..];
      if |e| > 0 && DigitRun(e) == |e| then
        assert e[..|e|] == e;
        if DigitsValue(e) == 0 then None else Some(Normalize(DigitsValue(t[..a]), DigitsValue(e)))
      else None
    else if a > 0 && t[a] == ' ' then
      var e := t[a + 1..];
      var b := DigitRun(e);
      if b > 0 && b < |e| && e[b] == '/' && |e| > b + 1 && DigitRun(e[b + 1..]) == |e| - (b + 1) then
        assert e[b + 1..][..|e| - (b + 1)] == e[b + 1..];
        var d := DigitsValue(e[b + 1..]);
        if d == 0 then None else Some(Normalize(DigitsValue(t[..a]) * d + DigitsValue(e[..b]), d))
      else None
    else None
  }

  function Negate(q: Rat): (r: Rat)
    ensures r.num == -q.num && r.den == q.den
  {
    assert Abs(-q.num) == Abs(q.num);
    Frac(-q.num, q.den)
  }

  /** `new Fraction(str)` for a string: an optional sign, then an unsigned
      literal. */
  function FractionOfString(str: string): Option<Rat> {
    if |str| > 0 && str[0] == '-' then
      match UnsignedLiteral(str[1..])
      case Some(q) => Some(Negate(q))
      case None => None
    else if |str| > 0 && str[0] == '+' then UnsignedLiteral(str[1..])
    else UnsignedLiteral(str)
  }

  /** `parseFractionString`: a mixed number is read by its own pattern (and
      only a zero denominator rejects it); any other text goes through the
      library and must denote a positive value. */
  function ParseFractionString(str: string): (r: Option<Rat>)
    ensures MixedParts(str).Some? ==>
      var (w, n, d) := MixedParts(str).value;
      (d == 0 ==> r.None?) && (d != 0 ==> r.Some? && r.value.num * d == (w * d + n) * r.value.den)
    ensures MixedParts(str).None? && r.Some? ==> r.value.num > 0
  {
    match MixedParts(str)
    case Some((w, n, d)) => if d == 0 then None else Some(Normalize(w * d + n, d))
    case None =>
      match FractionOfString(str)
      case Some(q) => if q.num > 0 then Some(q) else None
      case None => None
  }

  // ---------------------------------------------------------------------------
  // formatFraction

  /** `fraction.toFraction(true)`: an optional '-', then the integer, or
      `w n/d` when there is a whole part, or `n/d`. */
  function ToFractionString(q: Rat): string {
    var n := Abs(q.num);
    (if q.num < 0 then "-" else "") +
    (if q.den == 1 then NatToString(n)
     else if n / q.den > 0 then NatToString(n / q.den) + " " + NatToString(n % q.den) + "/" + NatToString(q.den)
     else NatToString(n) + "/" + NatToString(q.den))
  }

  /** `formatFraction`: "0" for a value that is not positive, the integer for
      a whole value, otherwise the mixed fraction of `simp(q)`, where `simp`
      stands for the library's `simplify(0.05)`. */
  function FormatFraction(q: Rat, simp: Rat -> Rat): (r: string)
    ensures |r| > 0
    ensures q.num <= 0 ==> r == "0"
    ensures q.num > 0 && q.den == 1 ==> r == NatToString(q.num) && DigitsValue(r) == q.num
  {
    if q.num <= 0 then "0"
    else if q.den == 1 then NatToStringRoundTrip(q.num); NatToString(q.num)
    else ToFractionString(simp(q))
  }

  // ---------------------------------------------------------------------------
  // reading back what was written

  lemma {:induction false} SpaceRunOfSpaces(a: string, b: string)
    requires AllSpace(a)
    requires b == [] || !IsSpace(b[0])
    ensures SpaceRun(a + b) == |a|
  {
    if |a| > 0 {
      assert (a + b)[1..] == a[1..] + b;
      SpaceRunOfSpaces(a[1..], b);
    }
  }

  lemma DigitNotSpecial(c: char)
    requires IsDigit(c)
    ensures !IsSpace(c) && c != '/' && c != '.' && c != '-' && c != '+' && c != ' ' && c != ':'
  {
  }

  lemma SpaceNotDigit(c: char)
    requires IsSpace(c)
    ensures !IsDigit(c)
  {
  }

  lemma DigitsThen(a: string, b: string)
    requires AllDigits(a)
    requires b == [] || !IsDigit(b[0])
    ensures DigitRun(a + b) == |a| && (a + b)[..|a|] == a && (a + b)[|a|..] == b
  {
    DigitRunOfDigits(a, b);
  }

  lemma SpacesThen(a: string, b: string)
    requires AllSpace(a)
    requires b == [] || !IsSpace(b[0])
    ensures SpaceRun(a + b) == |a| && (a + b)[|a|..] == b
  {
    SpaceRunOfSpaces(a, b);
  }

  /** `n/d` splits at the slash into its two digit runs. */
  lemma RatioText(N: string, D: string)
    requires |N| > 0 && AllDigits(N) && |D| > 0 && AllDigits(D)
    ensures N + ("/" + D) != [] && !IsSpace((N + ("/" + D))[0])
    ensures DigitRun(N + ("/" + D)) == |N| && (N + ("/" + D))[..|N|] == N
    ensures |N| < |N + ("/" + D)| && (N + ("/" + D))[|N|] == '/' && (N + ("/" + D))[|N| + 1..] == D
    ensures DigitRun(D) == |D|
  {
    DigitNotSpecial(N[0]);
    DigitsThen(N, "/" + D);
    DigitRunOfDigits(D, []);
    assert D + [] == D;
  }

  lemma RatioPartsOfText(N: string, D: string)
    requires |N| > 0 && AllDigits(N) && |D| > 0 && AllDigits(D)
    ensures RatioParts(N + ("/" + D)) == Some((DigitsValue(N), DigitsValue(D)))
  {
    RatioText(N, D);
    assert D[..|D|] == D;
  }

  lemma Regroup(a: string, b: string, c: string, d: string, e: string)
    ensures a + b + c + d + e == a + (b + (c + (d + e)))
  {
  }

  /** Digits, a space run, digits, '/', digits: the three numbers. */
  lemma MixedPartsOfPieces(W: string, sp: string, N: string, D: string)
    requires |W| > 0 && AllDigits(W) && |sp| > 0 && AllSpace(sp)
    requires |N| > 0 && AllDigits(N) && |D| > 0 && AllDigits(D)
    ensures MixedParts(W + sp + N + "/" + D) == Some((DigitsValue(W), DigitsValue(N), DigitsValue(D)))
  {
    var tail := N + ("/" + D);
    Regroup(W, sp, N, "/", D);
    SpaceNotDigit(sp[0]);
    DigitsThen(W, sp + tail);
    SpacesThen(sp, tail);
    RatioPartsOfText(N, D);
  }

  /** `w n/d` with the three numbers written in decimal reads back as those
      numbers. */
  lemma MixedPartsOfText(w: nat, n: nat, d: nat)
    ensures MixedParts(NatToString(w) + " " + NatToString(n) + "/" + NatToString(d)) == Some((w, n, d))
  {
    MixedPartsOfPieces(NatToString(w), " ", NatToString(n), NatToString(d));
    NatToStringRoundTrip(w);
    NatToStringRoundTrip(n);
    NatToStringRoundTrip(d);
  }

  /** A string holding no space is not a mixed number. */
  lemma MixedPartsNeedsSpace(s: string)
    requires forall i :: 0 <= i < |s| ==> !IsSpace(s[i])
    ensures MixedParts(s).None?
  {
    var a := DigitRun(s);
    if a < |s| { assert !IsSpace(s[a..][0]); }
  }

  lemma AllDigitsNoSpace(s: string)
    requires AllDigits(s)
    ensures forall i :: 0 <= i < |s| ==> !IsSpace(s[i])
  {
    forall i | 0 <= i < |s| ensures !IsSpace(s[i]) { DigitNotSpecial(s[i]); }
  }

  /** Text that starts with a digit and is not a mixed number is read by the
      library, without a sign. */
  lemma ParseUnsignedText(s: string)
    requires |s| > 0 && IsDigit(s[0]) && MixedParts(s).None?
    ensures ParseFractionString(s) ==
      match UnsignedLiteral(s)
      case Some(q) => if q.num > 0 then Some(q) else None
      case None => None
  {
    DigitNotSpecial(s[0]);
  }

  lemma LiteralInteger(N: string)
    requires |N| > 0 && AllDigits(N)
    ensures UnsignedLiteral(N) == Some(Normalize(DigitsValue(N), 1))
  {
    DigitRunOfDigits(N, []);
    assert N + [] == N;
  }

  lemma LiteralRatio(N: string, D: string)
    requires |N| > 0 && AllDigits(N) && |D| > 0 && AllDigits(D) && DigitsValue(D) != 0
    ensures UnsignedLiteral(N + "/" + D) == Some(Normalize(DigitsValue(N), DigitsValue(D)))
  {
    var s := N + ("/" + D);
    assert s == N + "/" + D;
    DigitRunOfDigits(N, "/" + D);
    assert s[..|N|] == N && s[|N|] == '/' && s[|N| + 1..] == D;
    DigitRunOfDigits(D, []);
    assert D + [] == D;
  }

  /** Decimal text reads back as its integer. */
  lemma ParseWhole(n: nat)
    requires n > 0
    ensures ParseFractionString(NatToString(n)) == Some(Frac(n, 1))
  {
    var s := NatToString(n);
    AllDigitsNoSpace(s);
    MixedPartsNeedsSpace(s);
    ParseUnsignedText(s);
    LiteralInteger(s);
    NatToStringRoundTrip(n);
    assert Gcd(n, 1) == 1 by { assert n % 1 == 0; assert Gcd(1, 0) == 1; }
  }

  /** `n/d` text reads back as the fraction. */
  lemma ParseProper(q: Rat)
    requires q.num > 0 && q.den > 1
    ensures ParseFractionString(NatToString(q.num) + "/" + NatToString(q.den)) == Some(q)
  {
    var N, D := NatToString(q.num), NatToString(q.den);
    var s := N + "/" + D;
    AllDigitsNoSpace(N);
    AllDigitsNoSpace(D);
    assert forall i :: 0 <= i < |s| ==> !IsSpace(s[i]) by {
      forall i | 0 <= i < |s| ensures !IsSpace(s[i]) {
        if i > |N| { assert s[i] == D[i - |N| - 1]; }
      }
    }
    MixedPartsNeedsSpace(s);
    NatToStringRoundTrip(q.num);
    NatToStringRoundTrip(q.den);
    ParseUnsignedText(s);
    LiteralRatio(N, D);
  }

  /** `w n/d` text reads back as the fraction. */
  lemma ParseMixed(q: Rat)
    requires q.num > 0 && q.den > 1 && q.num / q.den > 0
    ensures ParseFractionString(NatToString(q.num / q.den) + " " + NatToString(q.num % q.den) + "/" + NatToString(q.den)) == Some(q)
  {
    var w, n := q.num / q.den, q.num % q.den;
    var s := NatToString(w) + " " + NatToString(n) + "/" + NatToString(q.den);
    MixedPartsOfText(w, n, q.den);
    assert ParseFractionString(s) == Some(Normalize(w * q.den + n, q.den));
    DivModSplit(q.num, q.den);
  }

  lemma DivModSplit(x: int, m: int)
    requires m > 0
    ensures (x / m) * m + x % m == x
  {
  }

  /** What `toFraction(true)` writes for a positive value: the integer, or
      `w n/d` when there is a whole part, or `n/d`. */
  lemma ToFractionStringOfPositive(q: Rat)
    requires q.num > 0
    ensures ToFractionString(q) ==
      if q.den == 1 then NatToString(q.num)
      else if q.num / q.den > 0 then NatToString(q.num / q.den) + " " + NatToString(q.num % q.den) + "/" + NatToString(q.den)
      else NatToString(q.num) + "/" + NatToString(q.den)
  {
    var t := if q.den == 1 then NatToString(q.num)
      else if q.num / q.den > 0 then NatToString(q.num / q.den) + " " + NatToString(q.num % q.den) + "/" + NatToString(q.den)
      else NatToString(q.num) + "/" + NatToString(q.den);
    assert "" + t == t;
  }

  /** `parseFractionString` reads back every positive value exactly as
      `toFraction(true)` writes it. */
  lemma WrittenRoundTrip(q: Rat)
    requires q.num > 0
    ensures ParseFractionString(ToFractionString(q)) == Some(q)
  {
    ToFractionStringOfPositive(q);
    if q.den == 1 {
      ParseWhole(q.num);
    } else if q.num / q.den > 0 {
      ParseMixed(q);
    } else {
      ParseProper(q);
    }
  }

  /** Whatever `formatFraction` writes for a positive quantity, when
      `simplify(0.05)` leaves that quantity as it is, `parseFractionString`
      reads back as the same quantity. */
  lemma FormatParseRoundTrip(q: Rat, simp: Rat -> Rat)
    requires q.num > 0
    requires q.den == 1 || simp(q) == q
    ensures ParseFractionString(FormatFraction(q, simp)) == Some(q)
  {
    if q.den == 1 {
      ParseWhole(q.num);
    } else {
      WrittenRoundTrip(q);
    }
  }

  /** Zero written as digits is not a usable amount. */
  lemma ParseRejectsZero(N: string)
    requires |N| > 0 && AllDigits(N) && DigitsValue(N) == 0
    ensures ParseFractionString(N) == None
  {
    AllDigitsNoSpace(N);
    MixedPartsNeedsSpace(N);
    ParseUnsignedText(N);
    LiteralInteger(N);
  }

  /** A ratio with a zero denominator is not a usable amount. */
  lemma ParseRejectsZeroDenominator(N: string, D: string)
    requires |N| > 0 && AllDigits(N) && |D| > 0 && AllDigits(D) && DigitsValue(D) == 0
    ensures ParseFractionString(N + "/" + D) == None
  {
    var s := N + "/" + D;
    RatioHasNoSpace(N, D);
    MixedPartsNeedsSpace(s);
    ParseUnsignedText(s);
    LiteralRatioZero(N, D);
  }

  lemma RatioHasNoSpace(N: string, D: string)
    requires |N| > 0 && AllDigits(N) && AllDigits(D)
    ensures |N + "/" + D| > 0 && IsDigit((N + "/" + D)[0])
    ensures forall i :: 0 <= i < |N + "/" + D| ==> !IsSpace((N + "/" + D)[i])
  {
    var s := N + "/" + D;
    AllDigitsNoSpace(N);
    AllDigitsNoSpace(D);
    forall i | 0 <= i < |s| ensures !IsSpace(s[i]) {
      if i > |N| { assert s[i] == D[i - |N| - 1]; }
    }
  }

  lemma LiteralRatioZero(N: string, D: string)
    requires |N| > 0 && AllDigits(N) && |D| > 0 && AllDigits(D) && DigitsValue(D) == 0
    ensures UnsignedLiteral(N + "/" + D) == None
  {
    var s := N + ("/" + D);
    assert s == N + "/" + D;
    DigitRunOfDigits(N, "/" + D);
    assert s[..|N|] == N && s[|N|] == '/' && s[|N| + 1..] == D;
    DigitRunOfDigits(D, []);
    assert D + [] == D;
  }


  // ---------------------------------------------------------------------------
  // where a written quantity ends

  /** Text that cannot lengthen a quantity token written just before it: it
      does not go on with a digit, '/', or '.', nor with spaces and then a
      digit. */
  predicate SafeTail(tail: string) {
    tail == [] ||
    (!IsDigit(tail[0]) && tail[0] != '/' && tail[0] != '.' &&
     (SpaceRun(tail) == |tail| || !IsDigit(tail[SpaceRun(tail)])))
  }

  lemma SlashNotSpace()
    ensures !IsSpace('/')
  {
  }

  /** Digits followed by a safe tail: the token is the digits. */
  lemma TokenOfWhole(N: string, tail: string)
    requires |N| > 0 && AllDigits(N) && SafeTail(tail)
    ensures TokenLen(N + tail) == |N|
  {
    var s := N + tail;
    DigitsThen(N, tail);
    var a := |N|;
    assert s[a..] == tail;
    if SpaceRun(tail) > 0 && SpaceRun(tail) < |tail| {
      assert DigitRun(tail[SpaceRun(tail)..]) == 0;
    }
    assert MixedLen(s).None?;
    assert FracLen(s).None?;
  }

  /** `n/d` followed by a safe tail: the token is `n/d`. */
  lemma TokenOfRatio(N: string, D: string, tail: string)
    requires |N| > 0 && AllDigits(N) && |D| > 0 && AllDigits(D) && SafeTail(tail)
    ensures TokenLen(N + "/" + D + tail) == |N| + 1 + |D|
  {
    var rest := "/" + (D + tail);
    var s := N + rest;
    RatioRegroup(N, D, tail);
    DigitsThen(N, rest);
    SlashNotSpace();
    assert SpaceRun(rest) == 0;
    assert MixedLen(s).None?;
    FracLenOfRatio(N, D, tail);
  }

  lemma FracLenOfRatio(N: string, D: string, tail: string)
    requires |N| > 0 && AllDigits(N) && |D| > 0 && AllDigits(D) && SafeTail(tail)
    ensures FracLen(N + ("/" + (D + tail))) == Some(|N| + 1 + |D|)
  {
    DigitNotSpecial(D[0]);
    DigitsThen(N, "/" + (D + tail));
    SlashThen(N, D + tail);
    DigitsThen(D, tail);
  }

  lemma SlashThen(N: string, rest: string)
    ensures (N + ("/" + rest))[|N|] == '/' && (N + ("/" + rest))[|N| + 1..] == rest
  {
  }

  /** `w n/d` followed by a safe tail: the token is `w n/d`. */
  lemma TokenOfMixed(W: string, N: string, D: string, tail: string)
    requires |W| > 0 && AllDigits(W) && |N| > 0 && AllDigits(N) && |D| > 0 && AllDigits(D)
    requires SafeTail(tail)
    ensures TokenLen(W + " " + N + "/" + D + tail) == |W| + 1 + |N| + 1 + |D|
  {
    var ratio := N + ("/" + (D + tail));
    var s := W + (" " + ratio);
    MixedRegroup(W, N, D, tail);
    DigitNotSpecial(N[0]);
    SpaceNotDigit(' ');
    DigitsThen(W, " " + ratio);
    SpacesThen(" ", ratio);
    FracLenOfRatio(N, D, tail);
  }

  lemma RatioRegroup(N: string, D: string, tail: string)
    ensures N + "/" + D + tail == N + ("/" + (D + tail))
  {
  }

  lemma MixedRegroup(W: string, N: string, D: string, tail: string)
    ensures W + " " + N + "/" + D + tail == W + (" " + (N + ("/" + (D + tail))))
  {
  }

  /** What `toFraction(true)` writes for a positive value is read back whole
      by the token pattern when a safe tail follows it. */
  lemma TokenOfWritten(q: Rat, tail: string)
    requires q.num > 0
    requires SafeTail(tail)
    ensures TokenLen(ToFractionString(q) + tail) == |ToFractionString(q)|
  {
    ToFractionStringOfPositive(q);
    if q.den == 1 {
      TokenOfWhole(NatToString(q.num), tail);
    } else if q.num / q.den > 0 {
      TokenOfMixed(NatToString(q.num / q.den), NatToString(q.num % q.den), NatToString(q.den), tail);
    } else {
      TokenOfRatio(NatToString(q.num), NatToString(q.den), tail);
    }
  }

  /** What `formatFraction` writes for a positive value is read back whole
      by the token pattern when a safe tail follows it. */
  lemma TokenOfFormatted(q: Rat, simp: Rat -> Rat, tail: string)
    requires q.num > 0
    requires q.den == 1 || simp(q) == q
    requires SafeTail(tail)
    ensures TokenLen(FormatFraction(q, simp) + tail) == |FormatFraction(q, simp)|
  {
    if q.den == 1 {
      TokenOfWhole(NatToString(q.num), tail);
    } else {
      TokenOfWritten(q, tail);
    }
  }
}

=== FILE: rational.dfy ===
/** Exact rational numbers kept as reduced pairs (numerator, positive
    denominator): the part of the `fraction.js` library the scaler relies on
    (construction from a numerator and denominator, `mul`, `valueOf` sign and
    integrality tests). */
module Rational {

  function Abs(x: int): nat { if x < 0 then -x else x }

  /** Euclid's greatest common divisor. */
  function Gcd(a: nat, b: nat): nat
    decreases b
  {
    if b == 0 then a else Gcd(b, a % b)
  }

  // ---------------------------------------------------------------------------
  // arithmetic facts

  lemma MulAtLeast(a: int, m: int)
    requires a >= 1 && m > 0
    ensures a * m >= m
  {
  }

  lemma DivModUnique(x: int, m: int, q: int, r: int)
    requires m > 0 && 0 <= r < m && x == q * m + r
    ensures x / m == q && x % m == r
  {
    var q' := x / m;
    var r' := x % m;
    assert x == q' * m + r';
    if q' < q {
      assert (q - q') * m == r' - r;
      MulAtLeast(q - q', m);
      assert false;
    } else if q < q' {
      assert (q' - q) * m == r - r';
      MulAtLeast(q' - q, m);
      assert false;
    }
  }

  lemma ModOfMultiple(g: int, c: int)
    requires g > 0
    ensures (c * g) % g == 0 && (c * g) / g == c
  {
    DivModUnique(c * g, g, c, 0);
  }

  // ---------------------------------------------------------------------------
  // gcd

  lemma {:induction false} GcdPositive(a: nat, b: nat)
    requires a > 0 || b > 0
    ensures Gcd(a, b) > 0
    decreases b
  {
    if b > 0 { GcdPositive(b, a % b); }
  }

  /** The gcd divides both arguments. */
  lemma {:induction false} GcdDivides(a: nat, b: nat)
    requires a > 0 || b > 0
    ensures Gcd(a, b) > 0 && a % Gcd(a, b) == 0 && b % Gcd(a, b) == 0
    decreases b
  {
    GcdPositive(a, b);
    var g := Gcd(a, b);
    if b == 0 {
      ModOfMultiple(a, 1);
      ModOfMultiple(a, 0);
    } else {
      GcdDivides(b, a % b);
      DividesThroughMod(a, b, g);
    }
  }

  lemma Distribute(q: int, x: int, y: int, g: int)
    ensures q * (x * g) + y * g == (q * x + y) * g
  {
  }

  /** A divisor of b and of a % b divides a. */
  lemma DividesThroughMod(a: nat, b: nat, g: nat)
    requires b > 0 && g > 0 && b % g == 0 && (a % b) % g == 0
    ensures a % g == 0
  {
    var qb := b / g;
    var qr := (a % b) / g;
    var q := a / b;
    assert b == qb * g;
    assert a % b == qr * g;
    assert a == q * b + a % b;
    Distribute(q, qb, qr, g);
    assert a == (q * qb + qr) * g;
    ModOfMultiple(g, q * qb + qr);
  }

  /** Scaling both arguments scales the gcd. */
  lemma {:induction false} GcdScale(k: nat, a: nat, b: nat)
    requires k > 0
    ensures Gcd(k * a, k * b) == k * Gcd(a, b)
    decreases b
  {
    if b == 0 {
      assert k * b == 0;
    } else {
      var r := a % b;
      MulAtLeast(b - r, k);
      assert k * b - k * r == (b - r) * k;
      assert 0 <= k * r < k * b;
      assert a == (a / b) * b + r;
      assert k * a == (a / b) * (k * b) + k * r;
      DivModUnique(k * a, k * b, a / b, k * r);
      assert (k * a) % (k * b) == k * r;
      GcdScale(k, b, r);
    }
  }

  // ---------------------------------------------------------------------------
  // reduced fractions

  datatype Frac = Frac(num: int, den: int)

  /** Positive denominator, numerator and denominator coprime. */
  predicate IsReduced(f: Frac) { f.den > 0 && Gcd(Abs(f.num), f.den) == 1 }

  /** A rational number in canonical form: equal values are equal pairs. */
  type Rat = f: Frac | IsReduced(f) witness Frac(0, 1)

  const One: Rat := Frac(1, 1)

  /** The rational n/d in canonical form (`new Fraction(n, d)`). */
  function Normalize(n: int, d: int): (r: Rat)
    requires d != 0
    ensures r.num * d == n * r.den
    ensures r.num == 0 <==> n == 0
    ensures r.num > 0 <==> (n > 0 && d > 0) || (n < 0 && d < 0)
    ensures IsReduced(Frac(n, d)) ==> r == Frac(n, d)
  {
    var g := Gcd(Abs(n), Abs(d));
    CoprimeQuotients(Abs(n), Abs(d));
    var a := Abs(n) / g;
    var b := Abs(d) / g;
    var num: int := if (n < 0) == (d < 0) then a else -a;
    NormalizeSigns(n, d, a, b, g);
    Frac(num, b)
  }

  /** The signed quotient has the value and the sign of n/d. */
  lemma NormalizeSigns(n: int, d: int, a: int, b: int, g: int)
    requires d != 0 && g > 0 && b > 0 && a >= 0
    requires Abs(n) == a * g && Abs(d) == b * g
    ensures (if (n < 0) == (d < 0) then a else -a) * d == n * b
    ensures a == 0 <==> n == 0
    ensures (if (n < 0) == (d < 0) then a else -a) > 0 <==> (n > 0 && d > 0) || (n < 0 && d < 0)
  {
    SignedProduct(n, d, a, b, g);
    if a > 0 { MulAtLeast(a, g); }
  }

  /** Dividing by the gcd leaves coprime quotients. */
  lemma CoprimeQuotients(x: nat, y: nat)
    requires y > 0
    ensures Gcd(x, y) > 0
    ensures x == (x / Gcd(x, y)) * Gcd(x, y) && y == (y / Gcd(x, y)) * Gcd(x, y)
    ensures y / Gcd(x, y) > 0
    ensures Gcd(x / Gcd(x, y), y / Gcd(x, y)) == 1
    ensures Gcd(x, y) == 1 ==> x / Gcd(x, y) == x && y / Gcd(x, y) == y
  {
    var g := Gcd(x, y);
    GcdDivides(x, y);
    var a := x / g;
    var b := y / g;
    assert x == a * g && y == b * g;
    GcdScale(g, a, b);
    assert g * a == x && g * b == y;
    MulCancel(g, Gcd(a, b), 1);
  }

  lemma MulCancel(g: int, u: int, v: int)
    requires g > 0 && g * u == g * v
    ensures u == v
  {
    if u < v { MulAtLeast(v - u, g); }
    if v < u { MulAtLeast(u - v, g); }
  }

  lemma SignedProduct(n: int, d: int, a: int, b: int, g: int)
    requires Abs(n) == a * g && Abs(d) == b * g
    ensures (if (n < 0) == (d < 0) then a else -a) * d == n * b
  {
    var sn := if n < 0 then -1 else 1;
    var sd := if d < 0 then -1 else 1;
    assert n == sn * (a * g) && d == sd * (b * g);
    assert a * (b * g) == (a * g) * b;
  }

  lemma AbsProduct(x: int, y: int)
    requires y > 0
    ensures Abs(x * y) == Abs(x) * y
  {
  }

  /** Canonical form is unique: two reduced fractions with the same value
      are the same pair. */
  lemma CanonicalUnique(r: Rat, s: Rat)
    requires r.num * s.den == s.num * r.den
    ensures r == s
  {
    var a, b, c, d := Abs(r.num), r.den, Abs(s.num), s.den;
    AbsProduct(r.num, d);
    AbsProduct(s.num, b);
    assert a * d == c * b;
    GcdScale(d, a, b);
    GcdScale(b, c, d);
    assert d * a == b * c && d * b == b * d;
    assert d == b;
    MulCancel(d, a, c);
  }

  /** Exact product (`a.mul(b)`). */
  function Mul(a: Rat, b: Rat): (r: Rat)
    ensures r.num * (a.den * b.den) == (a.num * b.num) * r.den
    ensures r.num > 0 <==> (a.num > 0 && b.num > 0) || (a.num < 0 && b.num < 0)
    ensures r.num == 0 <==> a.num == 0 || b.num == 0
  {
    assert a.den * b.den > 0;
    assert a.num * b.num > 0 <==> (a.num > 0 && b.num > 0) || (a.num < 0 && b.num < 0);
    Normalize(a.num * b.num, a.den * b.den)
  }

  /** Multiplying by one changes nothing. */
  lemma MulOne(q: Rat)
    ensures Mul(q, One) == q
  {
    assert q.num * One.num == q.num && q.den * One.den == q.den;
  }

  /** `Number.isInteger(valueOf())`: a canonical fraction is whole exactly
      when its denominator is one. */
  predicate IsWhole(q: Rat) { q.den == 1 }
}

=== FILE: recipe_list.dfy ===
/** The recipe list page (components/recipes/recipe-list.tsx): the tag
    chips it offers, the search and tag filter, and the queue switches it
    flips optimistically before the queue endpoint answers. */
module RecipeList {
  import opened Wrappers
  import opened Text
  import opened Schema

  /** The fields of a listed recipe the page's logic reads. */
  datatype Recipe = Recipe(
    id: string,
    title: string,
    description: Option<string>,
    tags: Option<seq<string>>,
    inQueue: bool)

  // ---------------------------------------------------------------------------
  // string order (the default `sort()`, code unit by code unit)

  /** a sorts strictly before b: a proper prefix of b, or smaller at the
      first position where they differ. */
  predicate Before(a: string, b: string) {
    if a == [] then b != []
    else b != [] && (a[0] < b[0] || (a[0] == b[0] && Before(a[1..], b[1..])))
  }

  lemma {:induction false} BeforeIrreflexive(a: string)
    ensures !Before(a, a)
  {
    if a != [] {
      BeforeIrreflexive(a[1..]);
    }
  }

  lemma {:induction false} BeforeTransitive(a: string, b: string, c: string)
    requires Before(a, b) && Before(b, c)
    ensures Before(a, c)
  {
    if a != [] && a[0] == b[0] && b[0] == c[0] {
      BeforeTransitive(a[1..], b[1..], c[1..]);
    }
  }

  lemma {:induction false} BeforeTotal(a: string, b: string)
    requires a != b
    ensures Before(a, b) || Before(b, a)
  {
    if a != [] && b != [] && a[0] == b[0] {
      assert a == [a[0]] + a[1..] && b == [b[0]] + b[1..];
      BeforeTotal(a[1..], b[1..]);
    }
  }

  lemma BeforeAsymmetric(a: string, b: string)
    requires Before(a, b)
    ensures !Before(b, a)
  {
    if Before(b, a) {
      BeforeTransitive(a, b, a);
      BeforeIrreflexive(a);
    }
  }

  /** Strictly ascending, hence free of duplicates. */
  predicate Ascending(s: seq<string>) {
    forall i, j :: 0 <= i < j < |s| ==> Before(s[i], s[j])
  }

  lemma AscendingDistinct(s: seq<string>)
    requires Ascending(s)
    ensures forall i, j :: 0 <= i < j < |s| ==> s[i] != s[j]
  {
    forall i, j | 0 <= i < j < |s| ensures s[i] != s[j] {
      BeforeIrreflexive(s[i]);
    }
  }

  /** x put in its place in an ascending list, unless it is already there. */
  function Insert(x: string, s: seq<string>): (r: seq<string>)
    requires Ascending(s)
    ensures Ascending(r)
    ensures forall y :: y in r <==> y == x || y in s
  {
    if s == [] then [x]
    else if x == s[0] then s
    else if Before(x, s[0]) then
      assert forall j :: 0 <= j < |s| ==> Before(x, s[j]) by {
        forall j | 0 <= j < |s| ensures Before(x, s[j]) {
          if j > 0 {
            BeforeTransitive(x, s[0], s[j]);
          }
        }
      }
      [x] + s
    else
      BeforeTotal(x, s[0]);
      var rest := Insert(x, s[1..]);
      assert forall y :: y in s <==> y == s[0] || y in s[1..];
      assert forall j :: 0 <= j < |rest| ==> Before(s[0], rest[j]) by {
        forall j | 0 <= j < |rest| ensures Before(s[0], rest[j]) {
          if rest[j] != x {
            assert rest[j] in s[1..];
            var k :| 0 <= k < |s[1..]| && s[1..][k] == rest[j];
            assert s[k + 1] == rest[j];
          }
        }
      }
      [s[0]] + rest
  }

  lemma EmptyTogether(a: seq<string>, b: seq<string>)
    requires forall y :: y in a <==> y in b
    ensures a == [] <==> b == []
  {
    if a != [] {
      assert a[0] in b;
    }
    if b != [] {
      assert b[0] in a;
    }
  }

  /** Two ascending lists with the same elements are the same list. */
  lemma {:induction false} AscendingUnique(a: seq<string>, b: seq<string>)
    requires Ascending(a) && Ascending(b)
    requires forall y :: y in a <==> y in b
    ensures a == b
  {
    EmptyTogether(a, b);
    if a != [] {
      if a[0] != b[0] {
        assert a[0] in b && b[0] in a;
        var i :| 0 <= i < |b| && b[i] == a[0];
        var j :| 0 <= j < |a| && a[j] == b[0];
        assert Before(b[0], a[0]) by {
          assert i > 0;
        }
        assert Before(a[0], b[0]) by {
          assert j > 0;
        }
        BeforeAsymmetric(a[0], b[0]);
        assert false;
      }
      assert Ascending(a[1..]) && Ascending(b[1..]) by {
        assert forall i, j :: 0 <= i < j < |a[1..]| ==> a[1..][i] == a[i + 1] && a[1..][j] == a[j + 1];
        assert forall i, j :: 0 <= i < j < |b[1..]| ==> b[1..][i] == b[i + 1] && b[1..][j] == b[j + 1];
      }
      AscendingDistinct(a);
      AscendingDistinct(b);
      forall y ensures y in a[1..] <==> y in b[1..] {
        assert y in a <==> y == a[0] || y in a[1..];
        assert y in b <==> y == b[0] || y in b[1..];
        assert a[0] !in a[1..] && b[0] !in b[1..];
      }
      AscendingUnique(a[1..], b[1..]);
      assert a == [a[0]] + a[1..] && b == [b[0]] + b[1..];
    }
  }

  // ---------------------------------------------------------------------------
  // the tag chips (`allTags`)

  /** Every tag of every recipe, in list order, repeats included. */
  function TagsOf(recipes: seq<Recipe>): seq<string> {
    if recipes == [] then [] else recipes[0].tags.GetOr([]) + TagsOf(recipes[1..])
  }

  lemma {:induction false} TagsOfIff(recipes: seq<Recipe>, t: string)
    ensures t in TagsOf(recipes) <==> exists i :: 0 <= i < |recipes| && recipes[i].tags.Some? && t in recipes[i].tags.value
  {
    if recipes != [] {
      TagsOfIff(recipes[1..], t);
      if exists i :: 0 <= i < |recipes[1..]| && recipes[1..][i].tags.Some? && t in recipes[1..][i].tags.value {
        var i :| 0 <= i < |recipes[1..]| && recipes[1..][i].tags.Some? && t in recipes[1..][i].tags.value;
        assert recipes[i + 1] == recipes[1..][i];
      }
      if exists i :: 0 <= i < |recipes| && recipes[i].tags.Some? && t in recipes[i].tags.value {
        var i :| 0 <= i < |recipes| && recipes[i].tags.Some? && t in recipes[i].tags.value;
        if i > 0 {
          assert recipes[1..][i - 1] == recipes[i];
        }
      }
    }
  }

  /** The tags of `pending` put into the ascending list `sorted`. */
  function InsertAll(pending: seq<string>, sorted: seq<string>): (r: seq<string>)
    requires Ascending(sorted)
    ensures Ascending(r)
    ensures forall y :: y in r <==> y in pending || y in sorted
  {
    if pending == [] then sorted
    else
      var r := InsertAll(pending[1..], Insert(pending[0], sorted));
      assert forall y :: y in pending <==> y == pending[0] || y in pending[1..];
      r
  }

  /** `allTags`: each tag any recipe carries, once, in ascending order. */
  function AllTags(recipes: seq<Recipe>): (r: seq<string>)
    ensures Ascending(r)
    ensures forall t :: t in r <==> exists i :: 0 <= i < |recipes| && recipes[i].tags.Some? && t in recipes[i].tags.value
  {
    var r := InsertAll(TagsOf(recipes), []);
    forall t ensures t in r <==> exists i :: 0 <= i < |recipes| && recipes[i].tags.Some? && t in recipes[i].tags.value {
      TagsOfIff(recipes, t);
    }
    r
  }

  /** The chips do not depend on the order of the recipes. */
  lemma AllTagsOrderFree(a: seq<Recipe>, b: seq<Recipe>)
    requires multiset(a) == multiset(b)
    ensures AllTags(a) == AllTags(b)
  {
    forall t ensures t in AllTags(a) <==> t in AllTags(b) {
      if t in AllTags(a) {
        var i :| 0 <= i < |a| && a[i].tags.Some? && t in a[i].tags.value;
        assert a[i] in multiset(b);
        var j :| 0 <= j < |b| && b[j] == a[i];
      }
      if t in AllTags(b) {
        var j :| 0 <= j < |b| && b[j].tags.Some? && t in b[j].tags.value;
        assert b[j] in multiset(a);
        var i :| 0 <= i < |a| && a[i] == b[j];
      }
    }
    AscendingUnique(AllTags(a), AllTags(b));
  }

  /** A chip click: the active tag is cleared when clicked again, and
      selected otherwise. */
  function ToggleTag(active: Option<string>, tag: string): (r: Option<string>)
    ensures r.None? <==> active == Some(tag)
    ensures r.Some? ==> r.value == tag
  {
    if active == Some(tag) then None else Some(tag)
  }

  /** Clicking a chip twice returns to the state before the first click
      when that chip was active or no chip was. */
  lemma ToggleTwice(active: Option<string>, tag: string)
    requires active.None? || active == Some(tag)
    ensures ToggleTag(ToggleTag(active, tag), tag) == active
  {
  }

  // ---------------------------------------------------------------------------
  // the filter (`filtered`)

  /** The search box matches: empty, or its lower-cased text occurs in the
      lower-cased title or description. */
  predicate MatchesSearch(r: Recipe, search: string) {
    search == []
    || Contains(ToLower(r.title), ToLower(search))
    || (r.description.Some? && Contains(ToLower(r.description.value), ToLower(search)))
  }

  /** The tag filter matches: no tag is active (`null` or empty), or the
      recipe carries the active tag. */
  predicate MatchesTag(r: Recipe, activeTag: Option<string>) {
    !Present(activeTag) || (r.tags.Some? && activeTag.value in r.tags.value)
  }

  predicate Shown(r: Recipe, search: string, activeTag: Option<string>) {
    MatchesSearch(r, search) && MatchesTag(r, activeTag)
  }

  /** a is b with some elements left out, the rest in order. */
  predicate Subsequence<T(==)>(a: seq<T>, b: seq<T>)
    decreases |b|
  {
    a == [] || (b != [] && ((a[0] == b[0] && Subsequence(a[1..], b[1..])) || Subsequence(a, b[1..])))
  }

  /** `filtered`: the recipes both filters let through, in list order. */
  function Filtered(recipes: seq<Recipe>, search: string, activeTag: Option<string>): (r: seq<Recipe>)
    ensures forall x :: x in r <==> x in recipes && Shown(x, search, activeTag)
  {
    if recipes == [] then []
    else
      var rest := Filtered(recipes[1..], search, activeTag);
      assert forall x :: x in recipes <==> x == recipes[0] || x in recipes[1..];
      if Shown(recipes[0], search, activeTag) then [recipes[0]] + rest else rest
  }

  /** The shown recipes keep their list order. */
  lemma {:induction false} FilteredInOrder(recipes: seq<Recipe>, search: string, activeTag: Option<string>)
    ensures Subsequence(Filtered(recipes, search, activeTag), recipes)
  {
    if recipes != [] {
      FilteredInOrder(recipes[1..], search, activeTag);
      var rest := Filtered(recipes[1..], search, activeTag);
      if Shown(recipes[0], search, activeTag) {
        assert ([recipes[0]] + rest)[1..] == rest;
      }
    }
  }

  lemma {:induction false} FilteredAppend(a: seq<Recipe>, b: seq<Recipe>, search: string, activeTag: Option<string>)
    ensures Filtered(a + b, search, activeTag) == Filtered(a, search, activeTag) + Filtered(b, search, activeTag)
  {
    if a == [] {
      assert a + b == b;
    } else {
      assert (a + b)[0] == a[0] && (a + b)[1..] == a[1..] + b;
      FilteredAppend(a[1..], b, search, activeTag);
    }
  }

  /** With an empty search and no active tag the whole list is shown. */
  lemma {:induction false} NoFilterShowsAll(recipes: seq<Recipe>, activeTag: Option<string>)
    requires !Present(activeTag)
    ensures Filtered(recipes, "", activeTag) == recipes
  {
    if recipes != [] {
      NoFilterShowsAll(recipes[1..], activeTag);
      assert [recipes[0]] + recipes[1..] == recipes;
    }
  }

  /** The two filters compose: searching, then narrowing by tag. */
  lemma {:induction false} FiltersCompose(recipes: seq<Recipe>, search: string, activeTag: Option<string>)
    ensures Filtered(recipes, search, activeTag) == Filtered(Filtered(recipes, search, None), "", activeTag)
  {
    if recipes != [] {
      FiltersCompose(recipes[1..], search, activeTag);
      var r := recipes[0];
      if MatchesSearch(r, search) {
        assert Filtered(recipes, search, None) == [r] + Filtered(recipes[1..], search, None);
        FilteredAppend([r], Filtered(recipes[1..], search, None), "", activeTag);
        assert [r][1..] == [];
      }
    }
  }

  /** With only a tag active, the list keeps exactly the recipes carrying
      that tag. */
  lemma TagFilterExact(recipes: seq<Recipe>, tag: string, x: Recipe)
    requires tag != ""
    ensures x in Filtered(recipes, "", Some(tag)) <==> x in recipes && x.tags.Some? && tag in x.tags.value
  {
  }

  // ---------------------------------------------------------------------------
  // the queue switches (`queueState`, `handleQueueToggle`)

  function RecipeId(r: Recipe): string { r.id }

  /** `Object.fromEntries` of the recipes' ids and queue flags: one entry
      per id on the page. */
  function QueueEntries(recipes: seq<Recipe>): (r: map<string, bool>)
    ensures forall id :: id in r <==> id in Map(recipes, RecipeId)
  {
    if recipes == [] then map[]
    else
      var m := QueueEntries(recipes[1..]);
      assert Map(recipes, RecipeId) == [recipes[0].id] + Map(recipes[1..], RecipeId);
      if recipes[0].id in m then m else m[recipes[0].id := recipes[0].inQueue]
  }

  /** A later recipe with the same id overwrites an earlier one: the flag
      recorded for an id is that of the last recipe with it. */
  lemma {:induction false} QueueEntriesLast(recipes: seq<Recipe>, i: nat)
    requires i < |recipes|
    requires forall j :: i < j < |recipes| ==> recipes[j].id != recipes[i].id
    ensures QueueEntries(recipes)[recipes[i].id] == recipes[i].inQueue
  {
    var rest := recipes[1..];
    if i > 0 {
      assert forall j :: i - 1 < j < |rest| ==> rest[j] == recipes[j + 1];
      QueueEntriesLast(rest, i - 1);
    } else {
      assert recipes[0].id !in Map(rest, RecipeId) by {
        forall k | 0 <= k < |rest| ensures Map(rest, RecipeId)[k] != recipes[0].id {
          assert rest[k] == recipes[k + 1];
        }
      }
    }
  }

  /** The switch shown for a recipe: the page's own record, or the
      recipe's flag when the page holds none. */
  function Displayed(state: map<string, bool>, r: Recipe): bool {
    if r.id in state then state[r.id] else r.inQueue
  }

  /** On a page whose recipe ids are distinct, every switch starts as the
      recipe's flag. */
  lemma InitialSwitches(recipes: seq<Recipe>, k: nat)
    requires forall i, j :: 0 <= i < j < |recipes| ==> recipes[i].id != recipes[j].id
    requires k < |recipes|
    ensures Displayed(QueueEntries(recipes), recipes[k]) == recipes[k].inQueue
  {
    QueueEntriesLast(recipes, k);
  }

  /** What the queue endpoint did: answered with an ok status or not, or
      threw (the network failed). */
  datatype QueueReply = Answered(ok: bool) | Threw

  /** `handleQueueToggle` as written: the switch flips at once, and flips
      back when the endpoint answers with an error; a throw skips the
      rollback, so the flipped switch stays. */
  function QueueToggleAsWritten(state: map<string, bool>, id: string, isInQueue: bool, reply: QueueReply): (r: map<string, bool>)
    ensures id in r && forall k :: k in state && k != id ==> k in r && r[k] == state[k]
    ensures r.Keys == state.Keys + {id}
    ensures reply == Answered(false) ==> r[id] == isInQueue
    ensures reply != Answered(false) ==> r[id] == !isInQueue
  {
    var flipped := state[id := !isInQueue];
    if reply == Answered(false) then flipped[id := isInQueue] else flipped
  }

  /** A network failure leaves the switch showing the opposite of the
      queue's real state. */
  lemma ThrowKeepsFlip(state: map<string, bool>, id: string, isInQueue: bool)
    ensures QueueToggleAsWritten(state, id, isInQueue, Threw)[id] != isInQueue
  {
  }

  /** The toggle with the rollback applied to every failure: the switch
      ends flipped exactly when the endpoint answered ok. */
  function QueueToggle(state: map<string, bool>, id: string, isInQueue: bool, reply: QueueReply): (r: map<string, bool>)
    ensures id in r && forall k :: k in state && k != id ==> k in r && r[k] == state[k]
    ensures r.Keys == state.Keys + {id}
    ensures r[id] == (if reply == Answered(true) then !isInQueue else isInQueue)
  {
    var flipped := state[id := !isInQueue];
    if reply != Answered(true) then flipped[id := isInQueue] else flipped
  }

  /** Toggling a shown switch flips it exactly when the endpoint answered
      ok, and leaves the switches of every other recipe as they were. */
  lemma ToggleOutcome(state: map<string, bool>, target: Recipe, reply: QueueReply, other: Recipe)
    requires other.id != target.id
    ensures var after := QueueToggle(state, target.id, Displayed(state, target), reply);
      Displayed(after, target) == (if reply == Answered(true) then !Displayed(state, target) else Displayed(state, target))
      && Displayed(after, other) == Displayed(state, other)
  {
  }

  /** The method of the call to the queue endpoint: DELETE to take the
      recipe out of the queue, POST to put it in. */
  function QueueVerb(isInQueue: bool): (r: string)
    ensures r == "DELETE" || r == "POST"
    ensures r == "DELETE" <==> isInQueue
  {
    if isInQueue then "DELETE" else "POST"
  }

  /** The request sent for a switch agrees with where the switch lands: after
      an ok answer the shown switch is on exactly when the request was a
      POST, and off exactly when it was a DELETE. */
  lemma QueueVerbMatchesSwitch(state: map<string, bool>, target: Recipe)
    ensures var shown := Displayed(state, target);
      var after := QueueToggle(state, target.id, shown, Answered(true));
      (Displayed(after, target) <==> QueueVerb(shown) == "POST")
      && (!Displayed(after, target) <==> QueueVerb(shown) == "DELETE")
  {
  }
}

=== FILE: scaler.dfy ===
/** Scaling an ingredient line by a serving factor (lib/scale-ingredient.ts):
    the structured path through the parsed amount, the raw path through the
    leading quantity of the text, and the scaling of numbers inside
    parentheses. */
module Scaler {
  import opened Wrappers
  import opened Text
  import opened Rational
  import opened Quantity
  import opened Schema

  // ---------------------------------------------------------------------------
  // the global pattern `\(([^)]+)\)`

  /** How the parenthesis pattern cuts a text: single characters it passes
      over, and groups it matches (the text strictly between a '(' and the
      first ')' after it, which must not be empty). */
  datatype Piece = Plain(c: char) | Group(inner: string)

  function PieceText(p: Piece): string {
    match p
    case Plain(c) => [c]
    case Group(inner) => "(" + inner + ")"
  }

  /** The text a cut came from. */
  function Unsplit(ps: seq<Piece>): string { FlatMap(ps, PieceText) }

  /** Every group the pattern matches is non-empty and holds no ')'. */
  predicate GroupsWellFormed(ps: seq<Piece>) {
    forall i :: 0 <= i < |ps| && ps[i].Group? ==> |ps[i].inner| > 0 && ')' !in ps[i].inner
  }

  lemma PieceCons(p: Piece, ps: seq<Piece>)
    requires GroupsWellFormed(ps)
    requires p.Group? ==> |p.inner| > 0 && ')' !in p.inner
    ensures GroupsWellFormed([p] + ps)
  {
  }

  /** A match starting at a '(' runs to the first ')' after it; where there
      is none, or the group would be empty, the scan moves on by one
      character. */
  function Pieces(text: string): (r: seq<Piece>)
    ensures GroupsWellFormed(r)
    decreases |text|
  {
    if text == [] then []
    else if text[0] == '(' then
      match IndexOf(text[1..], ')')
      case Some(k) =>
        if k > 0 then
          var inner := text[1..][..k];
          assert forall j :: 0 <= j < k ==> inner[j] != ')';
          PieceCons(Group(inner), Pieces(text[k + 2..]));
          [Group(inner)] + Pieces(text[k + 2..])
        else
          PieceCons(Plain('('), Pieces(text[1..]));
          [Plain('(')] + Pieces(text[1..])
      case None =>
        PieceCons(Plain('('), Pieces(text[1..]));
        [Plain('(')] + Pieces(text[1..])
    else
      PieceCons(Plain(text[0]), Pieces(text[1..]));
      [Plain(text[0])] + Pieces(text[1..])
  }

  /** Cutting loses and invents nothing: the pieces put back together are
      the text. */
  lemma {:induction false} PiecesUnsplit(text: string)
    ensures Unsplit(Pieces(text)) == text
    decreases |text|, 1
  {
    if text != [] {
      if text[0] == '(' && IndexOf(text[1..], ')').Some? && IndexOf(text[1..], ')').value > 0 {
        UnsplitGroup(text);
      } else {
        UnsplitPlain(text);
      }
    }
  }

  lemma {:induction false} UnsplitGroup(text: string)
    requires text != [] && text[0] == '(' && IndexOf(text[1..], ')').Some? && IndexOf(text[1..], ')').value > 0
    ensures Unsplit(Pieces(text)) == text
    decreases |text|, 0
  {
    var k := IndexOf(text[1..], ')').value;
    var inner := text[1..][..k];
    PiecesUnsplit(text[k + 2..]);
    FlatMapCons(Group(inner), Pieces(text[k + 2..]), PieceText);
    GroupText(text, k);
  }

  lemma {:induction false} UnsplitPlain(text: string)
    requires text != []
    requires !(text[0] == '(' && IndexOf(text[1..], ')').Some? && IndexOf(text[1..], ')').value > 0)
    ensures Unsplit(Pieces(text)) == text
    decreases |text|, 0
  {
    PiecesUnsplit(text[1..]);
    FlatMapCons(Plain(text[0]), Pieces(text[1..]), PieceText);
    SplitAt(text, 1);
    assert text[..1] == [text[0]];
  }

  lemma GroupText(text: string, k: nat)
    requires |text| > k + 1 && text[0] == '(' && text[k + 1] == ')'
    ensures text == "(" + text[1..][..k] + ")" + text[k + 2..]
  {
  }

  /** Without a '(' every character is passed over. */
  lemma {:induction false} PiecesWithoutParen(text: string)
    requires '(' !in text
    ensures forall i :: 0 <= i < |Pieces(text)| ==> Pieces(text)[i].Plain?
    decreases |text|
  {
    if text != [] {
      assert text[0] in text;
      assert forall c :: c in text[1..] ==> c in text;
      PiecesWithoutParen(text[1..]);
    }
  }

  // ---------------------------------------------------------------------------
  // the numbers inside one group

  /** How the global token pattern cuts the text of a group: characters it
      passes over, and quantity tokens, each with whether a temperature
      unit follows it. */
  datatype Chunk = Other(c: char) | Number(token: string, temperature: bool)

  function ChunkText(c: Chunk): string {
    match c
    case Other(ch) => [ch]
    case Number(t, _) => t
  }

  /** The text a scan came from. */
  function Unchunk(cs: seq<Chunk>): string { FlatMap(cs, ChunkText) }

  /** `/^\s*°[FCK]/i`: optional whitespace, a degree sign, then F, C or K in
      either case. */
  predicate TemperatureAhead(rest: string) {
    var t := SkipSpaces(rest);
    |t| >= 2 && t[0] == '°' && t[1] in "FCKfck"
  }

  /** Every token the scan finds starts with a digit. */
  predicate TokensStartWithDigits(cs: seq<Chunk>) {
    forall i :: 0 <= i < |cs| && cs[i].Number? ==> |cs[i].token| > 0 && IsDigit(cs[i].token[0])
  }

  lemma ChunkCons(c: Chunk, cs: seq<Chunk>)
    requires TokensStartWithDigits(cs)
    requires c.Number? ==> |c.token| > 0 && IsDigit(c.token[0])
    ensures TokensStartWithDigits([c] + cs)
  {
  }

  /** Every token starts at a digit, so the scan tries the pattern at each
      digit and passes over everything else. */
  function Chunks(s: string): (r: seq<Chunk>)
    ensures TokensStartWithDigits(r)
    decreases |s|
  {
    if s == [] then []
    else
      var k := TokenLen(s);
      if k == 0 then
        ChunkCons(Other(s[0]), Chunks(s[1..]));
        [Other(s[0])] + Chunks(s[1..])
      else
        ChunkCons(Number(s[..k], TemperatureAhead(s[k..])), Chunks(s[k..]));
        [Number(s[..k], TemperatureAhead(s[k..]))] + Chunks(s[k..])
  }

  /** The tokens and the characters between them make up the group text. */
  lemma {:induction false} ChunksUnchunk(s: string)
    ensures Unchunk(Chunks(s)) == s
    decreases |s|, 1
  {
    if s != [] {
      if TokenLen(s) == 0 {
        UnchunkOther(s);
      } else {
        UnchunkToken(s);
      }
    }
  }

  lemma {:induction false} UnchunkOther(s: string)
    requires s != [] && TokenLen(s) == 0
    ensures Unchunk(Chunks(s)) == s
    decreases |s|, 0
  {
    ChunksUnchunk(s[1..]);
    FlatMapCons(Other(s[0]), Chunks(s[1..]), ChunkText);
    SplitAt(s, 1);
    assert s[..1] == [s[0]];
  }

  lemma {:induction false} UnchunkToken(s: string)
    requires TokenLen(s) > 0
    ensures Unchunk(Chunks(s)) == s
    decreases |s|, 0
  {
    var k := TokenLen(s);
    ChunksUnchunk(s[k..]);
    FlatMapCons(Number(s[..k], TemperatureAhead(s[k..])), Chunks(s[k..]), ChunkText);
    SplitAt(s, k);
  }

  lemma SplitAt(s: string, k: nat)
    requires k <= |s|
    ensures s[..k] + s[k..] == s
  {
  }

  /** Text without digits holds no token. */
  lemma {:induction false} ChunksWithoutDigits(s: string)
    requires forall i :: 0 <= i < |s| ==> !IsDigit(s[i])
    ensures forall i :: 0 <= i < |Chunks(s)| ==> Chunks(s)[i].Other?
    decreases |s|
  {
    if s != [] {
      ChunksWithoutDigits(s[1..]);
    }
  }

  /** One token of a group: kept as written before a temperature unit or
      when it does not parse as a positive amount, scaled otherwise. */
  function ScaleToken(token: string, temperature: bool, factor: Rat, simp: Rat -> Rat): string {
    if temperature then token
    else
      match ParseFractionString(Trim(token))
      case None => token
      case Some(q) => FormatFraction(Mul(q, factor), simp)
  }

  function RenderChunk(c: Chunk, factor: Rat, simp: Rat -> Rat): string {
    match c
    case Other(ch) => [ch]
    case Number(t, temp) => ScaleToken(t, temp, factor, simp)
  }

  function ChunkRenderer(factor: Rat, simp: Rat -> Rat): Chunk -> string {
    c => RenderChunk(c, factor, simp)
  }

  function RenderChunks(cs: seq<Chunk>, factor: Rat, simp: Rat -> Rat): string {
    FlatMap(cs, ChunkRenderer(factor, simp))
  }

  function ScaleInner(inner: string, factor: Rat, simp: Rat -> Rat): string {
    RenderChunks(Chunks(inner), factor, simp)
  }

  /** Rendering leaves characters between tokens as they are. */
  lemma RenderOthers(cs: seq<Chunk>, factor: Rat, simp: Rat -> Rat)
    requires forall i :: 0 <= i < |cs| ==> cs[i].Other?
    ensures RenderChunks(cs, factor, simp) == Unchunk(cs)
  {
    FlatMapAgree(cs, ChunkRenderer(factor, simp), ChunkText);
  }

  // ---------------------------------------------------------------------------
  // scaleParentheticals

  function RenderPiece(p: Piece, factor: Rat, simp: Rat -> Rat): string {
    match p
    case Plain(c) => [c]
    case Group(inner) => "(" + ScaleInner(inner, factor, simp) + ")"
  }

  function PieceRenderer(factor: Rat, simp: Rat -> Rat): Piece -> string {
    p => RenderPiece(p, factor, simp)
  }

  function RenderPieces(ps: seq<Piece>, factor: Rat, simp: Rat -> Rat): string {
    FlatMap(ps, PieceRenderer(factor, simp))
  }

  /** `scaleParentheticals`: every group is replaced by its scaled text, the
      rest is copied. */
  function ScaleParentheticals(text: string, factor: Rat, simp: Rat -> Rat): string {
    RenderPieces(Pieces(text), factor, simp)
  }

  /** Rendering copies pieces whose groups hold no digit. */
  lemma RenderWithoutDigits(ps: seq<Piece>, factor: Rat, simp: Rat -> Rat)
    requires forall i, j :: 0 <= i < |ps| && ps[i].Group? && 0 <= j < |ps[i].inner| ==> !IsDigit(ps[i].inner[j])
    ensures RenderPieces(ps, factor, simp) == Unsplit(ps)
  {
    forall i | 0 <= i < |ps|
      ensures PieceRenderer(factor, simp)(ps[i]) == PieceText(ps[i])
    {
      match ps[i]
      case Plain(_) =>
      case Group(inner) =>
        ChunksWithoutDigits(inner);
        RenderOthers(Chunks(inner), factor, simp);
        ChunksUnchunk(inner);
    }
    FlatMapAgree(ps, PieceRenderer(factor, simp), PieceText);
  }

  /** Text outside parentheses is never changed: text with no '(' comes back
      as it is. */
  lemma ScaleParentheticalsWithoutParen(text: string, factor: Rat, simp: Rat -> Rat)
    requires '(' !in text
    ensures ScaleParentheticals(text, factor, simp) == text
  {
    PiecesWithoutParen(text);
    RenderWithoutDigits(Pieces(text), factor, simp);
    PiecesUnsplit(text);
  }

  /** Only numbers change: text without digits comes back as it is. */
  lemma ScaleParentheticalsWithoutDigits(text: string, factor: Rat, simp: Rat -> Rat)
    requires forall i :: 0 <= i < |text| ==> !IsDigit(text[i])
    ensures ScaleParentheticals(text, factor, simp) == text
  {
    var ps := Pieces(text);
    PiecesUnsplit(text);
    forall i, j | 0 <= i < |ps| && ps[i].Group? && 0 <= j < |ps[i].inner|
      ensures !IsDigit(ps[i].inner[j])
    {
      PieceInText(ps, i, j);
    }
    RenderWithoutDigits(ps, factor, simp);
  }

  /** Each character of a group is a character of the text. */
  lemma {:induction false} PieceInText(ps: seq<Piece>, i: nat, j: nat)
    requires i < |ps| && ps[i].Group? && j < |ps[i].inner|
    ensures ps[i].inner[j] in Unsplit(ps)
  {
    if i == 0 {
      var head := "(" + ps[0].inner + ")";
      assert head[j + 1] == ps[0].inner[j];
      assert Unsplit(ps)[j + 1] == head[j + 1];
    } else {
      PieceInText(ps[1..], i - 1, j);
    }
  }

  lemma PiecesOfPlain(c: char, rest: string)
    requires c != '('
    ensures Pieces([c] + rest) == [Plain(c)] + Pieces(rest)
  {
    assert ([c] + rest)[1..] == rest;
  }

  lemma PiecesOfGroup(inner: string, b: string)
    requires |inner| > 0 && ')' !in inner
    ensures Pieces("(" + inner + ")" + b) == [Group(inner)] + Pieces(b)
  {
    var text := "(" + (inner + ")" + b);
    assert text == "(" + inner + ")" + b;
    assert text[1..] == inner + ")" + b;
    FirstClose(inner, b);
    assert text[1..][..|inner|] == inner;
    assert text[|inner| + 2..] == b;
  }

  lemma ScaleParentheticalsAtGroup(inner: string, b: string, factor: Rat, simp: Rat -> Rat)
    requires |inner| > 0 && ')' !in inner
    ensures ScaleParentheticals("(" + inner + ")" + b, factor, simp)
         == "(" + ScaleInner(inner, factor, simp) + ")" + ScaleParentheticals(b, factor, simp)
  {
    PiecesOfGroup(inner, b);
    FlatMapCons(Group(inner), Pieces(b), PieceRenderer(factor, simp));
  }

  lemma ScaleParentheticalsCons(c: char, tail: string, factor: Rat, simp: Rat -> Rat)
    requires c != '('
    ensures ScaleParentheticals([c] + tail, factor, simp) == [c] + ScaleParentheticals(tail, factor, simp)
  {
    PiecesOfPlain(c, tail);
    FlatMapCons(Plain(c), Pieces(tail), PieceRenderer(factor, simp));
  }

  /** Text before the first '(' is copied, and a group is replaced by its
      scaled contents; scaling then carries on after the group. */
  lemma {:induction false} ScaleParentheticalsGroup(a: string, inner: string, b: string, factor: Rat, simp: Rat -> Rat)
    requires '(' !in a && |inner| > 0 && ')' !in inner
    ensures ScaleParentheticals(a + ("(" + inner + ")" + b), factor, simp)
         == a + ("(" + ScaleInner(inner, factor, simp) + ")" + ScaleParentheticals(b, factor, simp))
    decreases |a|
  {
    if a == [] {
      ScaleParentheticalsAtGroup(inner, b, factor, simp);
      assert a + ("(" + inner + ")" + b) == "(" + inner + ")" + b;
    } else {
      var tail := a[1..] + ("(" + inner + ")" + b);
      ConsAppend(a, "(" + inner + ")" + b);
      assert a[0] in a;
      assert forall c :: c in a[1..] ==> c in a;
      ScaleParentheticalsGroup(a[1..], inner, b, factor, simp);
      ScaleParentheticalsCons(a[0], tail, factor, simp);
      ConsAppend(a, "(" + ScaleInner(inner, factor, simp) + ")" + ScaleParentheticals(b, factor, simp));
    }
  }

  lemma ConsAppend(a: string, b: string)
    requires a != []
    ensures [a[0]] + (a[1..] + b) == a + b
  {
    assert [a[0]] + a[1..] == a;
  }

  /** The first ')' after a group's text is the one that closes it. */
  lemma FirstClose(inner: string, b: string)
    requires ')' !in inner
    ensures IndexOf(inner + ")" + b, ')') == Some(|inner|)
  {
    var s := inner + ")" + b;
    assert s[|inner|] == ')';
    forall k | 0 <= k < |inner| ensures s[k] != ')' {
      assert s[k] == inner[k];
      assert inner[k] in inner;
    }
  }

  lemma ChunksOfOther(c: char, rest: string)
    requires !IsDigit(c)
    ensures Chunks([c] + rest) == [Other(c)] + Chunks(rest)
  {
    assert ([c] + rest)[1..] == rest;
  }

  /** Inside a group, text without digits is copied. */
  lemma {:induction false} ScaleInnerPlain(a: string, rest: string, factor: Rat, simp: Rat -> Rat)
    requires forall i :: 0 <= i < |a| ==> !IsDigit(a[i])
    ensures ScaleInner(a + rest, factor, simp) == a + ScaleInner(rest, factor, simp)
    decreases |a|
  {
    if a != [] {
      var tail := a[1..] + rest;
      assert a + rest == [a[0]] + tail;
      ScaleInnerPlain(a[1..], rest, factor, simp);
      ChunksOfOther(a[0], tail);
      FlatMapCons(Other(a[0]), Chunks(tail), ChunkRenderer(factor, simp));
      calc {
        ScaleInner(a + rest, factor, simp);
        [a[0]] + ScaleInner(tail, factor, simp);
        [a[0]] + (a[1..] + ScaleInner(rest, factor, simp));
        { ConsAppend(a, ScaleInner(rest, factor, simp)); }
        a + ScaleInner(rest, factor, simp);
      }
    } else {
      assert a + rest == rest;
    }
  }

  /** Inside a group, a token is scaled on its own (or kept), and scaling
      carries on after it. */
  lemma ScaleInnerToken(token: string, rest: string, factor: Rat, simp: Rat -> Rat)
    requires |token| > 0 && TokenLen(token + rest) == |token|
    ensures ScaleInner(token + rest, factor, simp)
         == ScaleToken(token, TemperatureAhead(rest), factor, simp) + ScaleInner(rest, factor, simp)
  {
    var s := token + rest;
    assert s[..|token|] == token && s[|token|..] == rest;
    assert Chunks(s) == [Number(token, TemperatureAhead(rest))] + Chunks(rest);
    FlatMapCons(Number(token, TemperatureAhead(rest)), Chunks(rest), ChunkRenderer(factor, simp));
  }

  // ---------------------------------------------------------------------------
  // scaleRawString

  /** What `(.*)` matches: everything up to the first line terminator. */
  function LineRest(s: string): (r: string)
    ensures |r| <= |s| && r == s[..|r|]
    ensures NoLineTerminator(r)
    ensures |r| < |s| ==> IsLineTerminator(s[|r|])
  {
    if s == [] || IsLineTerminator(s[0]) then [] else [s[0]] + LineRest(s[1..])
  }

  /** `scaleRawString`: the leading quantity token is parsed and replaced by
      its scaled form; the remainder of the first line follows, with its
      parenthesised numbers scaled. Null exactly when the text does not
      start with a digit or its leading token does not parse (a zero whole
      number or ratio, a zero denominator); a mixed number of value zero
      parses, and scales to "0". */
  function ScaleRawString(raw: string, factor: Rat, simp: Rat -> Rat): (r: Option<string>)
    ensures raw == [] || !IsDigit(raw[0]) ==> r.None?
    ensures r.Some? <==> TokenLen(raw) > 0 && ParseFractionString(Trim(raw[..TokenLen(raw)])).Some?
    ensures r.Some? ==>
      var head := FormatFraction(Mul(ParseFractionString(Trim(raw[..TokenLen(raw)])).value, factor), simp);
      StartsWith(r.value, head) && r.value[|head|..] == ScaleParentheticals(LineRest(raw[TokenLen(raw)..]), factor, simp)
  {
    var k := TokenLen(raw);
    if k == 0 then None
    else
      match ParseFractionString(Trim(raw[..k]))
      case None => None
      case Some(q) => Some(FormatFraction(Mul(q, factor), simp) + ScaleParentheticals(LineRest(raw[k..]), factor, simp))
  }

  // ---------------------------------------------------------------------------
  // scaleIngredient

  /** The parsed amount, when it is present, not blank, and parses. */
  function StructuredAmount(ing: Ingredient): Option<Rat> {
    if ing.amount.Some? && Trim(ing.amount.value) != "" then ParseFractionString(Trim(ing.amount.value))
    else None
  }

  /** What follows the quantity in a rebuilt line: unit and name each after
      a space when present, then ", " and the notes when present. */
  function Descriptors(ing: Ingredient): string {
    (if Present(ing.unit) then " " + ing.unit.value else "")
    + (if Present(ing.name) then " " + ing.name.value else "")
    + (if Present(ing.notes) then ", " + ing.notes.value else "")
  }

  /** Unit and name each come after one space and the notes after ", ", in
      that order; a part that is absent or empty leaves no trace. */
  lemma DescriptorsLayout(ing: Ingredient)
    ensures Descriptors(ing) == "" <==> !Present(ing.unit) && !Present(ing.name) && !Present(ing.notes)
    ensures Present(ing.unit) ==> StartsWith(Descriptors(ing), " " + ing.unit.value)
    ensures !Present(ing.unit) && Present(ing.name) ==> StartsWith(Descriptors(ing), " " + ing.name.value)
    ensures Present(ing.notes) ==> EndsWith(Descriptors(ing), ", " + ing.notes.value)
    ensures !Present(ing.unit) ==> Descriptors(ing) == Descriptors(ing.(unit := None))
    ensures !Present(ing.name) ==> Descriptors(ing) == Descriptors(ing.(name := None))
    ensures !Present(ing.notes) ==> Descriptors(ing) == Descriptors(ing.(notes := None))
  {
    var u := if Present(ing.unit) then " " + ing.unit.value else "";
    var n := if Present(ing.name) then " " + ing.name.value else "";
    var t := if Present(ing.notes) then ", " + ing.notes.value else "";
    assert Descriptors(ing) == u + n + t;
    SplitParts(u, n + t);
    assert u + n + t == u + (n + t);
    SplitParts(u + n, t);
  }

  /** The line rebuilt from its parts: the quantity, then the descriptors. */
  function StructuredLine(formatted: string, ing: Ingredient): (r: string)
    ensures StartsWith(r, formatted) && r[|formatted|..] == Descriptors(ing)
  {
    var d := Descriptors(ing);
    assert (formatted + d)[..|formatted|] == formatted;
    formatted + d
  }

  /** `scaleIngredient`. */
  function ScaleIngredient(ing: Ingredient, factor: Rat, simp: Rat -> Rat): (r: Option<string>)
    ensures StructuredAmount(ing).Some? ==>
      r == Some(FormatFraction(Mul(StructuredAmount(ing).value, factor), simp) + Descriptors(ing))
    ensures StructuredAmount(ing).None? ==> r == ScaleRawString(ing.raw, factor, simp)
  {
    match StructuredAmount(ing)
    case Some(q) => Some(StructuredLine(FormatFraction(Mul(q, factor), simp), ing))
    case None => ScaleRawString(ing.raw, factor, simp)
  }

  /** The two paths read disjoint fields: with a usable amount the raw text
      is ignored; without one, unit, name and notes are. */
  lemma ScaleIngredientPaths(ing: Ingredient, raw: string, unit: Option<string>, name: Option<string>, notes: Option<string>, factor: Rat, simp: Rat -> Rat)
    ensures StructuredAmount(ing).Some? ==>
      ScaleIngredient(ing.(raw := raw), factor, simp) == ScaleIngredient(ing, factor, simp)
    ensures StructuredAmount(ing).None? ==>
      ScaleIngredient(ing.(unit := unit, name := name, notes := notes), factor, simp) == ScaleIngredient(ing, factor, simp)
  {
  }

  // ---------------------------------------------------------------------------
  // lines led by a written quantity

  /** A quantity as `toFraction(true)` writes it neither starts nor ends
      with whitespace. */
  lemma WrittenIsTrimmed(q: Rat)
    requires q.num > 0
    ensures Trimmed(ToFractionString(q))
  {
    ToFractionStringOfPositive(q);
    if q.den == 1 {
      DigitsTrimmed(NatToString(q.num));
    } else if q.num / q.den > 0 {
      MixedTrimmed(NatToString(q.num / q.den), NatToString(q.num % q.den), NatToString(q.den));
    } else {
      RatioTrimmed(NatToString(q.num), NatToString(q.den));
    }
  }

  lemma DigitsTrimmed(w: string)
    requires w != [] && AllDigits(w)
    ensures Trimmed(w)
  {
    DigitNotSpecial(w[0]);
    DigitNotSpecial(w[|w| - 1]);
  }

  lemma RatioTrimmed(n: string, d: string)
    requires n != [] && AllDigits(n) && d != [] && AllDigits(d)
    ensures Trimmed(n + "/" + d)
  {
    var f := n + "/" + d;
    assert f[0] == n[0] && f[|f| - 1] == d[|d| - 1];
    DigitNotSpecial(n[0]);
    DigitNotSpecial(d[|d| - 1]);
  }

  lemma MixedTrimmed(w: string, n: string, d: string)
    requires w != [] && AllDigits(w) && d != [] && AllDigits(d)
    ensures Trimmed(w + " " + n + "/" + d)
  {
    var f := w + " " + n + "/" + d;
    assert f[0] == w[0] && f[|f| - 1] == d[|d| - 1];
    DigitNotSpecial(w[0]);
    DigitNotSpecial(d[|d| - 1]);
  }

  /** A written quantity followed by text that cannot lengthen it is scaled
      by exactly the factor; the rest of the line follows with its
      parenthesised numbers scaled. */
  lemma ScaleWrittenLine(q: Rat, tail: string, factor: Rat, simp: Rat -> Rat)
    requires q.num > 0
    requires SafeTail(tail) && NoLineTerminator(tail)
    ensures ScaleRawString(ToFractionString(q) + tail, factor, simp)
         == Some(FormatFraction(Mul(q, factor), simp) + ScaleParentheticals(tail, factor, simp))
  {
    var f := ToFractionString(q);
    TokenOfWritten(q, tail);
    SplitParts(f, tail);
    WrittenIsTrimmed(q);
    TrimOfTrimmed(f);
    WrittenRoundTrip(q);
    LineRestWhole(tail);
  }

  lemma SplitParts(a: string, b: string)
    ensures (a + b)[..|a|] == a && (a + b)[|a|..] == b
  {
  }

  /** A line whose leading token is not a positive amount scales to null. */
  lemma RejectedLine(lead: string, tail: string, factor: Rat, simp: Rat -> Rat)
    requires |lead| > 0 && TokenLen(lead + tail) == |lead|
    requires Trimmed(lead) && ParseFractionString(lead) == None
    ensures ScaleRawString(lead + tail, factor, simp) == None
  {
    SplitParts(lead, tail);
    TrimOfTrimmed(lead);
  }

  /** A line led by zero scales to null. */
  lemma ScaleZeroLine(N: string, tail: string, factor: Rat, simp: Rat -> Rat)
    requires |N| > 0 && AllDigits(N) && DigitsValue(N) == 0 && SafeTail(tail)
    ensures ScaleRawString(N + tail, factor, simp) == None
  {
    TokenOfWhole(N, tail);
    DigitNotSpecial(N[0]);
    DigitNotSpecial(N[|N| - 1]);
    ParseRejectsZero(N);
    RejectedLine(N, tail, factor, simp);
  }

  /** A line led by a mixed number whose whole part and numerator are both
      zero is not rejected: the mixed branch checks only the denominator, so
      the amount is zero and the line scales to "0" and its rest. */
  lemma ScaleZeroMixedLine(W: string, N: string, D: string, tail: string, factor: Rat, simp: Rat -> Rat)
    requires |W| > 0 && AllDigits(W) && DigitsValue(W) == 0
    requires |N| > 0 && AllDigits(N) && DigitsValue(N) == 0
    requires |D| > 0 && AllDigits(D) && DigitsValue(D) != 0
    requires SafeTail(tail)
    ensures ScaleRawString(W + " " + N + "/" + D + tail, factor, simp)
         == Some("0" + ScaleParentheticals(LineRest(tail), factor, simp))
  {
    var lead := W + " " + N + "/" + D;
    TokenOfMixed(W, N, D, tail);
    MixedTrimmed(W, N, D);
    var q := ParseZeroMixed(W, N, D);
    AcceptedLine(lead, tail, q, factor, simp);
  }

  /** The zero mixed number parses, to zero. */
  lemma ParseZeroMixed(W: string, N: string, D: string) returns (q: Rat)
    requires |W| > 0 && AllDigits(W) && DigitsValue(W) == 0
    requires |N| > 0 && AllDigits(N) && DigitsValue(N) == 0
    requires |D| > 0 && AllDigits(D) && DigitsValue(D) != 0
    ensures ParseFractionString(W + " " + N + "/" + D) == Some(q) && q.num == 0
  {
    MixedPartsOfPieces(W, " ", N, D);
    q := ParseFractionString(W + " " + N + "/" + D).value;
  }

  /** A line whose leading token parses is scaled from that amount. */
  lemma AcceptedLine(lead: string, tail: string, q: Rat, factor: Rat, simp: Rat -> Rat)
    requires |lead| > 0 && TokenLen(lead + tail) == |lead|
    requires Trimmed(lead) && ParseFractionString(lead) == Some(q)
    ensures ScaleRawString(lead + tail, factor, simp)
         == Some(FormatFraction(Mul(q, factor), simp) + ScaleParentheticals(LineRest(tail), factor, simp))
  {
    SplitParts(lead, tail);
    TrimOfTrimmed(lead);
  }

  /** A line led by a ratio with a zero denominator scales to null. */
  lemma ScaleZeroDenominatorLine(N: string, D: string, tail: string, factor: Rat, simp: Rat -> Rat)
    requires |N| > 0 && AllDigits(N) && |D| > 0 && AllDigits(D) && DigitsValue(D) == 0
    requires SafeTail(tail)
    ensures ScaleRawString(N + "/" + D + tail, factor, simp) == None
  {
    var lead := N + "/" + D;
    TokenOfRatio(N, D, tail);
    RatioHasNoSpace(N, D);
    assert lead[|lead| - 1] == D[|D| - 1];
    DigitNotSpecial(lead[0]);
    DigitNotSpecial(D[|D| - 1]);
    ParseRejectsZeroDenominator(N, D);
    RejectedLine(lead, tail, factor, simp);
  }

  // ---------------------------------------------------------------------------
  // scaling by one

  /** At factor one, a line that starts with a quantity as `formatFraction`
      writes it, followed by text that cannot lengthen the quantity and has no
      parenthesis or line break, is its own scaled form. */
  lemma ScaleRawAtOne(q: Rat, tail: string, simp: Rat -> Rat)
    requires q.num > 0
    requires q.den == 1 || simp(q) == q
    requires SafeTail(tail) && '(' !in tail && NoLineTerminator(tail)
    ensures ScaleRawString(FormatFraction(q, simp) + tail, One, simp) == Some(FormatFraction(q, simp) + tail)
  {
    ToFractionStringOfPositive(q);
    assert FormatFraction(q, simp) == ToFractionString(q);
    ScaleWrittenLine(q, tail, One, simp);
    MulOne(q);
    ScaleParentheticalsWithoutParen(tail, One, simp);
  }

  lemma {:induction false} LineRestWhole(s: string)
    requires NoLineTerminator(s)
    ensures LineRest(s) == s
  {
    if s != [] {
      assert !IsLineTerminator(s[0]);
      LineRestWhole(s[1..]);
    }
  }

  /** A written quantity neither starts nor ends with whitespace. */
  lemma FormattedIsTrimmed(q: Rat, simp: Rat -> Rat)
    requires q.num > 0
    requires q.den == 1 || simp(q) == q
    ensures Trimmed(FormatFraction(q, simp))
  {
    ToFractionStringOfPositive(q);
    WrittenIsTrimmed(q);
  }

  /** At factor one, an ingredient whose amount is a written quantity comes
      back as that quantity followed by its parts. */
  lemma ScaleIngredientAtOne(q: Rat, ing: Ingredient, simp: Rat -> Rat)
    requires q.num > 0
    requires q.den == 1 || simp(q) == q
    requires ing.amount == Some(FormatFraction(q, simp))
    ensures ScaleIngredient(ing, One, simp) == Some(StructuredLine(FormatFraction(q, simp), ing))
  {
    var f := FormatFraction(q, simp);
    FormattedIsTrimmed(q, simp);
    TrimOfTrimmed(f);
    FormatParseRoundTrip(q, simp);
    MulOne(q);
  }

  lemma GcdWithOne(n: nat)
    ensures Gcd(n, 1) == 1
  {
    assert n % 1 == 0;
    assert Gcd(1, 0) == 1;
  }

  lemma MulWhole(n: nat, k: nat)
    ensures IsReduced(Frac(n * k, 1))
    ensures Mul(Frac(n, 1), Frac(k, 1)) == Frac(n * k, 1)
  {
    GcdWithOne(n);
    GcdWithOne(k);
    GcdWithOne(n * k);
    CanonicalUnique(Mul(Frac(n, 1), Frac(k, 1)), Frac(n * k, 1));
  }

  lemma ParseWholeToken(n: nat)
    requires n > 0
    ensures ParseFractionString(Trim(NatToString(n))) == Some(Frac(n, 1))
  {
    var s := NatToString(n);
    DigitNotSpecial(s[0]);
    DigitNotSpecial(s[|s| - 1]);
    TrimOfTrimmed(s);
    ParseWhole(n);
  }

  /** A whole quantity scaled by a whole factor is written as the exact
      product. */
  lemma ScaleWholeToken(n: nat, k: nat, simp: Rat -> Rat)
    requires n > 0 && k > 0
    ensures ScaleToken(NatToString(n), false, Frac(k, 1), simp) == NatToString(n * k)
  {
    GcdWithOne(k);
    ParseWholeToken(n);
    MulWhole(n, k);
    assert n * k > 0;
  }
}

=== FILE: scaler_examples.dfy ===
/** The examples documented on `scaleRawString` and `scaleIngredient`, at
    twice the servings. Each is worked out from the general lemmas: the
    leading quantity is written as `toFraction(true)` writes it, the text
    after it cannot lengthen it, and the product is written back. */
module ScalerExamples {
  import opened Wrappers
  import opened Text
  import opened Rational
  import opened Quantity
  import opened Schema
  import opened Scaler

  const Two: Rat := Frac(2, 1)

  // ---------------------------------------------------------------------------
  // values and how they are written

  lemma Reduced()
    ensures IsReduced(Frac(3, 2)) && IsReduced(Frac(1, 4)) && IsReduced(Frac(1, 2))
    ensures IsReduced(Frac(29, 4)) && IsReduced(Frac(29, 2))
  {
    assert Gcd(3, 2) == Gcd(2, 1) == Gcd(1, 0) == 1;
    assert Gcd(1, 4) == Gcd(4, 1) == Gcd(1, 0) == 1;
    assert Gcd(1, 2) == Gcd(2, 1) == Gcd(1, 0) == 1;
    assert Gcd(29, 4) == Gcd(4, 1) == Gcd(1, 0) == 1;
    assert Gcd(29, 2) == Gcd(2, 1) == Gcd(1, 0) == 1;
  }

  lemma Digits()
    ensures NatToString(0) == "0" && NatToString(1) == "1" && NatToString(2) == "2"
    ensures NatToString(3) == "3" && NatToString(4) == "4" && NatToString(7) == "7"
    ensures NatToString(14) == "14"
  {
    assert NatToString(1) == "1";
  }

  lemma WrittenOneAndAHalf()
    ensures ToFractionString(Frac(3, 2)) == "1 1/2"
  {
    Reduced();
    Digits();
    ToFractionStringOfPositive(Frac(3, 2));
    assert "1" + " " + "1" + "/" + "2" == "1 1/2";
  }

  lemma WrittenQuarter()
    ensures ToFractionString(Frac(1, 4)) == "1/4"
  {
    Reduced();
    Digits();
    ToFractionStringOfPositive(Frac(1, 4));
    assert "1" + "/" + "4" == "1/4";
  }

  lemma WrittenHalf(simp: Rat -> Rat)
    requires simp(Frac(1, 2)) == Frac(1, 2)
    ensures FormatFraction(Frac(1, 2), simp) == "1/2"
  {
    Reduced();
    Digits();
    ToFractionStringOfPositive(Frac(1, 2));
    assert "1" + "/" + "2" == "1/2";
  }

  lemma WrittenSevenAndAQuarter()
    ensures ToFractionString(Frac(29, 4)) == "7 1/4"
  {
    Reduced();
    Digits();
    ToFractionStringOfPositive(Frac(29, 4));
    assert "7" + " " + "1" + "/" + "4" == "7 1/4";
  }

  lemma WrittenFourteenAndAHalf(simp: Rat -> Rat)
    requires simp(Frac(29, 2)) == Frac(29, 2)
    ensures FormatFraction(Frac(29, 2), simp) == "14 1/2"
  {
    Reduced();
    Digits();
    ToFractionStringOfPositive(Frac(29, 2));
    assert "14" + " " + "1" + "/" + "2" == "14 1/2";
  }

  lemma WrittenWhole(n: nat, simp: Rat -> Rat)
    requires n > 0
    ensures IsReduced(Frac(n, 1))
    ensures ToFractionString(Frac(n, 1)) == NatToString(n)
    ensures FormatFraction(Frac(n, 1), simp) == NatToString(n)
  {
    GcdWithOne(n);
    ToFractionStringOfPositive(Frac(n, 1));
  }

  lemma Products()
    ensures Mul(Frac(3, 2), Two) == Frac(3, 1)
    ensures Mul(Two, Two) == Frac(4, 1)
    ensures Mul(Frac(1, 4), Two) == Frac(1, 2)
    ensures Mul(Frac(29, 4), Two) == Frac(29, 2)
  {
    Reduced();
    GcdWithOne(3);
    GcdWithOne(4);
    CanonicalUnique(Mul(Frac(3, 2), Two), Frac(3, 1));
    CanonicalUnique(Mul(Two, Two), Frac(4, 1));
    CanonicalUnique(Mul(Frac(1, 4), Two), Frac(1, 2));
    CanonicalUnique(Mul(Frac(29, 4), Two), Frac(29, 2));
  }

  // ---------------------------------------------------------------------------
  // what follows the leading quantity (one fact per lemma, so that each
  // literal is examined on its own)

  lemma NoLineTerminatorAppend(a: string, b: string)
    requires NoLineTerminator(a) && NoLineTerminator(b)
    ensures NoLineTerminator(a + b)
  {
    forall i | 0 <= i < |a + b| ensures !IsLineTerminator((a + b)[i]) {
      if i < |a| { assert (a + b)[i] == a[i]; } else { assert (a + b)[i] == b[i - |a|]; }
    }
  }

  /** A space, then a letter: the run of spaces is one long. */
  lemma SpaceThenLetter(tail: string)
    requires |tail| >= 2 && tail[0] == ' ' && IsAsciiLetter(tail[1])
    ensures SafeTail(tail)
  {
    assert tail[1..][0] == tail[1];
    assert SpaceRun(tail) == 1;
  }

  lemma FlourSafe() ensures SafeTail(" cups flour") { SpaceThenLetter(" cups flour"); }
  lemma FlourPlain() ensures NoLineTerminator(" cups flour") && '(' !in " cups flour" {}
  lemma EggsSafe() ensures SafeTail(" large eggs") { SpaceThenLetter(" large eggs"); }
  lemma EggsPlain() ensures NoLineTerminator(" large eggs") && '(' !in " large eggs" {}
  lemma ButterSafe() ensures SafeTail(" cup butter") { SpaceThenLetter(" cup butter"); }
  lemma ButterPlain() ensures NoLineTerminator(" cup butter") && '(' !in " cup butter" {}
  lemma CupsSafe() ensures SafeTail(" cups") { SpaceThenLetter(" cups"); }
  lemma CupSafe() ensures SafeTail(" cup") { SpaceThenLetter(" cup"); }

  // ---------------------------------------------------------------------------
  // the raw path

  /** "1 1/2 cups flour" becomes "3 cups flour": the mixed number is one
      token, and the whole product is written as an integer. */
  lemma ExampleMixedBecomesWhole(simp: Rat -> Rat)
    ensures ScaleRawString("1 1/2" + " cups flour", Two, simp) == Some("3" + " cups flour")
  {
    Reduced();
    WrittenOneAndAHalf();
    FlourSafe();
    FlourPlain();
    ScaleWrittenLine(Frac(3, 2), " cups flour", Two, simp);
    ScaleParentheticalsWithoutParen(" cups flour", Two, simp);
    Products();
    WrittenWhole(3, simp);
    Digits();
  }

  /** "2 large eggs" becomes "4 large eggs". */
  lemma ExampleWholeDoubles(simp: Rat -> Rat)
    ensures ScaleRawString("2" + " large eggs", Two, simp) == Some("4" + " large eggs")
  {
    WrittenWhole(2, simp);
    Digits();
    EggsSafe();
    EggsPlain();
    ScaleWrittenLine(Two, " large eggs", Two, simp);
    ScaleParentheticalsWithoutParen(" large eggs", Two, simp);
    Products();
    WrittenWhole(4, simp);
  }

  /** "salt to taste" has no leading quantity: null. */
  lemma ExampleNoQuantity(factor: Rat, simp: Rat -> Rat)
    ensures ScaleRawString("salt to taste", factor, simp) == None
  {
  }

  /** "1/4 cup butter" becomes "1/2 cup butter" (when `simplify(0.05)`
      leaves 1/2 as it is). */
  lemma ExampleFractionDoubles(simp: Rat -> Rat)
    requires simp(Frac(1, 2)) == Frac(1, 2)
    ensures ScaleRawString("1/4" + " cup butter", Two, simp) == Some("1/2" + " cup butter")
  {
    Reduced();
    WrittenQuarter();
    ButterSafe();
    ButterPlain();
    ScaleWrittenLine(Frac(1, 4), " cup butter", Two, simp);
    ScaleParentheticalsWithoutParen(" cup butter", Two, simp);
    Products();
    WrittenHalf(simp);
  }

  /** "0 cups": zero is not a usable amount, so the line scales to null. */
  lemma ExampleZeroRejected(factor: Rat, simp: Rat -> Rat)
    ensures ScaleRawString("0" + " cups", factor, simp) == None
  {
    assert AllDigits("0") && DigitsValue("0") == 0;
    CupsSafe();
    ScaleZeroLine("0", " cups", factor, simp);
  }

  /** "1/0 cup": a zero denominator makes the line scale to null. */
  lemma ExampleZeroDenominatorRejected(factor: Rat, simp: Rat -> Rat)
    ensures ScaleRawString("1" + "/" + "0" + " cup", factor, simp) == None
  {
    assert AllDigits("1") && AllDigits("0") && DigitsValue("0") == 0;
    CupSafe();
    ScaleZeroDenominatorLine("1", "0", " cup", factor, simp);
  }

  /** "0 0/3 cups": a mixed number of value zero passes the parser, so the
      line scales to "0 cups" at any factor. */
  lemma ExampleZeroMixedKept(factor: Rat, simp: Rat -> Rat)
    ensures ScaleRawString("0" + " " + "0" + "/" + "3" + " cups", factor, simp) == Some("0" + " cups")
  {
    ZeroThree();
    CupsSafe();
    CupsPlain(factor, simp);
    ScaleZeroMixedLine("0", "0", "3", " cups", factor, simp);
  }

  lemma ZeroThree()
    ensures AllDigits("0") && DigitsValue("0") == 0
    ensures AllDigits("3") && DigitsValue("3") == 3
  {
  }

  lemma CupsPlain(factor: Rat, simp: Rat -> Rat)
    ensures ScaleParentheticals(LineRest(" cups"), factor, simp) == " cups"
  {
    LineRestWhole(" cups");
    ScaleParentheticalsWithoutParen(" cups", factor, simp);
  }

  // ---------------------------------------------------------------------------
  // "7 1/4 ounces white sugar (1 cup; 205g)" -> "14 1/2 ounces white sugar (2 cup; 410g)"

  lemma SugarSafe() ensures SafeTail(" ounces white sugar " + "(1 cup; 205g)")
  {
    SpaceThenLetter(" ounces white sugar " + "(1 cup; 205g)");
  }

  lemma SugarWordsPlain() ensures NoLineTerminator(" ounces white sugar ") && '(' !in " ounces white sugar " {}
  lemma SugarGroupPlain() ensures NoLineTerminator("(1 cup; 205g)") {}

  lemma SugarPlain() ensures NoLineTerminator(" ounces white sugar " + "(1 cup; 205g)")
  {
    SugarWordsPlain();
    SugarGroupPlain();
    NoLineTerminatorAppend(" ounces white sugar ", "(1 cup; 205g)");
  }

  lemma ScaledOne(simp: Rat -> Rat)
    ensures ScaleToken("1", false, Two, simp) == "2"
  {
    Digits();
    ScaleWholeToken(1, 2, simp);
  }

  lemma Scaled205(simp: Rat -> Rat)
    ensures ScaleToken("205", false, Two, simp) == "410"
  {
    assert NatToString(205) == "205" by { assert NatToString(20) == "20"; }
    assert NatToString(410) == "410" by { assert NatToString(41) == "41"; }
    ScaleWholeToken(205, 2, simp);
  }

  lemma CupSemicolonSafe() ensures SafeTail(" cup; 205g") { SpaceThenLetter(" cup; 205g"); }
  lemma CupSemicolonPlain() ensures forall i :: 0 <= i < |" cup; "| ==> !IsDigit(" cup; "[i]) {}
  /** One space, then a visible character: skipping spaces drops the one. */
  lemma SkipOneSpace(t: string)
    requires t != [] && !IsSpace(t[0])
    ensures SkipSpaces(" " + t) == t
  {
    assert (" " + t)[1..] == t;
  }

  lemma CupSemicolonNoTemperature() ensures !TemperatureAhead(" cup; 205g")
  {
    assert " cup; 205g" == " " + "cup; 205g";
    SkipOneSpace("cup; 205g");
  }

  lemma TokenOne()
    ensures TokenLen("1" + " cup; 205g") == 1
  {
    CupSemicolonSafe();
    assert AllDigits("1");
    TokenOfWhole("1", " cup; 205g");
  }

  lemma Token205()
    ensures TokenLen("205" + "g") == 3 && !TemperatureAhead("g")
  {
    assert AllDigits("205");
    TokenOfWhole("205", "g");
  }

  lemma InnerLetter(c: char, simp: Rat -> Rat)
    requires !IsDigit(c)
    ensures ScaleInner([c], Two, simp) == [c] + ""
  {
    ScaleInnerPlain([c], "", Two, simp);
    assert [c] + "" == [c];
  }

  lemma Inner205(simp: Rat -> Rat)
    ensures ScaleInner("205" + "g", Two, simp) == "410" + ("g" + "")
  {
    Token205();
    Scaled205(simp);
    ScaleInnerToken("205", "g", Two, simp);
    InnerLetter('g', simp);
  }

  lemma SugarInnerPieces()
    ensures "1 cup; 205g" == "1" + " cup; 205g"
    ensures " cup; 205g" == " cup; " + ("205" + "g")
  {
  }

  /** Both numbers inside the parentheses are scaled. */
  lemma SugarInner(simp: Rat -> Rat)
    ensures ScaleInner("1 cup; 205g", Two, simp) == "2" + (" cup; " + ("410" + ("g" + "")))
  {
    SugarInnerPieces();
    CupSemicolonPlain();
    CupSemicolonNoTemperature();
    TokenOne();
    ScaledOne(simp);
    Inner205(simp);
    ScaleInnerToken("1", " cup; 205g", Two, simp);
    ScaleInnerPlain(" cup; ", "205" + "g", Two, simp);
  }

  lemma SugarGroupPieces()
    ensures "(1 cup; 205g)" == "(" + "1 cup; 205g" + ")" + ""
    ensures ')' !in "1 cup; 205g"
    ensures "(" + ("2" + (" cup; " + ("410" + ("g" + "")))) + ")" + "" == "(2 cup; 410g)"
  {
  }

  lemma SugarGroup(simp: Rat -> Rat)
    ensures ScaleParentheticals(" ounces white sugar " + "(1 cup; 205g)", Two, simp)
         == " ounces white sugar " + "(2 cup; 410g)"
  {
    SugarGroupPieces();
    SugarWordsPlain();
    SugarInner(simp);
    assert ScaleParentheticals("", Two, simp) == "";
    ScaleParentheticalsGroup(" ounces white sugar ", "1 cup; 205g", "", Two, simp);
  }

  /** The leading mixed number and the numbers in parentheses are all
      doubled (when `simplify(0.05)` leaves 29/2 as it is). */
  lemma ExampleParentheticalScaled(simp: Rat -> Rat)
    requires simp(Frac(29, 2)) == Frac(29, 2)
    ensures ScaleRawString("7 1/4" + (" ounces white sugar " + "(1 cup; 205g)"), Two, simp)
         == Some("14 1/2" + (" ounces white sugar " + "(2 cup; 410g)"))
  {
    Reduced();
    WrittenSevenAndAQuarter();
    SugarSafe();
    SugarPlain();
    ScaleWrittenLine(Frac(29, 4), " ounces white sugar " + "(1 cup; 205g)", Two, simp);
    Products();
    WrittenFourteenAndAHalf(simp);
    SugarGroup(simp);
  }

  // ---------------------------------------------------------------------------
  // temperatures are kept

  lemma DegreesSafe() ensures SafeTail(" °F")
  {
    assert " °F"[1..] == "°F";
    assert SpaceRun(" °F") == 1;
  }

  lemma DegreesAhead() ensures TemperatureAhead(" °F")
  {
    assert " °F" == " " + "°F";
    SkipOneSpace("°F");
  }

  lemma TemperatureToken()
    ensures TokenLen("350" + " °F") == 3
  {
    DegreesSafe();
    assert AllDigits("350");
    TokenOfWhole("350", " °F");
  }

  lemma TemperaturePieces()
    ensures "heat to 350 °F" == "heat to " + ("350" + " °F")
    ensures forall i :: 0 <= i < |"heat to "| ==> !IsDigit("heat to "[i])
    ensures forall i :: 0 <= i < |" °F"| ==> !IsDigit(" °F"[i])
    ensures "350" + (" °F" + "") == "350" + " °F"
  {
  }

  lemma TemperatureInner(factor: Rat, simp: Rat -> Rat)
    ensures ScaleInner("heat to 350 °F", factor, simp) == "heat to 350 °F"
  {
    TemperaturePieces();
    TemperatureToken();
    DegreesAhead();
    ScaleInnerPlain("heat to ", "350" + " °F", factor, simp);
    ScaleInnerToken("350", " °F", factor, simp);
    ScaleInnerPlain(" °F", "", factor, simp);
  }

  lemma TemperatureGroupPieces()
    ensures "(heat to 350 °F)" == "(" + "heat to 350 °F" + ")" + ""
    ensures ')' !in "heat to 350 °F"
  {
  }

  /** A temperature inside parentheses is kept at any factor. */
  lemma ExampleTemperatureKept(factor: Rat, simp: Rat -> Rat)
    ensures ScaleParentheticals(" " + "(heat to 350 °F)", factor, simp) == " " + "(heat to 350 °F)"
  {
    TemperatureGroupPieces();
    TemperatureInner(factor, simp);
    ScaleParentheticalsGroup(" ", "heat to 350 °F", "", factor, simp);
    assert ScaleParentheticals("", factor, simp) == "";
  }

  // ---------------------------------------------------------------------------
  // the structured path

  lemma FlourAmount()
    ensures ParseFractionString(Trim("1 1/2")) == Some(Frac(3, 2))
  {
    Reduced();
    WrittenOneAndAHalf();
    WrittenIsTrimmed(Frac(3, 2));
    TrimOfTrimmed("1 1/2");
    WrittenRoundTrip(Frac(3, 2));
  }

  /** An ingredient with amount "1 1/2", unit "cups", name "flour" and
      notes "sifted" becomes "3 cups flour, sifted"; its raw text is not
      read. */
  lemma ExampleStructured(raw: string, simp: Rat -> Rat)
    ensures ScaleIngredient(Ingredient(raw, Some("1 1/2"), Some("cups"), Some("flour"), Some("sifted")), Two, simp)
         == Some("3" + (" " + "cups" + (" " + "flour") + (", " + "sifted")))
  {
    var ing := Ingredient(raw, Some("1 1/2"), Some("cups"), Some("flour"), Some("sifted"));
    FlourIngredient(ing);
    ThreeCups(simp);
    FlourDescriptors(ing);
  }

  lemma FlourDescriptors(ing: Ingredient)
    requires ing.unit == Some("cups") && ing.name == Some("flour") && ing.notes == Some("sifted")
    ensures Descriptors(ing) == " " + "cups" + (" " + "flour") + (", " + "sifted")
  {
    assert Present(ing.unit) && Present(ing.name) && Present(ing.notes);
  }

  lemma FlourIngredient(ing: Ingredient)
    requires ing.amount == Some("1 1/2")
    ensures StructuredAmount(ing) == Some(Frac(3, 2))
  {
    FlourAmount();
    assert Trim("1 1/2") != "";
  }

  lemma ThreeCups(simp: Rat -> Rat)
    ensures FormatFraction(Mul(Frac(3, 2), Two), simp) == "3"
  {
    Products();
    WrittenWhole(3, simp);
    Digits();
  }
}

=== FILE: schema.dfy ===
/** The stored shapes of a recipe's ingredient lines and instruction steps
    (db/schema.ts), shared by the scaler, the extractors and the forms. */
module Schema {
  import opened Wrappers

  /** One ingredient line: the text as written, and optionally its parsed
      parts. */
  datatype Ingredient = Ingredient(
    raw: string,
    amount: Option<string>,
    unit: Option<string>,
    name: Option<string>,
    notes: Option<string>)

  /** A numbered instruction step. */
  datatype InstructionStep = InstructionStep(step: int, text: string)

  /** JavaScript truthiness of an optional string: present and non-empty. */
  predicate Present(s: Option<string>) { s.Some? && s.value != "" }
}

=== FILE: scrape.dfy ===
/** `scrapeRecipeFromHtml` and `scrapeRecipeFromUrl` (lib/recipe-scraper.ts):
    how the outcome of an import is classified once the page has been
    fetched and parsed. The HTML parser and `fetch` are not modelled: a page
    is the list of its `ld+json` scripts, each parsed or malformed, and the
    meta strings the code reads; a fetch is its response or a throw. */
module Scrape {
  import opened Wrappers
  import opened Text
  import opened JsonValue
  import opened Schema
  import opened Entities
  import opened Extractor

  /** What the code reads from a page: every `ld+json` script (None when
      `JSON.parse` throws on it), the `<title>` text, and the `og:title`,
      `og:site_name`, `og:image` and `og:description` meta contents. */
  datatype Page = Page(
    scripts: seq<Option<Json>>,
    title: Option<string>,
    ogTitle: Option<string>,
    siteName: Option<string>,
    ogImage: Option<string>,
    ogDescription: Option<string>)

  /** An import's outcome: the recipe for the review form, and an error. */
  datatype Scraped = Scraped(recipe: Option<ScrapedRecipe>, error: Option<string>)

  const NoStructuredData := "Could not parse recipe structured data. Please fill in manually."
  const Blocked := "blocked"
  const FetchFailed := "Failed to fetch URL"

  /** The scripts that parsed, in page order; malformed ones are skipped. */
  function Parsed(scripts: seq<Option<Json>>): (r: seq<Json>)
    ensures |r| <= |scripts|
    ensures forall i :: 0 <= i < |scripts| && scripts[i].Some? ==> scripts[i].value in r
    ensures forall x :: x in r ==> Some(x) in scripts
  {
    if scripts == [] then []
    else
      var rest := Parsed(scripts[1..]);
      assert forall x :: x in rest ==> Some(x) in scripts[1..];
      if scripts[0].Some? then [scripts[0].value] + rest else rest
  }

  lemma {:induction false} ParsedAppend(a: seq<Option<Json>>, b: seq<Option<Json>>)
    ensures Parsed(a + b) == Parsed(a) + Parsed(b)
  {
    if a == [] {
      assert a + b == b;
    } else {
      assert (a + b)[0] == a[0] && (a + b)[1..] == a[1..] + b;
      ParsedAppend(a[1..], b);
    }
  }

  /** A malformed script anywhere changes nothing. */
  lemma MalformedSkipped(a: seq<Option<Json>>, b: seq<Option<Json>>)
    ensures Parsed(a + [None] + b) == Parsed(a + b)
  {
    ParsedAppend(a + [None], b);
    ParsedAppend(a, [None]);
    ParsedAppend(a, b);
    assert Parsed([None]) == [];
  }

  /** The page title: the trimmed `<title>` when it is not empty, otherwise
      `og:title`; entity-decoded, and absent when empty. */
  function PageTitle(page: Page, fromCharCode: nat -> string): (r: Option<string>)
    ensures page.title.Some? && Trim(page.title.value) != "" ==>
      r == Some(DecodeHtmlEntities(Trim(page.title.value), fromCharCode))
    ensures (page.title.None? || Trim(page.title.value) == "") ==>
      r == if Present(page.ogTitle) then Some(DecodeHtmlEntities(page.ogTitle.value, fromCharCode)) else None
  {
    var raw := if page.title.Some? && Trim(page.title.value) != "" then Some(Trim(page.title.value)) else page.ogTitle;
    if Present(raw) then Some(DecodeHtmlEntities(raw.value, fromCharCode)) else None
  }

  /** The recipe offered when no structured data is found: the page's
      title, description and image, and nothing else. */
  function Fallback(page: Page, fromCharCode: nat -> string): ScrapedRecipe {
    ScrapedRecipe(
      PageTitle(page, fromCharCode),
      if Present(page.ogDescription) then page.ogDescription else None,
      [], [], None, None, None,
      if Present(page.ogImage) then Some(Str(page.ogImage.value)) else None,
      page.siteName,
      None)
  }

  /** `scrapeRecipeFromHtml` (the diagnostic `rawPayload` aside): the
      recipe the scripts hold, or the page's fallback with an error asking
      for manual entry. It throws when the extraction does. */
  function ScrapeFromHtml(page: Page, host: Host): (r: Outcome<Scraped>)
    ensures r.Throws? <==>
      ExtractFromScripts(Parsed(page.scripts), Meta(PageTitle(page, host.fromCharCode), page.ogImage, page.siteName), Server, host).Throws?
    ensures r.Done? ==> r.value.recipe.Some?
    ensures r.Done? ==> r.value.error.None? || r.value.error == Some(NoStructuredData)
    ensures r.Done? && r.value.error.Some? ==>
      var recipe := r.value.recipe.value;
      recipe.ingredients == [] && recipe.instructions == [] && recipe.tags.None?
      && recipe.title == PageTitle(page, host.fromCharCode) && recipe.sourceName == page.siteName
    ensures r.Done? ==> r.value.recipe.value.sourceName == page.siteName
  {
    var meta := Meta(PageTitle(page, host.fromCharCode), page.ogImage, page.siteName);
    var found :- ExtractFromScripts(Parsed(page.scripts), meta, Server, host);
    if found.Some? then Done(Scraped(found, None))
    else Done(Scraped(Some(Fallback(page, host.fromCharCode)), Some(NoStructuredData)))
  }

  /** The error is absent exactly when some parsed script holds a recipe
      node the search visits. */
  lemma ScrapeFoundIff(page: Page, host: Host)
    requires ScrapeFromHtml(page, host).Done?
    ensures ScrapeFromHtml(page, host).value.error.None? <==> !NoRecipeIn(Arr(Parsed(page.scripts)))
  {
    ExtractNothing(Parsed(page.scripts), Meta(PageTitle(page, host.fromCharCode), page.ogImage, page.siteName), Server, host);
  }

  /** Inserting a malformed script leaves the outcome as it was. */
  lemma ScrapeIgnoresMalformed(page: Page, a: seq<Option<Json>>, b: seq<Option<Json>>, host: Host)
    requires page.scripts == a + b
    ensures ScrapeFromHtml(page.(scripts := a + [None] + b), host) == ScrapeFromHtml(page, host)
  {
    MalformedSkipped(a, b);
  }

  // ---------------------------------------------------------------------------
  // scrapeRecipeFromUrl

  /** What `fetch` and `response.text()` gave: a throw (network failure,
      timeout, unreadable body), or a response with its status and the page
      its body parses to. */
  datatype Fetch = Failed | Response(status: nat, statusText: string, page: Page)

  /** `response.ok`: a 2xx status. */
  predicate Ok(f: Fetch) requires f.Response? { 200 <= f.status <= 299 }

  /** The error of a response that is not ok. */
  function StatusError(status: nat, statusText: string): (r: string)
    ensures r == Blocked <==> status == 403
  {
    if status == 403 then Blocked
    else
      var r := "HTTP " + NatToString(status) + ": " + statusText;
      assert r[0] == 'H' != Blocked[0];
      r
  }

  /** `scrapeRecipeFromUrl` (the diagnostic `rawPayload` aside). */
  function ScrapeFromUrl(f: Fetch, host: Host): (r: Outcome<Scraped>)
    ensures f.Failed? ==> r == Done(Scraped(None, Some(FetchFailed)))
    ensures f.Response? && !Ok(f) ==> r.Done? && r.value.recipe.None?
    ensures f.Response? && !Ok(f) && f.status != 403 ==>
      r.value.error == Some("HTTP " + NatToString(f.status) + ": " + f.statusText)
    ensures f.Response? && Ok(f) ==> r == ScrapeFromHtml(f.page, host)
  {
    match f
    case Failed => Done(Scraped(None, Some(FetchFailed)))
    case Response(status, statusText, page) =>
      if !Ok(f) then Done(Scraped(None, Some(StatusError(status, statusText))))
      else ScrapeFromHtml(page, host)
  }

  /** The `"blocked"` sentinel means exactly a 403 response. */
  lemma BlockedIff(f: Fetch, host: Host)
    requires ScrapeFromUrl(f, host).Done?
    ensures ScrapeFromUrl(f, host).value.error == Some(Blocked) <==> f.Response? && f.status == 403
  {
    if f.Failed? {
      assert |FetchFailed| != |Blocked|;
    } else if Ok(f) {
      var h := ScrapeFromHtml(f.page, host);
      assert h.value.error.None? || h.value.error == Some(NoStructuredData);
      assert |NoStructuredData| != |Blocked|;
    }
  }

  /** No recipe at all exactly when the fetch threw or the status was not
      2xx; a page that was read always yields one. */
  lemma NoRecipeIff(f: Fetch, host: Host)
    requires ScrapeFromUrl(f, host).Done?
    ensures ScrapeFromUrl(f, host).value.recipe.None? <==> f.Failed? || !Ok(f)
  {
  }
}

=== FILE: text.dfy ===
/** String primitives with JavaScript's meaning: the `\s` class, `trim`,
    `/\s+/g` collapsing, ASCII case folding, `includes`, `startsWith`,
    `split`, decimal rendering and `parseInt`. */
module Text {
  import opened Wrappers

  /** `\d` in a JavaScript regular expression. */
  predicate IsDigit(c: char) { '0' <= c <= '9' }

  /** `[a-zA-Z]`. */
  predicate IsAsciiLetter(c: char) { 'a' <= c <= 'z' || 'A' <= c <= 'Z' }

  /** `\s` in a JavaScript regular expression; also the set of characters
      `String.prototype.trim` and `parseInt` skip. */
  predicate IsSpace(c: char) {
    || c == ' ' || c == '\t' || c == '\n' || c == '\U{B}' || c == '\U{C}' || c == '\r'
    || c == '\U{A0}' || c == '\U{1680}' || ('\U{2000}' <= c <= '\U{200A}')
    || c == '\U{2028}' || c == '\U{2029}' || c == '\U{202F}' || c == '\U{205F}'
    || c == '\U{3000}' || c == '\U{FEFF}'
  }

  /** The characters `.` refuses in a JavaScript regular expression. */
  predicate IsLineTerminator(c: char) {
    c == '\n' || c == '\r' || c == '\U{2028}' || c == '\U{2029}'
  }

  predicate AllSpace(s: string) { forall i :: 0 <= i < |s| ==> IsSpace(s[i]) }

  predicate AllDigits(s: string) { forall i :: 0 <= i < |s| ==> IsDigit(s[i]) }

  predicate NoLineTerminator(s: string) { forall i :: 0 <= i < |s| ==> !IsLineTerminator(s[i]) }

  /** Ends without white space: what `trim` produces. */
  predicate Trimmed(s: string) { s == [] || (!IsSpace(s[0]) && !IsSpace(s[|s| - 1])) }

  // ---------------------------------------------------------------------------
  // trim

  function TrimStart(s: string): (r: string)
    ensures |r| <= |s| && r == s[|s| - |r|..]
    ensures AllSpace(s[..|s| - |r|])
    ensures r == [] || !IsSpace(r[0])
  {
    if |s| > 0 && IsSpace(s[0]) then
      var r := TrimStart(s[1..]);
      TrimStartStep(s, r);
      r
    else s
  }

  lemma TrimStartStep(s: string, r: string)
    requires |s| > 0 && IsSpace(s[0])
    requires |r| <= |s| - 1 && r == s[1..][|s| - 1 - |r|..] && AllSpace(s[1..][..|s| - 1 - |r|])
    ensures r == s[|s| - |r|..] && AllSpace(s[..|s| - |r|])
  {
    assert s[..|s| - |r|] == [s[0]] + s[1..][..|s| - 1 - |r|];
  }

  function TrimEnd(s: string): (r: string)
    ensures |r| <= |s| && r == s[..|r|]
    ensures AllSpace(s[|r|..])
    ensures r == [] || !IsSpace(r[|r| - 1])
  {
    if |s| > 0 && IsSpace(s[|s| - 1]) then
      var r := TrimEnd(s[..|s| - 1]);
      TrimEndStep(s, r);
      r
    else s
  }

  lemma TrimEndStep(s: string, r: string)
    requires |s| > 0 && IsSpace(s[|s| - 1])
    requires |r| <= |s| - 1 && r == s[..|s| - 1][..|r|] && AllSpace(s[..|s| - 1][|r|..])
    ensures r == s[..|r|] && AllSpace(s[|r|..])
  {
    assert s[|r|..] == s[..|s| - 1][|r|..] + [s[|s| - 1]];
  }

  /** `String.prototype.trim`. */
  function Trim(s: string): (r: string)
    ensures Trimmed(r)
    ensures |r| <= |s|
    ensures r == [] <==> AllSpace(s)
  {
    var a := TrimStart(s);
    var r := TrimEnd(a);
    TrimBoth(s, a, r);
    r
  }

  lemma TrimBoth(s: string, a: string, r: string)
    requires a == TrimStart(s) && r == TrimEnd(a)
    ensures Trimmed(r) && |r| <= |s|
    ensures r == [] <==> AllSpace(s)
  {
    if r != [] {
      assert r[0] == a[0];
    } else {
      assert AllSpace(a);
      assert s == s[..|s| - |a|] + a;
    }
  }

  /** Trimming removes only white space. */
  lemma VisibleTrim(s: string)
    ensures Visible(Trim(s)) == Visible(s)
  {
    VisibleTrimStart(s);
    VisibleTrimEnd(TrimStart(s));
  }

  lemma VisibleTrimStart(s: string)
    ensures Visible(TrimStart(s)) == Visible(s)
  {
    var a := TrimStart(s);
    var p := s[..|s| - |a|];
    assert s == p + a;
    VisibleAppend(p, a);
    VisibleOfSpaces(p);
  }

  lemma VisibleTrimEnd(a: string)
    ensures Visible(TrimEnd(a)) == Visible(a)
  {
    var r := TrimEnd(a);
    var q := a[|r|..];
    assert a == r + q;
    VisibleAppend(r, q);
    VisibleOfSpaces(q);
  }

  lemma TrimOfTrimmed(s: string)
    requires Trimmed(s)
    ensures Trim(s) == s
  {
  }

  // ---------------------------------------------------------------------------
  // `replace(/\s+/g, " ")`

  /** The input without its leading run of white space. */
  function SkipSpaces(s: string): (r: string)
    ensures |r| <= |s| && r == s[|s| - |r|..]
    ensures r == [] || !IsSpace(r[0])
    ensures AllSpace(s[..|s| - |r|])
  {
    TrimStart(s)
  }

  /** Every maximal run of white space replaced by one ' '. */
  function Collapse(s: string): (r: string)
    decreases |s|
  {
    if |s| == 0 then []
    else if IsSpace(s[0]) then [' '] + Collapse(SkipSpaces(s))
    else [s[0]] + Collapse(s[1..])
  }

  /** The non-white-space characters of a string, in order. */
  function Visible(s: string): string {
    if |s| == 0 then [] else (if IsSpace(s[0]) then [] else [s[0]]) + Visible(s[1..])
  }

  /** A string whose only white space is single ' ' characters. */
  predicate SingleSpaced(s: string) {
    && (forall i :: 0 <= i < |s| && IsSpace(s[i]) ==> s[i] == ' ')
    && (forall i :: 0 <= i < |s| - 1 ==> !(IsSpace(s[i]) && IsSpace(s[i + 1])))
  }

  lemma {:induction false} VisibleOfSpaces(s: string)
    requires AllSpace(s)
    ensures Visible(s) == []
  {
    if |s| > 0 { VisibleOfSpaces(s[1..]); }
  }

  lemma {:induction false} VisibleAppend(a: string, b: string)
    ensures Visible(a + b) == Visible(a) + Visible(b)
  {
    if |a| == 0 {
      assert a + b == b;
    } else {
      assert (a + b)[1..] == a[1..] + b;
      VisibleAppend(a[1..], b);
    }
  }

  /** Collapsing keeps every visible character, in order. */
  lemma {:induction false} CollapseVisible(s: string)
    ensures Visible(Collapse(s)) == Visible(s)
    decreases |s|
  {
    if |s| == 0 {
    } else if IsSpace(s[0]) {
      var t := SkipSpaces(s);
      CollapseVisible(t);
      assert s == s[..|s| - |t|] + t;
      VisibleAppend(s[..|s| - |t|], t);
      VisibleOfSpaces(s[..|s| - |t|]);
      VisibleAppend([' '], Collapse(t));
    } else {
      CollapseVisible(s[1..]);
      VisibleAppend([s[0]], Collapse(s[1..]));
    }
  }

  /** Collapsing keeps white space at the front exactly when the input has it. */
  lemma CollapseFirst(s: string)
    ensures Collapse(s) == [] <==> s == []
    ensures s != [] ==> (IsSpace(Collapse(s)[0]) <==> IsSpace(s[0]))
  {
  }

  /** Collapsing keeps white space at the back exactly when the input has it. */
  lemma {:induction false} CollapseLast(s: string)
    requires s != []
    ensures Collapse(s) != []
    ensures IsSpace(Collapse(s)[|Collapse(s)| - 1]) <==> IsSpace(s[|s| - 1])
    decreases |s|
  {
    CollapseFirst(s);
    if IsSpace(s[0]) {
      var t := SkipSpaces(s);
      if t == [] {
        assert IsSpace(s[|s| - 1]) by { assert s[|s| - 1] == s[..|s| - |t|][|s| - 1]; }
      } else {
        CollapseLast(t);
        assert s[|s| - 1] == t[|t| - 1];
      }
    } else if |s| > 1 {
      CollapseLast(s[1..]);
    }
  }

  /** Collapsing leaves only single ' ' characters as white space. */
  lemma {:induction false} CollapseSingleSpaced(s: string)
    ensures SingleSpaced(Collapse(s))
    decreases |s|
  {
    if |s| == 0 {
    } else if IsSpace(s[0]) {
      var t := SkipSpaces(s);
      CollapseSingleSpaced(t);
      CollapseFirst(t);
      var c := Collapse(t);
      assert Collapse(s) == [' '] + c;
    } else {
      CollapseSingleSpaced(s[1..]);
      var c := Collapse(s[1..]);
      assert Collapse(s) == [s[0]] + c;
    }
  }

  /** A single-spaced string has nothing to collapse. */
  lemma {:induction false} CollapseOfSingleSpaced(s: string)
    requires SingleSpaced(s)
    ensures Collapse(s) == s
    decreases |s|
  {
    if |s| > 0 {
      var t := s[1..];
      assert SingleSpaced(t) by {
        forall i | 0 <= i < |t| - 1 ensures !(IsSpace(t[i]) && IsSpace(t[i + 1])) {
          assert t[i] == s[i + 1] && t[i + 1] == s[i + 2];
        }
      }
      CollapseOfSingleSpaced(t);
      if IsSpace(s[0]) {
        assert t == [] || !IsSpace(t[0]);
        assert TrimStart(t) == t;
        assert SkipSpaces(s) == t;
      }
    }
  }

  lemma TrimmedCollapse(s: string)
    requires Trimmed(s)
    ensures Trimmed(Collapse(s))
    ensures Collapse(s) == [] <==> s == []
  {
    CollapseFirst(s);
    if s != [] { CollapseLast(s); }
  }

  // ---------------------------------------------------------------------------
  // ASCII case folding

  function LowerChar(c: char): char {
    if 'A' <= c <= 'Z' then (c as int + 32) as char else c
  }

  /** `toLowerCase`, for ASCII letters (other characters are kept). */
  function ToLower(s: string): (r: string)
    ensures |r| == |s|
    ensures forall i :: 0 <= i < |s| ==> r[i] == LowerChar(s[i])
  {
    seq(|s|, i requires 0 <= i < |s| => LowerChar(s[i]))
  }

  // ---------------------------------------------------------------------------
  // `startsWith`, `includes`

  predicate StartsWith(s: string, prefix: string) {
    |prefix| <= |s| && s[..|prefix|] == prefix
  }

  predicate EndsWith(s: string, suffix: string) {
    |suffix| <= |s| && s[|s| - |suffix|..] == suffix
  }

  predicate OccursAt(s: string, sub: string, i: int) {
    0 <= i && i + |sub| <= |s| && s[i..i + |sub|] == sub
  }

  /** `s.includes(sub)`. */
  predicate Contains(s: string, sub: string)
    decreases |s|
  {
    StartsWith(s, sub) || (|s| > 0 && Contains(s[1..], sub))
  }

  lemma {:induction false} ContainsIff(s: string, sub: string)
    ensures Contains(s, sub) <==> exists i :: OccursAt(s, sub, i)
    decreases |s|
  {
    if StartsWith(s, sub) {
      assert OccursAt(s, sub, 0);
    } else if |s| > 0 {
      ContainsIff(s[1..], sub);
      if Contains(s[1..], sub) {
        var i :| OccursAt(s[1..], sub, i);
        assert s[1..][i..i + |sub|] == s[i + 1..i + 1 + |sub|];
        assert OccursAt(s, sub, i + 1);
      }
      if exists i :: OccursAt(s, sub, i) {
        var i :| OccursAt(s, sub, i);
        assert i != 0;
        assert s[1..][i - 1..i - 1 + |sub|] == s[i..i + |sub|];
        assert OccursAt(s[1..], sub, i - 1);
      }
    }
  }

  // ---------------------------------------------------------------------------
  // rendering a sequence piece by piece

  /** `xs.map(f)`. */
  function Map<A, B>(xs: seq<A>, f: A -> B): (r: seq<B>)
    ensures |r| == |xs| && forall i :: 0 <= i < |xs| ==> r[i] == f(xs[i])
  {
    if xs == [] then [] else [f(xs[0])] + Map(xs[1..], f)
  }

  lemma {:induction false} MapAppend<A, B>(xs: seq<A>, ys: seq<A>, f: A -> B)
    ensures Map(xs + ys, f) == Map(xs, f) + Map(ys, f)
  {
    if xs == [] {
      assert xs + ys == ys;
    } else {
      assert (xs + ys)[1..] == xs[1..] + ys;
      MapAppend(xs[1..], ys, f);
    }
  }

  /** The texts f gives for the elements of xs, one after another. */
  function FlatMap<T>(xs: seq<T>, f: T -> string): string {
    if xs == [] then [] else f(xs[0]) + FlatMap(xs[1..], f)
  }

  lemma FlatMapCons<T>(x: T, ys: seq<T>, f: T -> string)
    ensures FlatMap([x] + ys, f) == f(x) + FlatMap(ys, f)
  {
    assert ([x] + ys)[1..] == ys;
  }

  lemma {:induction false} FlatMapAppend<T>(xs: seq<T>, ys: seq<T>, f: T -> string)
    ensures FlatMap(xs + ys, f) == FlatMap(xs, f) + FlatMap(ys, f)
  {
    if xs == [] {
      assert xs + ys == ys;
    } else {
      assert (xs + ys)[0] == xs[0] && (xs + ys)[1..] == xs[1..] + ys;
      FlatMapAppend(xs[1..], ys, f);
    }
  }

  /** Renderers that agree on every element agree on the sequence. */
  lemma {:induction false} FlatMapAgree<T>(xs: seq<T>, f: T -> string, g: T -> string)
    requires forall i :: 0 <= i < |xs| ==> f(xs[i]) == g(xs[i])
    ensures FlatMap(xs, f) == FlatMap(xs, g)
  {
    if xs != [] {
      FlatMapAgree(xs[1..], f, g);
    }
  }

  // ---------------------------------------------------------------------------
  // `split(sep)` for a one-character separator

  function IndexOf(s: string, c: char): (r: Option<nat>)
    ensures r.Some? ==> r.value < |s| && s[r.value] == c && forall k :: 0 <= k < r.value ==> s[k] != c
    ensures r.None? ==> forall k :: 0 <= k < |s| ==> s[k] != c
  {
    if |s| == 0 then None
    else if s[0] == c then Some(0)
    else match IndexOf(s[1..], c)
      case None => None
      case Some(k) => Some(k + 1)
  }

  /** `s.split(sep)`: always at least one piece; no piece holds `sep`. */
  function Split(s: string, sep: char): (r: seq<string>)
    ensures |r| >= 1
    ensures forall i, k :: 0 <= i < |r| && 0 <= k < |r[i]| ==> r[i][k] != sep
    decreases |s|
  {
    match IndexOf(s, sep)
    case None => [s]
    case Some(k) => [s[..k]] + Split(s[k + 1..], sep)
  }

  function Join(pieces: seq<string>, sep: char): string
    requires |pieces| >= 1
  {
    if |pieces| == 1 then pieces[0] else pieces[0] + [sep] + Join(pieces[1..], sep)
  }

  /** Splitting loses nothing: joining the pieces restores the input. */
  lemma {:induction false} SplitJoin(s: string, sep: char)
    ensures Join(Split(s, sep), sep) == s
    decreases |s|
  {
    match IndexOf(s, sep)
    case None =>
    case Some(k) =>
      var rest := Split(s[k + 1..], sep);
      SplitJoin(s[k + 1..], sep);
      JoinCons(s[..k], rest, sep);
      SplitAround(s, k);
  }

  lemma JoinCons(p: string, rest: seq<string>, sep: char)
    requires |rest| >= 1
    ensures Join([p] + rest, sep) == p + [sep] + Join(rest, sep)
  {
    assert ([p] + rest)[1..] == rest;
  }

  lemma SplitAround(s: string, k: nat)
    requires k < |s|
    ensures s == s[..k] + [s[k]] + s[k + 1..]
  {
  }

  // ---------------------------------------------------------------------------
  // decimal digits

  function DigitValue(c: char): nat requires IsDigit(c) { c as int - '0' as int }

  function DigitChar(d: nat): (c: char)
    requires d < 10
    ensures IsDigit(c) && DigitValue(c) == d
  {
    ('0' as int + d) as char
  }

  /** The number a run of decimal digits spells (`parseInt` on digits). */
  function DigitsValue(s: string): nat
    requires AllDigits(s)
    decreases |s|
  {
    if |s| == 0 then 0 else DigitsValue(s[..|s| - 1]) * 10 + DigitValue(s[|s| - 1])
  }

  /** `n.toString()`: decimal digits without leading zeros. */
  function NatToString(n: nat): (r: string)
    ensures |r| >= 1 && AllDigits(r)
    ensures |r| > 1 ==> r[0] != '0'
    decreases n
  {
    if n < 10 then [DigitChar(n)] else NatToString(n / 10) + [DigitChar(n % 10)]
  }

  /** Rendering and reading decimal digits are inverse. */
  lemma {:induction false} NatToStringRoundTrip(n: nat)
    ensures DigitsValue(NatToString(n)) == n
    decreases n
  {
    if n >= 10 {
      NatToStringRoundTrip(n / 10);
      var s := NatToString(n);
      assert s[..|s| - 1] == NatToString(n / 10);
    }
  }

  /** `String(i)` for an integer. */
  function IntToString(i: int): (r: string)
    ensures i >= 0 ==> r == NatToString(i)
    ensures i < 0 ==> r == "-" + NatToString(-i)
  {
    if i < 0 then "-" + NatToString(-i) else NatToString(i)
  }

  /** Length of the leading run of digits. */
  function DigitRun(s: string): (k: nat)
    ensures k <= |s| && AllDigits(s[..k])
    ensures k == |s| || !IsDigit(s[k])
  {
    if |s| > 0 && IsDigit(s[0]) then
      var k := 1 + DigitRun(s[1..]);
      assert s[..k] == [s[0]] + s[1..][..k - 1];
      k
    else 0
  }

  /** Length of the leading run of white space. */
  function SpaceRun(s: string): (k: nat)
    ensures k <= |s| && AllSpace(s[..k])
    ensures k == |s| || !IsSpace(s[k])
  {
    if |s| > 0 && IsSpace(s[0]) then
      var k := 1 + SpaceRun(s[1..]);
      assert s[..k] == [s[0]] + s[1..][..k - 1];
      k
    else 0
  }

  lemma {:induction false} DigitRunOfDigits(a: string, b: string)
    requires AllDigits(a)
    requires b == [] || !IsDigit(b[0])
    ensures DigitRun(a + b) == |a|
  {
    if |a| > 0 {
      assert (a + b)[1..] == a[1..] + b;
      DigitRunOfDigits(a[1..], b);
    }
  }

  /** `parseInt(s, 10)`: leading white space, an optional sign, then the
      longest run of digits; `None` stands for NaN. */
  function ParseInt(s: string): Option<int> {
    var t := TrimStart(s);
    var neg := |t| > 0 && t[0] == '-';
    var u := if |t| > 0 && (t[0] == '-' || t[0] == '+') then t[1..] else t;
    var k := DigitRun(u);
    if k == 0 then None
    else if neg then Some(-(DigitsValue(u[..k]) as int))
    else Some(DigitsValue(u[..k]))
  }

  lemma DigitNotSpace(c: char)
    requires IsDigit(c)
    ensures !IsSpace(c) && c != '-' && c != '+'
  {
  }

  lemma TrimStartNoop(s: string)
    requires s == [] || !IsSpace(s[0])
    ensures TrimStart(s) == s
  {
  }

  lemma ParseIntOfDigits(d: string, rest: string)
    requires |d| > 0 && AllDigits(d)
    requires rest == [] || !IsDigit(rest[0])
    ensures ParseInt(d + rest) == Some(DigitsValue(d))
  {
    var s := d + rest;
    assert s[0] == d[0];
    DigitNotSpace(s[0]);
    ParseIntUnsigned(s);
    DigitRunOfDigits(d, rest);
    assert s[..|d|] == d;
  }

  /** Text that starts with neither white space nor a sign is read from
      its first character. */
  lemma ParseIntUnsigned(s: string)
    requires |s| > 0 && !IsSpace(s[0]) && s[0] != '-' && s[0] != '+'
    ensures ParseInt(s) == if DigitRun(s) == 0 then None else Some(DigitsValue(s[..DigitRun(s)]))
  {
    TrimStartNoop(s);
  }

  lemma ParseIntNoDigits(s: string)
    requires |s| > 0 && !IsSpace(s[0]) && !IsDigit(s[0]) && s[0] != '-' && s[0] != '+'
    ensures ParseInt(s) == None
  {
    assert TrimStart(s) == s;
  }
}

=== FILE: wrappers.dfy ===
/** Failure-carrying datatypes shared by every module of the model. */
module Wrappers {

  /** A value that may be absent: JavaScript's `undefined` / `null`. */
  datatype Option<+T> = None | Some(value: T) {

    /** The value, or `default` when absent (JavaScript's `??`). */
    function GetOr(default: T): T {
      match this
      case Some(v) => v
      case None => default
    }
  }

  /** The result of a JavaScript computation that either completes with a
      value or throws (for instance a TypeError when malformed data is read
      as if it were a string). */
  datatype Outcome<+T> = Done(value: T) | Throws {

    predicate IsFailure() { Throws? }

    function PropagateFailure<U>(): Outcome<U>
      requires Throws?
    {
      Throws
    }

    function Extract(): T
      requires Done?
    {
      value
    }
  }
}
